=== FILE: README.md ===
# Invoice manager front end: a Dafny model

This project models the decision logic of the invoice-manager web front end. That front end is a React/TypeScript single-page application. Users sign in with Google, connect Gmail accounts (possibly through an invite link sent by another user), and browse, filter and review the invoices extracted from those mailboxes.

The rendering and HTTP shell is stripped away. What remains is written as pure Dafny functions over immutable datatypes:

- **Storage.** `localStorage` and `sessionStorage` are `map<string, string>` (`Storage.Store`).
- **Backend answers.** Every answer is an input datatype. For `fetch` this is `Http.Outcome`: a 2xx body, a non-2xx status with its body text, an unreadable body, or a network error. For axios, each page has its own answered/thrown datatype.
- **Effects.** What a page does to the outside world is a returned value (`Effects.Effect`): a request, a navigation with its `setTimeout` delay, a full-page redirect, an `alert`, or a call of the auth context's `login()`.
- **Pages with a lifecycle.** The three invite pages are state machines. Each has a `Step` function over events and a `Run` over event sequences, with an invariant proved over every run. The OAuth callbacks are not: each is a `Handle` for one run of the mount effect, a `HandleAll` over repeated runs guarded by the processed flag, and a `Resolve…` function for the exchange's answer. Their lemmas bound the requests a whole visit sends.
- **List pages.** Invoices, invoice hierarchy, vendor preferences, groups, email accounts, invite modal, sync indicator and review queue each become a handful of transition functions. Where the page offers one, a transition is paired with its inverse, an idempotence law or a reference predicate. A request-and-answer pair is related by a lemma over the round trip: `EmailAccounts.LinkRoundTrip`, `GroupSelector.SyncThenFetch`, `Invoices.BulkDeleteDeletesClicked`. Single requests such as `InvoiceReview.Approve` only state the outcome of each answer in their contracts.

Modules follow the source files:

| module | source file |
|---|---|
| `Js`, `Storage`, `Effects`, `Http`, `UriEncoding` | JavaScript built-ins the pages rely on (`trim`, `toLowerCase`, `includes`, `String(n)`/`parseInt`, `encodeURIComponent`/`decodeURIComponent`), the storage keys, and the effects and fetch outcomes |
| `Invites` | `src/services/inviteService.ts` (type unions only) |
| `Auth` | `src/contexts/AuthContext.tsx` |
| `Api` | `src/services/api.ts` |
| `AddEmailAccountInvite` | `src/components/AddEmailAccountInvite.tsx` |
| `InviteAccept` | `src/components/InviteAccept.tsx` |
| `EmailAccountInvitePage` | `src/pages/EmailAccountInvite.tsx` |
| `GoogleCallback` | `src/components/GoogleCallback.tsx` |
| `EmailAccountCallback` | `src/components/EmailAccountCallback.tsx` |
| `EmailAccountCallbackPublic` | `src/components/EmailAccountCallbackPublic.tsx` |
| `Selection` | the toggle-in-a-list and toggle-in-a-set idioms shared by several pages |
| `Invoices` | `src/components/Invoices.tsx` |
| `InvoiceHierarchy` | `src/components/InvoiceHierarchy.tsx` |
| `VendorSelection` | `src/components/VendorSelection.tsx` |
| `GroupSelector` | `src/components/GroupSelector.tsx` |
| `EmailAccounts` | `src/components/EmailAccounts.tsx` |
| `InviteButton` | `src/components/EmailAccountInviteButton.tsx` |
| `SyncIndicator` | `src/components/BackgroundSyncIndicator.tsx` |
| `InvoiceReview` | `src/components/InvoiceReview.tsx` |
| `App` | `src/App.tsx` |

The OAuth callbacks consume the authorization-response parameters `code`, `error` and `state` of the OAuth 2.0 authorization code grant (sections 4.1.2 and 4.1.2.1 of RFC 6749).

Where a page's behaviour differs from what its surrounding design suggests, the model follows the code. Six such points are stated in these members' contracts:

- `EmailAccountInvitePage.UnsuccessfulAnswerStillConnects`: a 2xx public accept with `success: false` still starts the Gmail connection.
- `InviteAccept.RefusalShowsDefaultText`: a refused, non-expired invite shows the default text, because this page never stores the refusal message.
- `InvoiceHierarchy.AccountCrumbForgetsEmail`: the breadcrumbs built by an invoice click carry no email or month, so clicking the account crumb clears the selected email.
- `GoogleCallback.FailureMessage`: a non-2xx exchange always alerts `HTTP error! status: N - <body>`, because the inner `throw` is caught by its own `catch`; the backend's `detail` is never shown (see Findings).
- `EmailAccountCallback.Resolve`: with a pending invite the page goes to `/dashboard`, not to the email-accounts page.
- `Invoices.SelectAll`: select-all compares only the sizes of the selection and the page.

Only `EmailAccountInvite.tsx` reads `expires_at`. The other two invite pages classify expiry by `reason === 'expired'`. Each page is modelled as written.

## Model

| member | source | states |
|---|---|---|
| Auth.Restore | src/contexts/AuthContext.tsx:46-62 | start-up ends loading; a user is restored iff both keys hold non-empty values and the profile parses; a parse failure removes exactly the two session keys; otherwise storage is untouched |
| Auth.SetUserData | src/contexts/AuthContext.tsx:84-88 | writes the token and the serialised profile, sets the user, leaves every other key alone |
| Auth.Logout | src/contexts/AuthContext.tsx:77-81 | removes both session keys and the user, leaves every other key alone |
| Auth.Login | src/contexts/AuthContext.tsx:64-75 | redirects to the provider iff the answer carries a non-empty `auth_url`, and does nothing else |
| Auth.RestoreAfterSetUserData | src/contexts/AuthContext.tsx:48-53 | a session written by `setUserData` with a non-empty token is restored at the next start-up |
| Auth.EmptyTokenNotRestored | src/contexts/AuthContext.tsx:51 | an empty token is falsy, so the session written with it is not restored |
| Auth.RestoreAfterLogout | src/contexts/AuthContext.tsx:77-81 | after `logout` no start-up restores a user |
| Api.AttachAuthorization | src/services/api.ts:14-20 | a `Bearer` header is set iff a non-empty token is stored; other headers are kept |
| Api.OnResponseError | src/services/api.ts:23-33 | a 401 removes both session keys and redirects to `/login`; any other failure changes nothing |
| Api.UnauthorizedEndsSession | src/services/api.ts:26-30 | after a 401 no start-up restores a user and no request carries a bearer token |
| Api.CleanParams | src/services/api.ts:65-72 | drops exactly the `undefined`, `null` and `''` entries and keeps every other entry unchanged; no parameters give `{}` |
| Api.CleanParamsIdempotent | src/services/api.ts:67-71 | cleaning twice is cleaning once |
| Api.SyncInboxMonths | src/services/api.ts:58 | `months \|\| 1`: absent or 0 becomes 1, anything else is kept |
| Api.ScanSelectedVendorsBody | src/services/api.ts:103-106 | `email_account_id` is present iff a non-empty id is given |
| Invites.TypeName | src/services/inviteService.ts:6 | `share_access` names the share-access type and `add_email_account` the email-account type, and nothing else |
| Invites.ParseTypeName | src/services/inviteService.ts:6 | a wire string is an invite type iff it is one of the two names of the union |
| Invites.TypeNameRoundTrip | src/services/inviteService.ts:6 | every type reads back from its name, and every name that reads back is that type's name |
| AddEmailAccountInvite.Controls | src/components/AddEmailAccountInvite.tsx:113-220 | the accept button only in `valid`, connect only in `success`, try-again only in `error`, go-to-login in `invalid`, `expired` and `error` |
| AddEmailAccountInvite.Open | src/components/AddEmailAccountInvite.tsx:11-19 | the validation is requested iff the route token is non-empty; the page starts on its spinner |
| AddEmailAccountInvite.OnValidated | src/components/AddEmailAccountInvite.tsx:21-39 | `valid` iff valid and of type `add_email_account`; `expired` iff refused with reason `expired`; other valid types, other refusals and thrown calls give `invalid` with their specific messages |
| AddEmailAccountInvite.OnAccept | src/components/AddEmailAccountInvite.tsx:41-50 | an anonymous visitor only triggers `login()`; a signed-in one moves to `accepting` and posts the route token |
| AddEmailAccountInvite.OnAccepted | src/components/AddEmailAccountInvite.tsx:49-61 | `success` iff the answer says success; otherwise `error` with the message, the detail or the default text |
| AddEmailAccountInvite.Step | src/components/AddEmailAccountInvite.tsx:15-216 | clicks on controls not rendered and answers nobody awaits change nothing; an awaited answer goes to its handler; Accept runs `acceptInvite`, Connect redirects to the Gmail authorize path, Try Again returns from `error` to `valid` with no request, Go to Login navigates to `/login` |
| AddEmailAccountInvite.StepKeepsInv | src/components/AddEmailAccountInvite.tsx:11-62 | every event preserves the page invariant (token past the spinner, an email-account invite from `valid` on, a message in every failure view) |
| AddEmailAccountInvite.RunKeepsInv | src/components/AddEmailAccountInvite.tsx:11-62 | the invariant holds after any event sequence |
| AddEmailAccountInvite.OpenSatisfiesInv | src/components/AddEmailAccountInvite.tsx:11-19 | the mounted page satisfies the invariant |
| AddEmailAccountInvite.AcceptOnlyFromValid | src/components/AddEmailAccountInvite.tsx:137-158 | an accept request leaves only from `valid`, by a signed-in click, for the route token and an email-account invite |
| AddEmailAccountInvite.NoSecondAccept | src/components/AddEmailAccountInvite.tsx:163-170 | while accepting, no event sends a request |
| AddEmailAccountInvite.ThrownValidationIsInvalid | src/components/AddEmailAccountInvite.tsx:34-38 | a thrown validation never reads as expired |
| InviteAccept.Render | src/components/InviteAccept.tsx:64-160 | `invalid` and `error` share one view, which shows the stored text or the default; loading, valid, accepting, success and expired each have their own view, iff in that status |
| InviteAccept.Controls | src/components/InviteAccept.tsx:75-157 | the accept button only in `valid`; go-home in `expired`, `invalid` and `error` |
| InviteAccept.Open | src/components/InviteAccept.tsx:15-19 | validation is requested iff the token is non-empty |
| InviteAccept.OnValidated | src/components/InviteAccept.tsx:21-35 | `valid` for any valid invite (type ignored), storing `response.invite`; `expired` iff refused with reason `expired`; a thrown call stores the detail or the default |
| InviteAccept.OnAccept | src/components/InviteAccept.tsx:37-46 | an anonymous visitor only triggers `login()`; a signed-in one moves to `accepting` and posts the token |
| InviteAccept.OnAccepted | src/components/InviteAccept.tsx:44-61 | success schedules `/email-accounts` after 3000 ms; a failure stores a non-empty message |
| InviteAccept.Step | src/components/InviteAccept.tsx:15-157 | clicks on controls not rendered and answers nobody awaits change nothing; an awaited answer goes to its handler; Accept runs `acceptInvite`; the home button navigates to `/` |
| InviteAccept.StepKeepsInv | src/components/InviteAccept.tsx:11-62 | every event preserves the page invariant |
| InviteAccept.RunKeepsInv | src/components/InviteAccept.tsx:11-62 | the invariant holds after any event sequence |
| InviteAccept.SettledStaysSettled | src/components/InviteAccept.tsx:111-157 | once `success` or `error`, no event changes the status |
| InviteAccept.RefusalShowsDefaultText | src/components/InviteAccept.tsx:27-29 | a refused, non-expired invite shows the default invalid text |
| InviteAccept.NavigatesOnlyOnSuccess | src/components/InviteAccept.tsx:47-52 | the move to `/email-accounts` is scheduled only by a successful acceptance |
| EmailAccountInvitePage.Open | src/pages/EmailAccountInvite.tsx:27-32 | the validation query is issued iff the token is non-empty |
| EmailAccountInvitePage.Render | src/pages/EmailAccountInvite.tsx:92-144 | spinner while validating; "Invalid Invitation" on an error or an invalid answer, whatever the reason; expired iff the expiry is before now; otherwise the details, with the login prompt iff `showLoginPrompt` |
| EmailAccountInvitePage.OnAcceptClicked | src/pages/EmailAccountInvite.tsx:48-52 | without a token nothing happens; with one the public accept is sent for it |
| EmailAccountInvitePage.StartConnect | src/pages/EmailAccountInvite.tsx:61-70 | without a token nothing happens; with one the public OAuth URL is requested |
| EmailAccountInvitePage.OnAcceptDone | src/pages/EmailAccountInvite.tsx:35-58 | a resolved accept shows the login prompt and starts connecting; a rejected one stores the detail or the default |
| EmailAccountInvitePage.OnOAuthUrl | src/pages/EmailAccountInvite.tsx:70-88 | with a non-empty `auth_url` the token is parked under `pending_email_invite_token` and the browser leaves; otherwise the failure text is shown and nothing is written; `isConnecting` is cleared |
| EmailAccountInvitePage.Step | src/pages/EmailAccountInvite.tsx:27-271 | clicks count only on an enabled accept button; answers only when awaited; an awaited validation stores the answer or the failure; an enabled accept sends the public accept; an awaited accept or URL answer goes to its handler with the session kept or written; Go to Login navigates to `/login` iff the login prompt shows; Go Home navigates to `/` iff the invalid or expired view shows |
| EmailAccountInvitePage.OpenSatisfiesInv | src/pages/EmailAccountInvite.tsx:22-32 | the mounted page satisfies the invariant |
| EmailAccountInvitePage.StepKeepsInv | src/pages/EmailAccountInvite.tsx:35-89 | every event preserves the invariant (accepting and connecting never overlap, connecting only after an acceptance, the pending key holds only the route token) |
| EmailAccountInvitePage.RunKeepsInv | src/pages/EmailAccountInvite.tsx:35-89 | the invariant holds after any timed event sequence |
| EmailAccountInvitePage.ConnectOnlyAfterAccept | src/pages/EmailAccountInvite.tsx:51-54 | the OAuth URL is requested only as the continuation of a resolved acceptance |
| EmailAccountInvitePage.PendingTokenIsRouteToken | src/pages/EmailAccountInvite.tsx:75-79 | the stored correlation token is the route token, and it is written only together with the redirect |
| EmailAccountInvitePage.NoRevalidation | src/pages/EmailAccountInvite.tsx:31 | no event issues a second validation |
| EmailAccountInvitePage.UnsuccessfulAnswerStillConnects | src/pages/EmailAccountInvite.tsx:37-54 | a 2xx answer with `success: false` still starts the connection |
| EmailAccountInvitePage.NoTokenIsInvalid | src/pages/EmailAccountInvite.tsx:103-121 | without a token nothing is fetched and the invalid view shows |
| EmailAccountInvitePage.UnreadableExpiryNeverExpires | src/pages/EmailAccountInvite.tsx:124 | an invalid date compares as not earlier than now, so it never shows as expired |
| EmailAccountInvitePage.IsExpired | src/pages/EmailAccountInvite.tsx:124 | expired iff a readable expiry lies before now |
| EmailAccountInvitePage.AcceptEnabled | src/pages/EmailAccountInvite.tsx:238-273 | the accept button is live iff the details view shows it enabled |
| GoogleCallback.FlowOf | src/components/GoogleCallback.tsx:46-125 | exactly the two known `state` values select the email-account exchanges; anything else, absence included, is a sign-in |
| GoogleCallback.FlowOfStateOf | src/components/GoogleCallback.tsx:46-159 | each flow is recovered from the `state` it sends |
| GoogleCallback.StateOf | src/components/GoogleCallback.tsx:46-125 | the `state` sent for a flow: present iff the flow is an email-account one |
| GoogleCallback.Fail | src/components/GoogleCallback.tsx:161-164 | a failure alerts `Authentication failed: ` with the message, then goes home, sending no request |
| GoogleCallback.ExchangeRequest | src/components/GoogleCallback.tsx:54-134 | only the public flow is a GET with the URI-encoded code in the query; only the account flow carries the bearer token; the others post `{code}`, the account flow to `/api/email-accounts/oauth/gmail/callback` and the sign-in flow to `/auth/google/exchange` |
| GoogleCallback.Handle | src/components/GoogleCallback.tsx:16-165 | the guard is raised first; a raised guard does nothing; an `error` or a missing code navigates home with no request; an exchange is sent iff the run is first and has a code, and a token when the account flow needs one; the account flow without a token alerts `Authentication failed: User not authenticated. Please log in first.` and goes home |
| GoogleCallback.HandleAll | src/components/GoogleCallback.tsx:11-19 | repeated runs against one ref: the guard is up after any run, and stays down only with no run |
| GoogleCallback.HandleAllProcessed | src/components/GoogleCallback.tsx:16-19 | once the guard is raised, any number of runs emit nothing |
| GoogleCallback.AtMostOneExchange | src/components/GoogleCallback.tsx:11-19 | however many times the effect runs on one instance, at most one exchange is sent |
| GoogleCallback.NonOkMessageAsWritten | src/components/GoogleCallback.tsx:63-73 | as written, the message of a non-2xx answer is always the status text, ` - `, then the raw body text, whatever the body parses to |
| GoogleCallback.AsWrittenNeverShowsDetail | src/components/GoogleCallback.tsx:67-72 | a JSON body with a `detail` never surfaces that `detail`, while the corrected message does |
| GoogleCallback.AsWrittenCounterexample | src/components/GoogleCallback.tsx:67-72 | a 400 with body `{"detail":"invalid_grant"}` shows the status line, not `invalid_grant` |
| GoogleCallback.NonOkMessage | src/components/GoogleCallback.tsx:68-71 | the backend `detail` when present, otherwise a message starting with the status text |
| GoogleCallback.FailureMessage | src/components/GoogleCallback.tsx:161-164 | the message the page alerts for a failed exchange: the as-written non-2xx message (status, ` - `, body), the parser error, or the network error |
| GoogleCallback.FailureMessageIntended | src/components/GoogleCallback.tsx:63-73 | the corrected page-level message: the backend `detail` of a non-2xx JSON body when present |
| GoogleCallback.FailureMessagesCompared | src/components/GoogleCallback.tsx:63-73 | the two messages agree on non-JSON bodies and transport failures, and differ on every JSON body without `detail` and every `detail` that is not itself an `HTTP error!` text |
| GoogleCallback.ResolveEmailAccount | src/components/GoogleCallback.tsx:63-82 | success alerts and goes to `/email-accounts`; failure alerts `Authentication failed: ` with the as-written message and goes home; no request |
| GoogleCallback.ResolveEmailAccountInvalidGrant | src/components/GoogleCallback.tsx:63-73 | a 400 with body `{"detail":"invalid_grant"}` alerts `Authentication failed: HTTP error! status: 400 - {"detail":"invalid_grant"}` |
| GoogleCallback.ResolvePublic | src/components/GoogleCallback.tsx:96-123 | success goes to `/invite-success` carrying `email` and `inviter_user_id`; failure alerts the as-written message (status, ` - `, body) and goes home; no request |
| GoogleCallback.ResolveMainLogin | src/components/GoogleCallback.tsx:136-165 | success stores the session through `setUserData` and goes to `/dashboard`; failure alerts the as-written message, goes home and leaves the session untouched |
| GoogleCallback.MainLoginRestores | src/components/GoogleCallback.tsx:136-165 | the session a successful sign-in stores is restored at the next start-up (non-empty token, profile surviving a JSON round trip); a failed sign-in restores what was there before |
| GoogleCallback.CallbackSendsAtMostOneRequest | src/components/GoogleCallback.tsx:11-165 | any number of effect runs followed by the handling of the answer, in any of the three flows, send at most one request |
| GoogleCallback.PublicCodeRoundTrip | src/components/GoogleCallback.tsx:89 | the server decodes exactly the code from the public request's query string |
| EmailAccountCallback.ExchangeRequest | src/components/EmailAccountCallback.tsx:56-62 | a POST with the bearer token and the URI-encoded code in the query |
| EmailAccountCallback.Handle | src/components/EmailAccountCallback.tsx:17-62 | a processed run does nothing; the flag is raised iff a code is present; `error`, a missing code and a missing token each give their `error` message with no request; otherwise exactly one exchange |
| EmailAccountCallback.Resolve | src/components/EmailAccountCallback.tsx:64-110 | success iff the answer is 2xx; a non-2xx shows the detail or the status (with the body when not JSON); a pending invite token is removed and leads to `/dashboard` after 3000 ms, otherwise `/email-accounts` after 2000 ms |
| EmailAccountCallback.SuccessClearsPendingInvite | src/components/EmailAccountCallback.tsx:83-88 | after a success no usable invite token is left pending |
| EmailAccountCallback.NeverBackToLoading | src/components/EmailAccountCallback.tsx:10-110 | once the status has left `loading`, no run puts it back |
| EmailAccountCallback.HandleRendersProcessed | src/components/EmailAccountCallback.tsx:17 | once processed, re-renders emit nothing |
| EmailAccountCallback.AtMostOneExchangeAcrossRenders | src/components/EmailAccountCallback.tsx:12-25 | across re-renders at most one exchange is sent |
| EmailAccountCallbackPublic.FormOf | src/components/EmailAccountCallbackPublic.tsx:40 | the body is `code=` followed by a value holding no `&`, `=` or `+` |
| EmailAccountCallbackPublic.FormCarriesCode | src/components/EmailAccountCallbackPublic.tsx:38-40 | the form value decodes to exactly the code received |
| EmailAccountCallbackPublic.Process | src/components/EmailAccountCallbackPublic.tsx:17-41 | `error` and a missing code each give their message with no request; otherwise one form-encoded POST |
| EmailAccountCallbackPublic.Resolve | src/components/EmailAccountCallbackPublic.tsx:43-66 | success iff 2xx, with the message or the default, removing the pending token and moving to `/dashboard` after 3000 ms; every failure stores a non-empty error |
| EmailAccountCallbackPublic.SuccessRemovesPendingInvite | src/components/EmailAccountCallbackPublic.tsx:55 | success always removes the pending invite token |
| EmailAccountCallbackPublic.EachRunPosts | src/components/EmailAccountCallbackPublic.tsx:14-41 | with no guard, two runs with a code post it twice |
| Http.StatusText | src/components/EmailAccountCallback.tsx:71 | `HTTP error! status: ` followed by the decimal status |
| Http.StatusWithBody | src/components/EmailAccountCallback.tsx:74 | the status text followed by ` - ` and the body text |
| Http.DetailOrStatus | src/components/EmailAccountCallback.tsx:68-75 | the `detail` of a JSON body when non-empty, the status for JSON without one, the status and body when not JSON; never empty |
| Http.StatusTextInjective | src/components/EmailAccountCallback.tsx:71 | different statuses give different status texts |
| Effects.RequestCount | src/components/GoogleCallback.tsx:54-61 | the number of requests is zero iff no effect is a request |
| Effects.RequestCountAppend | src/components/GoogleCallback.tsx:13-19 | request counts add over concatenated runs |
| Storage.Put | src/contexts/AuthContext.tsx:85-86 | `setItem` sets one key and leaves the others |
| Storage.Remove | src/contexts/AuthContext.tsx:78-79 | `removeItem` clears one key and leaves the others |
| UriEncoding.EncodeUriComponent | src/components/EmailAccountCallbackPublic.tsx:40 | `encodeURIComponent`: output only unreserved characters and `%XX` escapes |
| UriEncoding.DecodeEncode | src/components/EmailAccountCallback.tsx:56 | decoding the encoding gives back the code |
| UriEncoding.DecodeUriComponent | src/components/EmailAccountCallback.tsx:56 | the server-side decoding of the code, failing on a malformed escape; its result is never longer than its input |
| UriEncoding.EncodeInjective | src/components/EmailAccountCallback.tsx:56 | different codes are sent as different strings |
| Js.TrimEmptyIffBlank | src/components/VendorSelection.tsx:177-182 | `!s.trim()` holds exactly for strings made only of ECMAScript whitespace |
| Js.NatToString | src/components/EmailAccounts.tsx:67 | the decimal text of a number: non-empty, all digits, no leading zero |
| Js.ParseNatToString | src/components/EmailAccountInviteButton.tsx:130 | `parseInt(String(n)) == n` |
| Js.NatToStringInjective | src/components/BackgroundSyncIndicator.tsx:47 | different counts print differently |
| Selection.RemoveAll | src/components/Invoices.tsx:112 | removes every copy of one id and keeps every other id |
| Selection.Toggle | src/components/Invoices.tsx:110-116 | flips the membership of one id (appended when absent) and keeps every other id |
| Selection.ToggleTwiceRestores | src/components/Invoices.tsx:110-116 | toggling an absent id twice restores the list |
| Selection.ToggleDistinct | src/components/Invoices.tsx:110-116 | toggling keeps a duplicate-free selection duplicate-free |
| Selection.Flip | src/components/InvoiceHierarchy.tsx:134-142 | flips membership of one key in a set, changing the size by one |
| Selection.FlipTwice | src/components/InvoiceHierarchy.tsx:134-152 | flipping twice restores the set |
| Invoices.ChangeFilter | src/components/Invoices.tsx:81-84 | sets one filter, keeps the others and the sort and selection, returns to page 1 |
| Invoices.ClearFilters | src/components/Invoices.tsx:126-139 | all nine filters present and empty, so no filter is active; page 1 |
| Invoices.HasActiveFilters | src/components/Invoices.tsx:226 | the clear button shows iff some filter value is non-empty |
| Invoices.ChangeThenClear | src/components/Invoices.tsx:81-139 | a non-empty filter makes filters active; clearing afterwards is the same as clearing before |
| Invoices.Sort | src/components/Invoices.tsx:101-108 | the same field flips the order; a new field starts descending |
| Invoices.SortTwice | src/components/Invoices.tsx:101-108 | sorting the current field twice restores the state; a new field twice gives ascending |
| Invoices.QueryParams | src/components/Invoices.tsx:57-64 | the request carries every filter as a string, and the page, page size, sort field and sort order unless a filter of the same name overrides them; it carries no other key |
| Invoices.BaseKeysAreNotFilters | src/components/Invoices.tsx:59-63 | the paging and sort keys are not filter names |
| Invoices.ClearedQuerySendsNoFilter | src/components/Invoices.tsx:57-139 | after clearing, the cleaned request holds exactly page, page size, sort field and order |
| Invoices.SelectInvoice | src/components/Invoices.tsx:110-116 | removes the id if selected, else appends it; other ids are unchanged |
| Invoices.SelectAll | src/components/Invoices.tsx:118-124 | clears when the selection size equals the page size, else selects the page's ids; no page clears |
| Invoices.SelectAllTwice | src/components/Invoices.tsx:118-124 | from nothing selected, select-all selects every id and a second one clears |
| Invoices.BulkDelete | src/components/Invoices.tsx:92-98 | nothing happens on an empty selection or a refused confirmation; otherwise every selected id is deleted and the selection cleared |
| Invoices.SelectManyAppends | src/components/Invoices.tsx:110-116 | clicking distinct unselected ids appends them to the selection in click order |
| Invoices.BulkDeleteDeletesClicked | src/components/Invoices.tsx:92-124 | from an empty selection, a confirmed bulk delete deletes exactly the clicked ids, each once, and the next select-all selects the page; a declined one changes nothing |
| Invoices.SelectionStaysDistinct | src/components/Invoices.tsx:110-116 | any sequence of checkbox clicks keeps the selection duplicate-free |
| Invoices.PrevPage | src/components/Invoices.tsx:731 | `max(1, p-1)` |
| Invoices.PagerShown | src/components/Invoices.tsx:721 | the pager shows only with more than one page |
| Invoices.PrevDisabled | src/components/Invoices.tsx:732 | Previous is disabled on page 1 |
| Invoices.NextDisabled | src/components/Invoices.tsx:759 | Next is disabled on the last page |
| Invoices.NextPage | src/components/Invoices.tsx:758 | `min(total_pages, p+1)` |
| Invoices.ArrowsStayInRange | src/components/Invoices.tsx:731-759 | from a page in range both arrows stay in range; an arrow is disabled iff it would not move; one arrow undoes the other |
| Invoices.PageButtons | src/components/Invoices.tsx:739 | buttons `1..min(5, total_pages)` |
| Invoices.ShowingRange | src/components/Invoices.tsx:724-725 | from `(p-1)*20+1` to `min(p*20, total)` |
| Invoices.ShowingRangeIsPage | src/components/Invoices.tsx:724-725 | on a page in range the span holds 1 to 20 invoices, exactly 20 before the last page |
| Invoices.PendingCount | src/components/Invoices.tsx:228 | the number of invoices with status `pending`, 0 when none are loaded |
| Invoices.PendingOf | src/components/Invoices.tsx:228 | exactly the pending invoices |
| Invoices.PendingOfAppend | src/components/Invoices.tsx:228 | pending counts add over concatenation |
| Invoices.VendorSet | src/components/Invoices.tsx:229 | exactly the vendor names that occur, no more of them than invoices |
| Invoices.UniqueVendors | src/components/Invoices.tsx:229 | the number of distinct vendor names (the size of the vendor set): 0 iff none, at most the number of invoices; 0 before loading |
| Invoices.UniqueVendorsIgnoresRepeats | src/components/Invoices.tsx:229 | another invoice of a known vendor does not change the count |
| Invoices.UniqueVendorsCountsNew | src/components/Invoices.tsx:229 | an invoice from a vendor not yet listed raises the count by exactly one |
| InvoiceHierarchy.InvoiceClick | src/components/InvoiceHierarchy.tsx:95-104 | the invoices view with exactly five crumbs: root, emails, the email, the month, the vendor |
| InvoiceHierarchy.BreadcrumbClick | src/components/InvoiceHierarchy.tsx:106-131 | keeps the first i+1 crumbs; root and emails clear the selection; months takes the crumb's email; invoices takes its email and month |
| InvoiceHierarchy.BreadcrumbClickIdempotent | src/components/InvoiceHierarchy.tsx:106-131 | clicking the last crumb again changes nothing |
| InvoiceHierarchy.OpenEmails | src/components/InvoiceHierarchy.tsx:195-197 | the root view's Invoices card shows the email list and changes nothing else, the trail included |
| InvoiceHierarchy.EmailsCrumbMatchesOpenEmails | src/components/InvoiceHierarchy.tsx:96-197 | the Invoices crumb of an invoice trail gives the card's view with both selections cleared and two crumbs |
| InvoiceHierarchy.OpenEmailsKeepsWayBack | src/components/InvoiceHierarchy.tsx:106-197 | opened from the first render the email list has no trail, so no crumb returns to the root; a trail that starts at the root still returns there |
| InvoiceHierarchy.AccountCrumbForgetsEmail | src/components/InvoiceHierarchy.tsx:100-124 | after an invoice click, the account crumb opens the months view with no email selected |
| InvoiceHierarchy.ToggleEmail | src/components/InvoiceHierarchy.tsx:134-142 | flips one email's expansion, nothing else |
| InvoiceHierarchy.ToggleMonth | src/components/InvoiceHierarchy.tsx:144-152 | flips one month's expansion, nothing else |
| InvoiceHierarchy.ToggleTwice | src/components/InvoiceHierarchy.tsx:134-152 | toggling twice restores the state |
| InvoiceHierarchy.InvoiceClickShowsNothing | src/components/InvoiceHierarchy.tsx:409-410 | the view an invoice click opens renders no body |
| InvoiceHierarchy.RendersBody | src/components/InvoiceHierarchy.tsx:409-410 | only the root and emails levels render a body |
| InvoiceHierarchy.EmailInvoiceCount | src/components/InvoiceHierarchy.tsx:218-220 | the count is the number of invoices over all months, 0 iff every month is empty |
| InvoiceHierarchy.EmailInvoiceCountAppend | src/components/InvoiceHierarchy.tsx:218-220 | counts add over months |
| VendorSelection.ToggleVendor | src/components/VendorSelection.tsx:117-125 | flips one id, keeps all others |
| VendorSelection.ToggleEnablesSave | src/components/VendorSelection.tsx:548 | selecting one vendor enables save; deselecting it disables it again |
| VendorSelection.SaveDisabled | src/components/VendorSelection.tsx:548 | Save is disabled while saving or with no vendor selected |
| VendorSelection.Filtered | src/components/VendorSelection.tsx:264-275 | an empty term keeps all; otherwise exactly the vendors whose name, category or a domain contains the lower-cased term |
| VendorSelection.FilteredAppend | src/components/VendorSelection.tsx:264-275 | filtering preserves order: it distributes over concatenation |
| VendorSelection.FilteredIdempotent | src/components/VendorSelection.tsx:264-275 | filtering twice is filtering once |
| VendorSelection.ShownName | src/components/VendorSelection.tsx:266 | the name the list shows and searches: `display_name`, else `name`, else empty |
| VendorSelection.Matches | src/components/VendorSelection.tsx:264-275 | the lower-cased term occurs in the shown name, the category or one of the domains |
| VendorSelection.TrimmedIffFilled | src/components/VendorSelection.tsx:182 | `domain.trim()` is truthy iff the domain is not all whitespace |
| VendorSelection.ValidDomains | src/components/VendorSelection.tsx:182 | keeps only filled domains, never more than given |
| VendorSelection.ValidDomainsAreFilled | src/components/VendorSelection.tsx:182 | the submitted domains are exactly the non-blank ones |
| VendorSelection.Validate | src/components/VendorSelection.tsx:177-192 | invalid iff the name is blank or every domain is blank, with the matching message; otherwise the name, the non-blank domains and the category |
| VendorSelection.BlankDomains | src/components/VendorSelection.tsx:182-186 | no domain survives iff all are blank |
| VendorSelection.AddCustomVendor | src/components/VendorSelection.tsx:172-205 | an invalid form sends nothing; a valid one sends one submission; success resets the form to ('', [''], 'software'); failure keeps it with the detail or the default |
| VendorSelection.ResetFormIsIncomplete | src/components/VendorSelection.tsx:195 | the reset form is refused for its missing name |
| VendorSelection.AddDomainField | src/components/VendorSelection.tsx:207-212 | appends one empty field |
| VendorSelection.UpdateDomain | src/components/VendorSelection.tsx:214-219 | changes only field i |
| VendorSelection.RemoveDomain | src/components/VendorSelection.tsx:221-226 | deletes only field i, shifting the later ones |
| VendorSelection.RemoveOffered | src/components/VendorSelection.tsx:445 | a domain's remove button shows only when there are two or more fields |
| VendorSelection.DomainFieldsNeverRunOut | src/components/VendorSelection.tsx:207-226 | removal is offered only with two or more fields, so one always remains; adding then removing the new field restores the form |
| GroupSelector.ValidGroups | src/components/GroupSelector.tsx:46-52 | only groups with a `group_id`, every such group kept, no more groups than received; none for no data |
| GroupSelector.WithIds | src/components/GroupSelector.tsx:46-52 | only groups with a `group_id`, every such group kept, no more groups than received |
| GroupSelector.WithIdsAppend | src/components/GroupSelector.tsx:46-52 | filtering keeps the order received: the filter of a concatenation is the concatenation of the filters |
| GroupSelector.WithIdsSingleton | src/components/GroupSelector.tsx:46-52 | one group is kept once iff it has a `group_id`; with the append law this fixes order and multiplicity |
| GroupSelector.WithIdsIdempotent | src/components/GroupSelector.tsx:46-52 | filtering the filtered list changes nothing |
| GroupSelector.FetchGroups | src/components/GroupSelector.tsx:41-66 | success shows the groups with ids; a 403 shows the permission text and any other failure the generic one; loading ends |
| GroupSelector.SyncGroups | src/components/GroupSelector.tsx:68-83 | refetches iff the sync succeeded; otherwise the message or the default, or the thrown-call text |
| GroupSelector.SyncThenFetch | src/components/GroupSelector.tsx:41-83 | after a successful sync the refetch settles to the same state whether `syncing` is cleared before or after it; neither flag stays up and a fetched list replaces the groups |
| GroupSelector.ToggleGroup | src/components/GroupSelector.tsx:85-106 | an empty id calls nothing; otherwise one id's membership flips (appended when absent) |
| GroupSelector.ScanSelected | src/components/GroupSelector.tsx:108-112 | the scan is called iff the selection is non-empty, with the selection |
| GroupSelector.SelectedGroupsData | src/components/GroupSelector.tsx:114 | only groups whose id is selected, every such group kept |
| GroupSelector.SelectedGroupsDataAppend | src/components/GroupSelector.tsx:114 | the selection keeps group order: selecting from a concatenation concatenates the selections |
| GroupSelector.SelectedGroupsDataSingleton | src/components/GroupSelector.tsx:114 | one group is kept once iff its id is selected; with the append law this fixes order and multiplicity |
| GroupSelector.ToggleShowsGroup | src/components/GroupSelector.tsx:95-114 | selecting a listed group shows it as selected, and a second toggle restores the selection |
| GroupSelector.FetchedGroupsHaveIds | src/components/GroupSelector.tsx:46-93 | every listed group can be toggled |
| EmailAccounts.DateRange | src/components/EmailAccounts.tsx:15 | the stored range, or 3 when unset or 0 |
| EmailAccounts.SetDateRange | src/components/EmailAccounts.tsx:18-20 | changes only that account's range |
| EmailAccounts.ChosenRangeIsShown | src/components/EmailAccounts.tsx:15-20 | a chosen option is shown for that account; every other account keeps its range |
| EmailAccounts.DefaultIsOffered | src/components/EmailAccounts.tsx:15 | every account starts on 3 months, one of the options 1, 2, 3 |
| EmailAccounts.StartLink | src/components/EmailAccounts.tsx:41-44 | sets `isLinking` and requests the URL for the provider |
| EmailAccounts.FinishLink | src/components/EmailAccounts.tsx:46-55 | redirects iff the answer has a non-empty `auth_url`; a thrown call alerts; `isLinking` ends false |
| EmailAccounts.LinkRoundTrip | src/components/EmailAccounts.tsx:41-55 | starting and finishing a link restores the page apart from a cleared `isLinking`, and the round sends exactly one request |
| EmailAccounts.RangeText | src/components/EmailAccounts.tsx:67 | `1 month` iff months is 1, else `N months` |
| EmailAccounts.RangeTextNamesMonths | src/components/EmailAccounts.tsx:67 | the phrase begins with digits that read back as the months, singular only for 1 |
| EmailAccounts.StartSync | src/components/EmailAccounts.tsx:58-62 | marks the account and posts the range it shows |
| EmailAccounts.FinishSync | src/components/EmailAccounts.tsx:66-80 | clears the mark on every path and alerts the started or failed text |
| EmailAccounts.StartedText | src/components/EmailAccounts.tsx:67-72 | the confirmation begins with the started notice and the range the scan covers |
| EmailAccounts.SyncMarksOnlyWhileAwaited | src/components/EmailAccounts.tsx:58-80 | `syncingInboxId` is the account while awaited and null afterwards, whatever the answer |
| InviteButton.FirstAt | src/components/EmailAccountInviteButton.tsx:60 | the index of the first `@`, if any |
| InviteButton.ValidEmailMatchesPattern | src/components/EmailAccountInviteButton.tsx:59-61 | the decision accepts exactly the strings `/^[^\s@]+@[^\s@]+\.[^\s@]+$/` matches |
| InviteButton.ValidEmailIsMatch | src/components/EmailAccountInviteButton.tsx:60 | an accepted address matches the pattern |
| InviteButton.MatchIsValidEmail | src/components/EmailAccountInviteButton.tsx:60 | a matching address is accepted |
| InviteButton.SplitIsValidEmail | src/components/EmailAccountInviteButton.tsx:60 | any split the pattern allows gives an accepted address |
| InviteButton.FirstAtAfterPlain | src/components/EmailAccountInviteButton.tsx:60 | an `@` after only plain characters is the first one |
| InviteButton.AllPlainAround | src/components/EmailAccountInviteButton.tsx:60 | runs of plain characters joined by a plain character stay plain |
| InviteButton.Samples | src/components/EmailAccountInviteButton.tsx:60 | `a@b.co` is accepted, `a b@c.d` refused |
| InviteButton.ValidEmail | src/components/EmailAccountInviteButton.tsx:59-61 | `validateEmail`: one `@` after a non-empty run without whitespace, then a domain without whitespace or `@` with an inner dot (equal to the pattern by `ValidEmailMatchesPattern`) |
| InviteButton.CreateDisabled | src/components/EmailAccountInviteButton.tsx:156 | the create button is disabled while loading, with no address, or with an address the pattern refuses |
| InviteButton.Create | src/components/EmailAccountInviteButton.tsx:17-39 | an empty address shows its message and sends nothing; otherwise the form is sent and the link or the detail/default is shown; loading ends |
| InviteButton.EnabledButtonSends | src/components/EmailAccountInviteButton.tsx:156 | an enabled button sends exactly one request, for an address the pattern accepts |
| InviteButton.CloseModal | src/components/EmailAccountInviteButton.tsx:51-57 | closed, no link, no error, not copied, form ('', 24) |
| InviteButton.CloseRestoresInitial | src/components/EmailAccountInviteButton.tsx:12-57 | closing an idle modal gives exactly the initial one |
| InviteButton.ChooseHours | src/components/EmailAccountInviteButton.tsx:130 | stores `parseInt` of the option text |
| InviteButton.ChosenOptionIsStored | src/components/EmailAccountInviteButton.tsx:130-136 | choosing any of 1, 24, 72, 168 stores that value |
| InviteButton.HourUnit | src/components/EmailAccountInviteButton.tsx:205 | `hour` iff the value is 1 |
| SyncIndicator.RunningOps | src/components/BackgroundSyncIndicator.tsx:26 | only running operations |
| SyncIndicator.FinishedOps | src/components/BackgroundSyncIndicator.tsx:27 | only non-running operations |
| SyncIndicator.RunningFinishedPartition | src/components/BackgroundSyncIndicator.tsx:26-27 | the two lists partition the operations: same multiset, disjoint, lengths add up |
| SyncIndicator.Summary | src/components/BackgroundSyncIndicator.tsx:29-48 | nothing iff no operations; `Syncing N account(s)...` while any run, else `Sync completed` |
| SyncIndicator.AccountWord | src/components/BackgroundSyncIndicator.tsx:47 | singular iff at most one |
| SyncIndicator.HeaderDismiss | src/components/BackgroundSyncIndicator.tsx:53-58 | dismisses every finished operation, in order, and only when none run |
| SyncIndicator.HeaderDismissesAll | src/components/BackgroundSyncIndicator.tsx:53-58 | with nothing running, every operation shown is dismissed |
| SyncIndicator.NoneRunningAllFinished | src/components/BackgroundSyncIndicator.tsx:26-27 | with nothing running, the finished list is the whole list |
| SyncIndicator.DismissedAreFinished | src/components/BackgroundSyncIndicator.tsx:57-110 | whatever the header dismisses is an operation a row would also offer to dismiss |
| SyncIndicator.DismissOffered | src/components/BackgroundSyncIndicator.tsx:103-110 | a row offers its close button only for a finished operation |
| InvoiceReview.ConfidenceColor | src/components/InvoiceReview.tsx:95-100 | gray iff missing or 0; green iff at least 0.8; orange iff in [0.5, 0.8); red otherwise |
| InvoiceReview.ColorMonotone | src/components/InvoiceReview.tsx:95-100 | a higher positive score never gets a worse colour |
| InvoiceReview.PageCount | src/components/InvoiceReview.tsx:232 | `ceil(total/20)`: the smallest page count holding the total |
| InvoiceReview.PagerShown | src/components/InvoiceReview.tsx:222 | the pager shows only with more than twenty invoices |
| InvoiceReview.PrevDisabled | src/components/InvoiceReview.tsx:226 | Previous is disabled on page 1 |
| InvoiceReview.NextDisabled | src/components/InvoiceReview.tsx:236 | Next is disabled once the page reaches the total |
| InvoiceReview.ArrowsMatchCounter | src/components/InvoiceReview.tsx:226-236 | Next is enabled iff the page is before the count shown; Previous iff after the first |
| InvoiceReview.FollowStaysInRange | src/components/InvoiceReview.tsx:225-236 | clicking enabled arrows from a page in range stays in `1..ceil(total/20)` |
| InvoiceReview.EnabledClicksStayInRange | src/components/InvoiceReview.tsx:20-236 | from page 1, any clicks on enabled arrows stay in range |
| InvoiceReview.Approve | src/components/InvoiceReview.tsx:44-46 | `is_valid: true`, no reason |
| InvoiceReview.Reject | src/components/InvoiceReview.tsx:53-58 | `is_valid: false` with the given reason, or `Not a valid invoice` when none |
| InvoiceReview.Edit | src/components/InvoiceReview.tsx:76-83 | edits this invoice, copying exactly its vendor, amount and date |
| InvoiceReview.SaveEdit | src/components/InvoiceReview.tsx:85-93 | sends the buffer; a save closes the editor, a failure keeps it |
| InvoiceReview.EditRoundTrip | src/components/InvoiceReview.tsx:76-88 | saving an untouched edit sends the invoice's own three fields |
| InvoiceReview.CancelEdit | src/components/InvoiceReview.tsx:180-185 | Cancel closes the editor and keeps the buffer |
| InvoiceReview.CancelMatchesSave | src/components/InvoiceReview.tsx:85-185 | a cancel leaves the editor as a successful save does, without sending anything |
| App.ProtectedRoute | src/App.tsx:40-52 | spinner iff loading; once loaded, the page iff signed in, else `/login` |
| App.GuardFollowsRestore | src/App.tsx:43-51 | the guard waits before start-up and opens after it exactly when a stored session is restored |
| App.LogoutClosesGuard | src/App.tsx:51 | after `logout` the guard is closed, and a reload redirects to `/login` |
| App.IsActive | src/App.tsx:554-562 | an entry is highlighted iff the path is its own |
| App.AtMostOneActive | src/App.tsx:542-562 | at most one sidebar entry is highlighted |
| App.AccountsLabel | src/App.tsx:315 | the count then `account`, singular iff the count is 1 |
| App.AccountsLabelNamesCount | src/App.tsx:315 | the label starts with digits that read back as the count |

## Left out

- Rendering, styling and icons. The model keeps only which view, control or text a state selects.
- Real network and storage I/O. Answers are inputs; requests, navigations, redirects and alerts are returned effects; storage is a map.
- `setTimeout`: only the delay of a scheduled navigation is recorded; the timer itself is not modelled.
- React StrictMode and effect scheduling. The `hasProcessed` guards are a plain boolean threaded through successive runs. Exactly-once under concurrent re-invocation is not claimed.
- `window.history.replaceState` and `console` logging have no observable effect on the modelled state.
- Clipboard copy, CSV export, the file download link, `window.open` and `window.confirm`. A confirmation is a boolean input (`Invoices.BulkDelete`).
- Monetary sums of `total_amount`: they are JavaScript floating-point. Only count-based aggregates are modelled.
- Locale date formatting and the `split('T')` of the date input.
- Elapsed-time rounding in the sync indicator.
- The data loading and `savePreferences` of the vendor page, the invoice list and statistics queries, and the review queue's fetch, approve and delete requests. These are request plumbing; only the bodies and the state changes are modelled.
- Home, ThreeBackground, Logo, Dashboard, TextInvoiceProcessor, InviteButton, InviteSuccess, SyncProgress, `test-hierarchy.tsx` and `src/gemini/`: decorative, display-only, or calls to an external model. They are not part of this model.
- `groupsService.ts` and `inviteService.ts` are HTTP wrappers; only their type unions are modelled.
- Api.SyncInboxMonths: `months` is an integer, so the `NaN` case of `months || 1` (which also gives 1) is not modelled.
- Js.Lower: `toLowerCase` is modelled on ASCII letters only, because full Unicode case mapping is a table outside this model.
- Auth.Restore: `JSON.parse('null')` succeeding with `null` is folded into the `parse` parameter returning `None`, so that case does not keep the stored keys as the source does.
- EmailAccountInvitePage.Render: `expires_at` is an optional millisecond timestamp; an absent or unparseable date is `None`, which, like JavaScript's `NaN`, never compares as earlier. A JSON `null` is not told apart: `new Date(null)` is the epoch, so the page shows such an invite as expired, while the model shows it as valid.
- InvoiceReview.ConfidenceColor: scores are exact reals, not IEEE doubles; the thresholds 0.8 and 0.5 are compared exactly.
- GoogleCallback.ResolveMainLogin: the sign-in answer is typed as a profile plus a token; a body missing either field (which the source would store as `undefined`) is not modelled.
- The email-account delete button (`deleteMutation`, src/components/EmailAccounts.tsx:34-39 and 222) is request plumbing: one request and a list refetch, with no page state of its own.
- The Invoices page's single-row delete (src/components/Invoices.tsx:73-79 and 86-90): a confirmed click sends one delete request, and on success the list is refetched and the deleted id is filtered out of the selection through `deleteMutation.variables`. Which id that closure reads when several deletes overlap depends on React's render timing, so it is left out with the other request plumbing.
- Auth.Login: has no partner member. It only reads the sign-in answer and never touches the session or the store, so there is no inverse or invariant for it to relate to; `Restore` is unaffected by it.
- AddEmailAccountInvite.Open: without a route token the page stays on its spinner forever, as in the source; no timeout is modelled.

## Findings

| source | as written | input that shows it | evidently intended | confidence | as-written member | corrected member |
|---|---|---|---|---|---|---|
| src/components/GoogleCallback.tsx:63-73 | the `throw new Error(errorData.detail …)` inside the inner `try` is caught by that `try`'s own bare `catch`, which rethrows `HTTP error! status: N - <body>`; the same pattern repeats at 100-105 and 141-146 | a 400 answer with body `{"detail":"invalid_grant"}` | the alert shows the backend's `detail` (`invalid_grant`), as `EmailAccountCallback.tsx:68-75` does | not executed | GoogleCallback.NonOkMessageAsWritten | GoogleCallback.NonOkMessage |

=== FILE: add_email_account_invite.dfy ===
/** The `AddEmailAccountInvite` page: validate an `add_email_account` invite,
    accept it as the signed-in user, then start the Gmail connection. */
module AddEmailAccountInvite {
  import opened Js
  import opened Effects
  import opened Invites

  datatype Status = Loading | Valid | Invalid | Expired | Accepting | Success | Error

  /** `token` is the route parameter; `error` starts as the empty string. */
  datatype Page = Page(token: Option<string>, status: Status, inviteData: Option<ValidateResponse>, error: string)

  datatype Transition = Transition(page: Page, effects: seq<Effect>)

  /** The controls a status renders. */
  datatype Control = AcceptButton | ConnectButton | TryAgainButton | GoToLoginButton

  datatype Event =
    | ValidationDone(validation: ValidateOutcome)
    | Clicked(control: Control, authenticated: bool)
    | AcceptDone(acceptance: AcceptOutcome)

  const NotEmailInviteText := "This is not an email account addition invite link"
  const AuthorizePath := "/api/email-accounts/oauth/gmail/authorize"

  /** The buttons each status shows. */
  function Controls(s: Status): (r: set<Control>)
    ensures AcceptButton in r <==> s == Valid
    ensures ConnectButton in r <==> s == Success
    ensures TryAgainButton in r <==> s == Error
    ensures GoToLoginButton in r <==> s == Invalid || s == Expired || s == Error
  {
    match s
    case Valid => {AcceptButton}
    case Success => {ConnectButton}
    case Error => {TryAgainButton, GoToLoginButton}
    case Invalid => {GoToLoginButton}
    case Expired => {GoToLoginButton}
    case _ => {}
  }

  /** Mounting: the validation request is issued only for a non-empty token;
      without one the page stays on its spinner. */
  function Open(token: Option<string>): (r: Transition)
    ensures r.page.status == Loading && r.page.token == token && r.page.error == ""
    ensures Truthy(token) ==> r.effects == [ValidateInvite(token.value)]
    ensures !Truthy(token) ==> r.effects == []
  {
    Transition(Page(token, Loading, None, ""), if Truthy(token) then [ValidateInvite(token.value)] else [])
  }

  /** `response.valid && response.invite_type === 'add_email_account'` */
  predicate IsEmailInvite(r: ValidateResponse) {
    r.valid && r.inviteType == Some(TypeName(AddEmailAccount))
  }

  /** `validateInvite`'s handling of the answer. */
  function OnValidated(p: Page, o: ValidateOutcome): (r: Page)
    ensures r.token == p.token
    ensures r.status == Valid <==> o.Validated? && IsEmailInvite(o.response)
    ensures r.status == Expired <==> o.Validated? && !o.response.valid && o.response.reason == Some(ExpiredReason)
    ensures r.status == Valid || r.status == Expired || r.status == Invalid
    ensures r.status == Valid ==> r.inviteData == Some(o.response) && r.error == p.error
    ensures r.status != Valid ==> r.inviteData == p.inviteData && r.error != ""
    ensures o.Validated? && o.response.valid && !IsEmailInvite(o.response) ==> r.error == NotEmailInviteText
    ensures o.Validated? && !o.response.valid ==> r.error == OrElse(o.response.message, InvalidLinkText)
    ensures o.ValidateThrew? ==> r.error == OrElse(o.detail, InvalidLinkText)
  {
    match o
    case Validated(resp) =>
      if IsEmailInvite(resp) then p.(status := Valid, inviteData := Some(resp))
      else if resp.valid then p.(status := Invalid, error := NotEmailInviteText)
      else p.(status := if resp.reason == Some(ExpiredReason) then Expired else Invalid,
              error := OrElse(resp.message, InvalidLinkText))
    case ValidateThrew(detail) => p.(status := Invalid, error := OrElse(detail, InvalidLinkText))
  }

  /** `acceptInvite`: an anonymous visitor is sent to sign in and nothing
      else changes; a signed-in one posts the page token. */
  function OnAccept(p: Page, authenticated: bool): (r: Transition)
    requires p.token.Some?
    ensures !authenticated ==> r == Transition(p, [CallLogin])
    ensures authenticated ==> r.page == p.(status := Accepting) && r.effects == [AcceptInvite(p.token.value)]
  {
    if !authenticated then Transition(p, [CallLogin])
    else Transition(p.(status := Accepting), [AcceptInvite(p.token.value)])
  }

  /** The answer to the accept request. */
  function OnAccepted(p: Page, o: AcceptOutcome): (r: Page)
    ensures r.status == Success <==> o.Accepted? && o.response.success
    ensures r.status == Success || r.status == Error
    ensures r.status == Error ==> r.error != ""
    ensures o.Accepted? && !o.response.success ==> r.error == OrElse(o.response.message, AcceptFailedText)
    ensures o.AcceptThrew? ==> r.error == OrElse(o.detail, AcceptFailedText)
    ensures r.token == p.token && r.inviteData == p.inviteData
  {
    match o
    case Accepted(resp) =>
      if resp.success then p.(status := Success)
      else p.(status := Error, error := OrElse(resp.message, AcceptFailedText))
    case AcceptThrew(detail) => p.(status := Error, error := OrElse(detail, AcceptFailedText))
  }

  /** One event. A click on a control the current status does not render,
      and a response nobody is waiting for, change nothing; otherwise the
      event goes to its handler or to the button's own action. */
  function Step(p: Page, e: Event): (r: Transition)
    ensures e.Clicked? && e.control !in Controls(p.status) ==> r == Transition(p, [])
    ensures p.status != Loading && e.ValidationDone? ==> r == Transition(p, [])
    ensures p.status != Accepting && e.AcceptDone? ==> r == Transition(p, [])
    ensures p.status == Loading && Truthy(p.token) && e.ValidationDone? ==>
      r == Transition(OnValidated(p, e.validation), [])
    ensures p.status == Accepting && e.AcceptDone? ==> r == Transition(OnAccepted(p, e.acceptance), [])
    ensures p.status == Valid && p.token.Some? && e.Clicked? && e.control == AcceptButton ==>
      r == OnAccept(p, e.authenticated)
    ensures p.status == Success && e.Clicked? && e.control == ConnectButton ==>
      r == Transition(p, [Redirect(AuthorizePath)])
    ensures p.status == Error && e.Clicked? && e.control == TryAgainButton ==>
      r == Transition(p.(status := Valid), [])
    ensures p.status in {Invalid, Expired, Error} && e.Clicked? && e.control == GoToLoginButton ==>
      r == Transition(p, [Navigate("/login", 0)])
  {
    match e
    case ValidationDone(o) =>
      if p.status == Loading && Truthy(p.token) then Transition(OnValidated(p, o), []) else Transition(p, [])
    case AcceptDone(o) =>
      if p.status == Accepting then Transition(OnAccepted(p, o), []) else Transition(p, [])
    case Clicked(c, authenticated) =>
      if c !in Controls(p.status) then Transition(p, [])
      else match c
        case AcceptButton => if p.token.Some? then OnAccept(p, authenticated) else Transition(p, [])
        case ConnectButton => Transition(p, [Redirect(AuthorizePath)])
        case TryAgainButton => Transition(p.(status := Valid), [])
        case GoToLoginButton => Transition(p, [Navigate("/login", 0)])
  }

  /** A sequence of events, with the effects concatenated in order. */
  function Run(p: Page, es: seq<Event>): (r: Transition)
    decreases |es|
  {
    if es == [] then Transition(p, [])
    else
      var t := Step(p, es[0]);
      var rest := Run(t.page, es[1..]);
      Transition(rest.page, t.effects + rest.effects)
  }

  /** What every reachable page satisfies: past the spinner there is a token;
      from `valid` on, the stored data is an email-account invite; the
      failure views always carry a message. */
  predicate Inv(p: Page) {
    && (p.status != Loading ==> Truthy(p.token))
    && (p.status in {Valid, Accepting, Success, Error} ==>
          p.inviteData.Some? && IsEmailInvite(p.inviteData.value))
    && (p.status in {Invalid, Error} ==> p.error != "")
  }

  lemma StepKeepsInv(p: Page, e: Event)
    requires Inv(p)
    ensures Inv(Step(p, e).page)
  {
  }

  /** The invariant holds after any sequence of events from mounting. */
  lemma {:induction false} RunKeepsInv(p: Page, es: seq<Event>)
    requires Inv(p)
    ensures Inv(Run(p, es).page)
    decreases |es|
  {
    if es != [] {
      StepKeepsInv(p, es[0]);
      RunKeepsInv(Step(p, es[0]).page, es[1..]);
    }
  }

  lemma OpenSatisfiesInv(token: Option<string>)
    ensures Inv(Open(token).page)
  {
  }

  /** The accept request leaves only from the `valid` view, for a signed-in
      user, and carries the route token. */
  lemma AcceptOnlyFromValid(p: Page, e: Event, t: string)
    requires Inv(p)
    requires AcceptInvite(t) in Step(p, e).effects
    ensures p.status == Valid && e == Clicked(AcceptButton, true) && p.token == Some(t)
    ensures IsEmailInvite(p.inviteData.value)
  {
  }

  /** While an acceptance is in flight there is no button that could send a
      second one. */
  lemma NoSecondAccept(p: Page, e: Event)
    requires p.status == Accepting
    ensures RequestCount(Step(p, e).effects) == 0
  {
  }

  /** A thrown validation never reads as expired. */
  lemma ThrownValidationIsInvalid(p: Page, detail: Option<string>)
    ensures OnValidated(p, ValidateThrew(detail)).status == Invalid
  {
  }
}

=== FILE: api.dfy ===
/** The shared axios instance and the request shaping done in `services/api.ts`. */
module Api {
  import opened Js
  import opened Storage
  import opened Effects
  import Auth

  // ---------------------------------------------------------------------
  // Interceptors

  /** The request interceptor: attach `Authorization: Bearer <token>` iff an
      access token is stored (and non-empty). */
  function AttachAuthorization(headers: map<string, string>, local: Store): (r: map<string, string>)
    ensures Truthy(Get(local, AccessTokenKey)) ==>
      "Authorization" in r && r["Authorization"] == "Bearer " + local[AccessTokenKey]
    ensures !Truthy(Get(local, AccessTokenKey)) ==> r == headers
    ensures forall h :: h in headers && h != "Authorization" ==> h in r && r[h] == headers[h]
    ensures forall h :: h in r && h != "Authorization" ==> h in headers
  {
    var token := Get(local, AccessTokenKey);
    if Truthy(token) then headers["Authorization" := "Bearer " + token.value] else headers
  }

  /** The outcome of the response interceptor's error branch: the error is
      always re-rejected; a 401 has first cleared the session. */
  datatype Rejected = Rejected(local: Store, effects: seq<Effect>)

  /** `status` is `error.response?.status`, absent for network errors. */
  function OnResponseError(status: Option<int>, local: Store): (r: Rejected)
    ensures status == Some(401) ==>
      Get(r.local, AccessTokenKey) == None && Get(r.local, UserKey) == None
      && r.effects == [Redirect("/login")]
    ensures status == Some(401) ==>
      forall k :: k != AccessTokenKey && k != UserKey ==> Get(r.local, k) == Get(local, k)
    ensures status != Some(401) ==> r.local == local && r.effects == []
  {
    if status == Some(401) then
      Rejected(Remove(Remove(local, AccessTokenKey), UserKey), [Redirect("/login")])
    else Rejected(local, [])
  }

  /** A 401 ends the session for good: the next start-up restores nobody,
      and the next request carries no `Authorization` header. */
  lemma UnauthorizedEndsSession(local: Store, parse: string -> Option<Auth.User>, headers: map<string, string>)
    ensures var after := OnResponseError(Some(401), local).local;
      && !Auth.IsAuthenticated(Auth.Restore(after, parse).state)
      && AttachAuthorization(headers, after) == headers
  {
  }

  // ---------------------------------------------------------------------
  // Request parameters

  /** A query-parameter value as JavaScript sees it. */
  datatype ParamValue = Undefined | Null | Str(s: string) | Num(n: int) | Flag(b: bool)

  /** `value !== undefined && value !== null && value !== ''` */
  predicate Kept(v: ParamValue) {
    !v.Undefined? && !v.Null? && v != Str("")
  }

  /** The parameter cleaning of `invoicesAPI.getAll`: absent parameters
      become `{}`; otherwise exactly the undefined, null and empty-string
      entries are dropped and every other entry is kept unchanged (the number
      `0` and `false` included). */
  function CleanParams(params: Option<map<string, ParamValue>>): (r: map<string, ParamValue>)
    ensures params.None? ==> r == map[]
    ensures params.Some? ==> r.Keys <= params.value.Keys
    ensures params.Some? ==> forall k :: k in params.value ==> (k in r <==> Kept(params.value[k]))
    ensures forall k :: k in r ==> Kept(r[k]) && params.Some? && r[k] == params.value[k]
  {
    match params
    case None => map[]
    case Some(p) => map k | k in p && Kept(p[k]) :: p[k]
  }

  /** Cleaning is idempotent. */
  lemma CleanParamsIdempotent(params: map<string, ParamValue>)
    ensures CleanParams(Some(CleanParams(Some(params)))) == CleanParams(Some(params))
  {
  }

  /** The `months` field `syncInbox` posts: `months || 1`, so an absent or
      zero range becomes one month (NaN is not modelled). */
  function SyncInboxMonths(months: Option<int>): (r: int)
    ensures r != 0
    ensures months.Some? && months.value != 0 ==> r == months.value
    ensures months.None? || months == Some(0) ==> r == 1
  {
    match months
    case Some(m) => if m != 0 then m else 1
    case None => 1
  }

  /** The body `scanSelectedVendors` posts: `email_account_id` only when a
      non-empty id is given. */
  function ScanSelectedVendorsBody(emailAccountId: Option<string>): (r: map<string, string>)
    ensures Truthy(emailAccountId) ==> r == map["email_account_id" := emailAccountId.value]
    ensures !Truthy(emailAccountId) ==> r == map[]
  {
    if Truthy(emailAccountId) then map["email_account_id" := emailAccountId.value] else map[]
  }
}

=== FILE: app.dfy ===
/** The application shell: the guard around the signed-in pages, the
    sidebar's highlighted entry and the settings page's account count. */
module App {
  import opened Js
  import opened Storage
  import opened Auth

  // ---------------------------------------------------------------------
  // Protected routes

  /** What a protected route renders. */
  datatype Guard = Spinner | Children | RedirectToLogin

  /** `ProtectedRoute`: a spinner while the session loads, whatever the user;
      once loaded, the page for a signed-in user and `/login` otherwise. */
  function ProtectedRoute(s: AuthState): (g: Guard)
    ensures g == Spinner <==> s.loading
    ensures g == Children <==> !s.loading && IsAuthenticated(s)
    ensures g == RedirectToLogin <==> !s.loading && !IsAuthenticated(s)
  {
    if s.loading then Spinner
    else if IsAuthenticated(s) then Children
    else RedirectToLogin
  }

  /** Before the start-up effect the guard waits; after it, the guard opens
      exactly when the stored token and profile restore a user. */
  lemma GuardFollowsRestore(local: Store, parse: string -> Option<User>)
    ensures ProtectedRoute(Initial) == Spinner
    ensures ProtectedRoute(Restore(local, parse).state) != Spinner
    ensures ProtectedRoute(Restore(local, parse).state) == Children <==>
      Truthy(Get(local, AccessTokenKey)) && Truthy(Get(local, UserKey)) && parse(local[UserKey]).Some?
  {
  }

  /** Signing out closes every protected page, and a reload afterwards
      sends the visitor to `/login`. */
  lemma LogoutClosesGuard(s: Session, parse: string -> Option<User>)
    ensures ProtectedRoute(Logout(s).state) != Children
    ensures ProtectedRoute(Restore(Logout(s).local, parse).state) == RedirectToLogin
  {
    RestoreAfterLogout(s, parse);
  }

  // ---------------------------------------------------------------------
  // Sidebar

  datatype NavItem = NavItem(name: string, href: string)

  /** The entries of the sidebar, in order. */
  const Navigation: seq<NavItem> := [
    NavItem("Dashboard", "/dashboard"),
    NavItem("Vendor Preferences", "/vendor-preferences"),
    NavItem("Email Accounts", "/email-accounts"),
    NavItem("Invoices", "/invoices"),
    NavItem("Settings", "/settings")
  ]

  /** `isActive`, with its special cases for `/home` and `/dashboard`: an
      entry is highlighted exactly when the path is its own. */
  function IsActive(pathname: string, href: string): (r: bool)
    ensures r <==> pathname == href
  {
    if href == "/home" then pathname == "/home"
    else if href == "/dashboard" then pathname == "/dashboard"
    else pathname == href
  }

  /** Whatever the path, at most one sidebar entry is highlighted. */
  lemma AtMostOneActive(pathname: string, i: nat, j: nat)
    requires i < |Navigation| && j < |Navigation|
    requires IsActive(pathname, Navigation[i].href) && IsActive(pathname, Navigation[j].href)
    ensures i == j
  {
  }

  // ---------------------------------------------------------------------
  // Settings

  /** The connected-accounts field: the count and `account`, plural unless
      the count is one. */
  function AccountsLabel(count: nat): (t: string)
    ensures IsPrefix(NatToString(count) + " account", t)
    ensures t == NatToString(count) + " account" <==> count == 1
  {
    NatToString(count) + " " + (if count == 1 then "account" else "accounts")
  }

  /** The field's leading digits read back as the count. */
  lemma AccountsLabelNamesCount(count: nat)
    ensures ParseDigits(NatToString(count)) == count
    ensures IsPrefix(NatToString(count), AccountsLabel(count))
  {
    ParseNatToString(count);
  }
}

=== FILE: auth_context.dfy ===
/** The session store of `AuthContext`: the signed-in user held in memory and
    mirrored in `localStorage` under `access_token` and `user`. */
module Auth {
  import opened Js
  import opened Storage
  import opened Effects

  /** The cached user profile (the `linked_accounts` list is not modelled). */
  datatype User = User(id: string, email: string, name: string, picture: Option<string>, googleId: string)

  datatype AuthState = AuthState(user: Option<User>, loading: bool)

  /** `isAuthenticated: !!user` */
  predicate IsAuthenticated(s: AuthState) {
    s.user.Some?
  }

  /** The provider state before the start-up effect has run. */
  const Initial := AuthState(None, true)

  datatype Session = Session(state: AuthState, local: Store)

  /** The start-up effect. `parse` is `JSON.parse` on the stored profile,
      `None` where it throws. */
  function Restore(local: Store, parse: string -> Option<User>): (r: Session)
    ensures !r.state.loading
    ensures IsAuthenticated(r.state) <==>
      Truthy(Get(local, AccessTokenKey)) && Truthy(Get(local, UserKey))
      && parse(local[UserKey]).Some?
    ensures IsAuthenticated(r.state) ==> r.state.user == parse(local[UserKey]) && r.local == local
    ensures !IsAuthenticated(r.state) && Truthy(Get(local, AccessTokenKey)) && Truthy(Get(local, UserKey))
      ==> Get(r.local, AccessTokenKey) == None && Get(r.local, UserKey) == None
    ensures forall k :: k != AccessTokenKey && k != UserKey ==> Get(r.local, k) == Get(local, k)
    ensures !(Truthy(Get(local, AccessTokenKey)) && Truthy(Get(local, UserKey))) ==> r.local == local
  {
    var token := Get(local, AccessTokenKey);
    var userText := Get(local, UserKey);
    if Truthy(token) && Truthy(userText) then
      match parse(userText.value)
      case Some(u) => Session(AuthState(Some(u), false), local)
      case None => Session(AuthState(None, false), Remove(Remove(local, AccessTokenKey), UserKey))
    else Session(AuthState(None, false), local)
  }

  /** `setUserData(user, token)`; `stringify` is `JSON.stringify`. */
  function SetUserData(s: Session, u: User, token: string, stringify: User -> string): (r: Session)
    ensures r.state.user == Some(u) && IsAuthenticated(r.state)
    ensures r.state.loading == s.state.loading
    ensures Get(r.local, AccessTokenKey) == Some(token)
    ensures Get(r.local, UserKey) == Some(stringify(u))
    ensures forall k :: k != AccessTokenKey && k != UserKey ==> Get(r.local, k) == Get(s.local, k)
  {
    Session(s.state.(user := Some(u)), Put(Put(s.local, AccessTokenKey, token), UserKey, stringify(u)))
  }

  /** `logout()` */
  function Logout(s: Session): (r: Session)
    ensures !IsAuthenticated(r.state)
    ensures r.state.loading == s.state.loading
    ensures Get(r.local, AccessTokenKey) == None && Get(r.local, UserKey) == None
    ensures forall k :: k != AccessTokenKey && k != UserKey ==> Get(r.local, k) == Get(s.local, k)
  {
    Session(s.state.(user := None), Remove(Remove(s.local, AccessTokenKey), UserKey))
  }

  /** What `GET /auth/google/login` gave `login()`. */
  datatype LoginOutcome = LoginResponded(authUrl: Option<string>) | LoginFailed

  /** `login()`: redirects to the provider only when the response carries a
      non-empty `auth_url`; a failure is only logged. */
  function Login(o: LoginOutcome): (es: seq<Effect>)
    ensures |es| <= 1
    ensures es != [] <==> o.LoginResponded? && Truthy(o.authUrl)
    ensures es != [] ==> es[0] == Redirect(o.authUrl.value)
  {
    match o
    case LoginResponded(url) => if Truthy(url) then [Redirect(url.value)] else []
    case LoginFailed => []
  }

  /** A session written by `setUserData` is restored at the next start-up,
      provided the token is non-empty and the profile text survives
      `JSON.parse(JSON.stringify(...))`. */
  lemma RestoreAfterSetUserData(s: Session, u: User, token: string,
                                stringify: User -> string, parse: string -> Option<User>)
    requires token != "" && stringify(u) != ""
    requires parse(stringify(u)) == Some(u)
    ensures Restore(SetUserData(s, u, token, stringify).local, parse).state == AuthState(Some(u), false)
  {
  }

  /** An empty token is falsy: the profile written with it is not restored. */
  lemma EmptyTokenNotRestored(s: Session, u: User, stringify: User -> string, parse: string -> Option<User>)
    ensures !IsAuthenticated(Restore(SetUserData(s, u, "", stringify).local, parse).state)
  {
  }

  /** After `logout()` no start-up can restore a user. */
  lemma RestoreAfterLogout(s: Session, parse: string -> Option<User>)
    ensures Restore(Logout(s).local, parse).state == AuthState(None, false)
  {
  }
}

=== FILE: effects.dfy ===
/** What a handler asks the outside world to do. Network calls, navigations,
    full-page redirects and alerts are emitted as values; their results come
    back as inputs of the next transition. */
module Effects {
  import opened Js

  datatype Method = GET | POST

  datatype Body =
    | NoBody
    | JsonBody(fields: map<string, string>)
    | FormBody(text: string)

  /** A `fetch` issued directly by a component (paths relative to the API base URL). */
  datatype Request = Request(verb: Method, path: string, bearer: Option<string>, body: Body)

  datatype Effect =
    | ValidateInvite(token: string)          // GET /api/invites/validate/{token}
    | AcceptInvite(token: string)            // POST /api/invites/accept
    | AcceptInvitePublic(token: string)      // POST /api/invites/accept-public
    | GetOAuthUrl(provider: string)          // GET /api/email-accounts/oauth/{provider}/url
    | GetOAuthUrlPublic(provider: string)    // GET /api/email-accounts/oauth/{provider}/url-public
    | CallLogin                              // AuthContext.login()
    | Fetch(request: Request)
    | Navigate(path: string, delayMs: nat)   // react-router navigate, possibly inside setTimeout
    | NavigateWithInvite(path: string, message: string, email: Option<string>, inviterUserId: Option<string>)
    | Redirect(url: string)                  // window.location.href = url
    | Alert(text: string)

  /** The effects that put a request on the network. */
  predicate IsRequest(e: Effect) {
    e.ValidateInvite? || e.AcceptInvite? || e.AcceptInvitePublic? || e.GetOAuthUrl?
    || e.GetOAuthUrlPublic? || e.Fetch?
  }

  /** The number of requests among `es`. */
  function RequestCount(es: seq<Effect>): (n: nat)
    ensures n <= |es|
    ensures n == 0 <==> forall i :: 0 <= i < |es| ==> !IsRequest(es[i])
  {
    if es == [] then 0
    else (if IsRequest(es[0]) then 1 else 0) + RequestCount(es[1..])
  }

  /** Counting requests distributes over concatenation. */
  lemma {:induction false} RequestCountAppend(a: seq<Effect>, b: seq<Effect>)
    ensures RequestCount(a + b) == RequestCount(a) + RequestCount(b)
  {
    if a != [] {
      assert (a + b)[1..] == a[1..] + b;
      RequestCountAppend(a[1..], b);
    } else {
      assert a + b == b;
    }
  }

  /** Some effect of `es` navigates to `path`. */
  predicate NavigatesTo(es: seq<Effect>, path: string) {
    exists i :: 0 <= i < |es| && es[i].Navigate? && es[i].path == path
  }
}

=== FILE: email_account_callback.dfy ===
/** `EmailAccountCallback`: the landing page of the authenticated Gmail
    connection. It exchanges the code with the user's bearer token and,
    depending on whether an invite is pending in `sessionStorage`, moves on
    to the dashboard or to the email-accounts page. */
module EmailAccountCallback {
  import opened Js
  import opened Storage
  import opened Effects
  import opened Http
  import UriEncoding

  datatype Status = Loading | Success | Error

  datatype Page = Page(status: Status, message: string)

  const Initial := Page(Loading, "Connecting your email account...")

  const NoCodeText := "No authorization code received from Google"
  const NotSignedInText := "User not authenticated. Please log in first."
  const InvitedConnectedText := "Email account connected successfully! You can now scan for invoices from this account."
  const ConnectedText := "Email account connected successfully!"
  const CallbackPath := "/api/email-accounts/oauth/gmail/callback"

  /** One run of the effect: the page after it, whether it asked for the
      `hasProcessed` flag to be raised, whether an exchange is now awaited,
      and what it emitted. */
  datatype Run = Run(page: Page, raisesProcessed: bool, awaiting: bool, effects: seq<Effect>)

  /** The exchange: the code travels in the query string, the session token
      as bearer. */
  function ExchangeRequest(code: string, token: string): (r: Request)
    ensures r.verb == POST && r.bearer == Some(token) && r.body == NoBody
    ensures IsPrefix(CallbackPath + "?code=", r.path)
    ensures r.path[|CallbackPath + "?code="|..] == UriEncoding.EncodeUriComponent(code)
  {
    Request(POST, CallbackPath + "?code=" + UriEncoding.EncodeUriComponent(code), Some(token), NoBody)
  }

  /** `handleCallback` up to the exchange. `processed` is the `hasProcessed`
      value the run sees. The flag is raised only when a code is present, so
      a run without a code can be repeated. */
  function Handle(processed: bool, p: Page, q: CallbackQuery, local: Store): (r: Run)
    ensures processed ==> r == Run(p, false, false, [])
    ensures !processed ==> r.raisesProcessed == Truthy(q.code)
    ensures !processed && Truthy(q.error) ==> r.page == Page(Error, "OAuth error: " + q.error.value) && r.effects == []
    ensures !processed && !Truthy(q.error) && !Truthy(q.code) ==> r.page == Page(Error, NoCodeText) && r.effects == []
    ensures !processed && !Truthy(q.error) && Truthy(q.code) && !Truthy(Get(local, AccessTokenKey)) ==>
      r.page == Page(Error, NotSignedInText) && r.effects == []
    ensures r.awaiting <==>
      !processed && !Truthy(q.error) && Truthy(q.code) && Truthy(Get(local, AccessTokenKey))
    ensures r.awaiting ==> r.page == p && r.effects == [Fetch(ExchangeRequest(q.code.value, local[AccessTokenKey]))]
    ensures !r.awaiting ==> r.effects == []
  {
    if processed then Run(p, false, false, [])
    else
      var raise := Truthy(q.code);
      if Truthy(q.error) then Run(Page(Error, "OAuth error: " + q.error.value), raise, false, [])
      else if !Truthy(q.code) then Run(Page(Error, NoCodeText), raise, false, [])
      else
        var token := Get(local, AccessTokenKey);
        if !Truthy(token) then Run(Page(Error, NotSignedInText), raise, false, [])
        else Run(p, raise, true, [Fetch(ExchangeRequest(q.code.value, token.value))])
  }

  datatype Resolved = Resolved(page: Page, session: Store, effects: seq<Effect>)

  /** The answer to the exchange. A failed response shows the backend's
      `detail` when it can; success consumes the pending invite token, if
      any, and picks the destination by it. */
  function Resolve(o: Outcome<()>, session: Store): (r: Resolved)
    ensures r.page.status != Loading
    ensures r.page.status == Success <==> o.Ok?
    ensures o.NotOk? ==> r.page.message == DetailOrStatus(o.status, o.bodyText, o.error)
    ensures o.Unreadable? ==> r.page.message == "Connection failed: " + o.syntaxError
    ensures o.NetworkError? ==> r.page.message == "Connection failed: " + o.message
    ensures !o.Ok? ==> r.session == session && r.effects == []
    ensures o.Ok? && Truthy(Get(session, PendingInviteKey)) ==>
      r.session == Remove(session, PendingInviteKey)
      && r.page.message == InvitedConnectedText && r.effects == [Navigate("/dashboard", 3000)]
    ensures o.Ok? && !Truthy(Get(session, PendingInviteKey)) ==>
      r.session == session
      && r.page.message == ConnectedText && r.effects == [Navigate("/email-accounts", 2000)]
  {
    match o
    case NotOk(status, text, error) => Resolved(Page(Error, DetailOrStatus(status, text, error)), session, [])
    case Unreadable(m) => Resolved(Page(Error, "Connection failed: " + m), session, [])
    case NetworkError(m) => Resolved(Page(Error, "Connection failed: " + m), session, [])
    case Ok(_) =>
      if Truthy(Get(session, PendingInviteKey)) then
        Resolved(Page(Success, InvitedConnectedText), Remove(session, PendingInviteKey), [Navigate("/dashboard", 3000)])
      else Resolved(Page(Success, ConnectedText), session, [Navigate("/email-accounts", 2000)])
  }

  /** After a success no usable invite token is left pending, whichever way
      the page went (an empty one is not removed, being falsy). */
  lemma SuccessClearsPendingInvite(session: Store)
    ensures !Truthy(Get(Resolve(Ok(()), session).session, PendingInviteKey))
  {
  }

  /** The status leaves `loading` at most once: no run and no answer ever
      puts it back. */
  lemma NeverBackToLoading(processed: bool, p: Page, q: CallbackQuery, local: Store)
    requires p.status != Loading
    ensures Handle(processed, p, q, local).page.status != Loading
  {
  }

  /** Runs of the effect in successive renders: each run sees the flag as the
      runs before it left it. */
  function HandleRenders(processed: bool, p: Page, runs: seq<(CallbackQuery, Store)>): (r: Run)
    decreases |runs|
  {
    if runs == [] then Run(p, processed, false, [])
    else
      var first := Handle(processed, p, runs[0].0, runs[0].1);
      var rest := HandleRenders(processed || first.raisesProcessed, first.page, runs[1..]);
      Run(rest.page, rest.raisesProcessed, first.awaiting || rest.awaiting, first.effects + rest.effects)
  }

  lemma {:induction false} HandleRendersProcessed(p: Page, runs: seq<(CallbackQuery, Store)>)
    ensures HandleRenders(true, p, runs).effects == []
    decreases |runs|
  {
    if runs != [] {
      HandleRendersProcessed(p, runs[1..]);
    }
  }

  /** Across re-renders, at most one exchange is sent: the first run that
      finds a code raises the flag, and a run without a code sends nothing. */
  lemma {:induction false} AtMostOneExchangeAcrossRenders(processed: bool, p: Page, runs: seq<(CallbackQuery, Store)>)
    ensures RequestCount(HandleRenders(processed, p, runs).effects) <= 1
    decreases |runs|
  {
    if runs != [] {
      var first := Handle(processed, p, runs[0].0, runs[0].1);
      var rest := HandleRenders(processed || first.raisesProcessed, first.page, runs[1..]);
      RequestCountAppend(first.effects, rest.effects);
      if first.effects == [] {
        AtMostOneExchangeAcrossRenders(processed || first.raisesProcessed, first.page, runs[1..]);
      } else {
        assert first.awaiting && first.raisesProcessed;
        HandleRendersProcessed(first.page, runs[1..]);
      }
    }
  }
}

=== FILE: email_account_callback_public.dfy ===
/** `EmailAccountCallbackPublic`: the landing page of the Gmail connection
    started from a public invite. It posts the code form-encoded, without a
    session, and clears the pending invite token on success. It has no guard
    against running twice. */
module EmailAccountCallbackPublic {
  import opened Js
  import opened Storage
  import opened Effects
  import opened Http
  import UriEncoding

  datatype Status = Processing | Success | Error

  datatype Page = Page(status: Status, message: string, error: string)

  const Initial := Page(Processing, "", "")

  const NoCodeText := "No authorization code received from Google"
  const FailedText := "Failed to process OAuth callback"
  const ConnectedText := "Email account connected successfully!"
  const CallbackPath := "/api/email-accounts/oauth/gmail/callback-public"

  /** The fields of the success answer the page reads. */
  datatype SuccessBody = SuccessBody(message: Option<string>)

  datatype Run = Run(page: Page, awaiting: bool, effects: seq<Effect>)

  /** The `application/x-www-form-urlencoded` body `code=<encoded code>`. */
  function FormOf(code: string): (text: string)
    ensures IsPrefix("code=", text)
    ensures forall i :: 5 <= i < |text| ==> text[i] != '&' && text[i] != '=' && text[i] != '+'
  {
    "code=" + UriEncoding.EncodeUriComponent(code)
  }

  /** The form body is one `code` field whose value decodes to exactly the
      code received. */
  lemma FormCarriesCode(code: string)
    ensures UriEncoding.DecodeUriComponent(FormOf(code)[5..]) == Some(code)
  {
    assert FormOf(code)[5..] == UriEncoding.EncodeUriComponent(code);
    UriEncoding.DecodeEncode(code);
  }

  /** `processOAuthCallback` up to the exchange. */
  function Process(p: Page, q: CallbackQuery): (r: Run)
    ensures Truthy(q.error) ==> r.page == p.(status := Error, error := "OAuth error: " + q.error.value) && r.effects == []
    ensures !Truthy(q.error) && !Truthy(q.code) ==> r.page == p.(status := Error, error := NoCodeText) && r.effects == []
    ensures r.awaiting <==> !Truthy(q.error) && Truthy(q.code)
    ensures r.awaiting ==> r.page == p && r.effects == [Fetch(Request(POST, CallbackPath, None, FormBody(FormOf(q.code.value))))]
  {
    if Truthy(q.error) then Run(p.(status := Error, error := "OAuth error: " + q.error.value), false, [])
    else if !Truthy(q.code) then Run(p.(status := Error, error := NoCodeText), false, [])
    else Run(p, true, [Fetch(Request(POST, CallbackPath, None, FormBody(FormOf(q.code.value))))])
  }

  datatype Resolved = Resolved(page: Page, session: Store, effects: seq<Effect>)

  /** The answer. A failed response throws `detail` (or the default); a body
      that is not JSON throws the parser's message. Success clears the
      pending invite token and moves to the dashboard after three seconds. */
  function Resolve(p: Page, o: Outcome<SuccessBody>, session: Store): (r: Resolved)
    ensures r.page.status == Success <==> o.Ok?
    ensures r.page.status == Error || r.page.status == Success
    ensures o.Ok? ==>
      r.page.message == OrElse(o.body.message, ConnectedText)
      && r.session == Remove(session, PendingInviteKey)
      && r.effects == [Navigate("/dashboard", 3000)]
    ensures !o.Ok? ==> r.session == session && r.effects == [] && r.page.error != ""
    ensures o.NotOk? && o.error.ErrorJson? ==> r.page.error == OrElse(o.error.detail, FailedText)
    ensures o.NotOk? && o.error.NotJson? ==> r.page.error == OrElse(Some(o.error.syntaxError), FailedText)
    ensures o.Unreadable? ==> r.page.error == OrElse(Some(o.syntaxError), FailedText)
    ensures o.NetworkError? ==> r.page.error == OrElse(Some(o.message), FailedText)
  {
    match o
    case Ok(b) =>
      Resolved(p.(status := Success, message := OrElse(b.message, ConnectedText)),
               Remove(session, PendingInviteKey), [Navigate("/dashboard", 3000)])
    case NotOk(_, _, ErrorJson(detail)) => Resolved(p.(status := Error, error := OrElse(detail, FailedText)), session, [])
    case NotOk(_, _, NotJson(m)) => Resolved(p.(status := Error, error := OrElse(Some(m), FailedText)), session, [])
    case Unreadable(m) => Resolved(p.(status := Error, error := OrElse(Some(m), FailedText)), session, [])
    case NetworkError(m) => Resolved(p.(status := Error, error := OrElse(Some(m), FailedText)), session, [])
  }

  /** Success always removes the pending invite token. */
  lemma SuccessRemovesPendingInvite(p: Page, b: SuccessBody, session: Store)
    ensures Get(Resolve(p, Ok(b), session).session, PendingInviteKey) == None
  {
  }

  /** Without a guard, every run of the effect with a code posts it again. */
  lemma EachRunPosts(p: Page, q: CallbackQuery)
    requires Truthy(q.code) && !Truthy(q.error)
    ensures var first := Process(p, q);
      RequestCount(first.effects + Process(first.page, q).effects) == 2
  {
    var first := Process(p, q);
    RequestCountAppend(first.effects, Process(first.page, q).effects);
  }
}

=== FILE: email_account_invite_page.dfy ===
/** The public `EmailAccountInvite` page (`pages/EmailAccountInvite.tsx`):
    validate the invite with a query that is never retried, accept it without
    signing in, then fetch the public Gmail authorization URL and leave for it
    with the invite token parked in `sessionStorage`. */
module EmailAccountInvitePage {
  import opened Js
  import opened Storage
  import opened Effects
  import opened Invites

  /** The validation query: not issued without a token (`enabled: !!token`),
      in flight, failed (`validationError`), or answered (`inviteData`). */
  datatype Query = NotRequested | Fetching | Failed | Loaded(response: ValidateResponse)

  datatype Page = Page(
    token: Option<string>,
    query: Query,
    acceptPending: bool,      // `acceptInviteMutation.isPending`
    isConnecting: bool,
    error: Option<string>,
    showLoginPrompt: bool)

  /** The public accept resolves on any 2xx answer, whatever its `success`
      field says; `detail` is `error.response?.data?.detail`. */
  datatype PublicAcceptOutcome = AcceptResolved(response: AcceptResponse) | AcceptRejected(detail: Option<string>)

  /** `emailAccountsAPI.getOAuthUrlPublic('gmail')`: the `auth_url` field of
      the answer, or a thrown request. */
  datatype OAuthUrlOutcome = UrlAnswered(authUrl: Option<string>) | UrlThrew

  datatype Event =
    | ValidationDone(validation: ValidateOutcome)
    | AcceptClicked
    | AcceptDone(acceptance: PublicAcceptOutcome)
    | OAuthUrlDone(url: OAuthUrlOutcome)
    | LoginClicked
    | GoHomeClicked

  datatype Action = LoginPrompt | AcceptButton(enabled: bool, spinning: bool)

  datatype View =
    | Validating
    | InvalidInvitation(text: string)
    | ExpiredInvitation
    | Details(errorBanner: Option<string>, action: Action)

  datatype Transition = Transition(page: Page, session: Store, effects: seq<Effect>)

  const DefaultInvalidText := "This invitation link is invalid or has expired."
  const ConnectFailedText := "Failed to start email account connection process"
  const Provider := "gmail"

  /** `new Date(expires_at) < new Date()`: an absent or unparseable date is
      NaN, and NaN is never earlier than now. */
  predicate IsExpired(expiresAt: Option<int>, now: int) {
    expiresAt.Some? && expiresAt.value < now
  }

  /** Mounting: the query runs only for a non-empty token. */
  function Open(token: Option<string>): (r: Transition)
    ensures Truthy(token) <==> r.page.query == Fetching
    ensures Truthy(token) ==> r.effects == [ValidateInvite(token.value)]
    ensures !Truthy(token) ==> r.page.query == NotRequested && r.effects == []
    ensures !r.page.acceptPending && !r.page.isConnecting && !r.page.showLoginPrompt && r.page.error == None
  {
    if Truthy(token) then Transition(Page(token, Fetching, false, false, None, false), map[], [ValidateInvite(token.value)])
    else Transition(Page(token, NotRequested, false, false, None, false), map[], [])
  }

  /** The view the page renders at time `now`. */
  function Render(p: Page, now: int): (v: View)
    ensures v == Validating <==> p.query == Fetching
    ensures v.InvalidInvitation? <==> p.query != Fetching && !(p.query.Loaded? && p.query.response.valid)
    ensures v.InvalidInvitation? && p.query.Loaded? ==> v.text == OrElse(p.query.response.message, DefaultInvalidText)
    ensures v.InvalidInvitation? && !p.query.Loaded? ==> v.text == DefaultInvalidText
    ensures v == ExpiredInvitation <==>
      p.query.Loaded? && p.query.response.valid && IsExpired(p.query.response.expiresAt, now)
    ensures v.Details? ==> v.errorBanner == (if Truthy(p.error) then p.error else None)
    ensures v.Details? ==> (v.action == LoginPrompt <==> p.showLoginPrompt)
    ensures v.Details? && v.action.AcceptButton? ==>
      (v.action.enabled <==> !p.isConnecting && !p.acceptPending) && v.action.spinning == p.acceptPending
  {
    match p.query
    case Fetching => Validating
    case NotRequested => InvalidInvitation(DefaultInvalidText)
    case Failed => InvalidInvitation(DefaultInvalidText)
    case Loaded(resp) =>
      if !resp.valid then InvalidInvitation(OrElse(resp.message, DefaultInvalidText))
      else if IsExpired(resp.expiresAt, now) then ExpiredInvitation
      else
        Details(if Truthy(p.error) then p.error else None,
                if p.showLoginPrompt then LoginPrompt
                else AcceptButton(!(p.isConnecting || p.acceptPending), p.acceptPending))
  }

  /** The accept button is on screen and clickable. */
  predicate AcceptEnabled(p: Page, now: int) {
    var v := Render(p, now);
    v.Details? && v.action.AcceptButton? && v.action.enabled
  }

  /** `handleAcceptInvite`: fire the public accept for the route token. */
  function OnAcceptClicked(p: Page): (r: Transition)
    ensures Truthy(p.token) ==> r.page == p.(acceptPending := true) && r.effects == [AcceptInvitePublic(p.token.value)]
    ensures !Truthy(p.token) ==> r.page == p && r.effects == []
    ensures r.session == map[]
  {
    if !Truthy(p.token) then Transition(p, map[], [])
    else Transition(p.(acceptPending := true), map[], [AcceptInvitePublic(p.token.value)])
  }

  /** `handleConnectEmailAccount`, up to the request for the URL. */
  function StartConnect(p: Page): (r: Transition)
    ensures Truthy(p.token) ==> r.page == p.(isConnecting := true) && r.effects == [GetOAuthUrlPublic(Provider)]
    ensures !Truthy(p.token) ==> r.page == p && r.effects == []
    ensures r.session == map[]
  {
    if !Truthy(p.token) then Transition(p, map[], [])
    else Transition(p.(isConnecting := true), map[], [GetOAuthUrlPublic(Provider)])
  }

  /** The end of the accept mutation: a resolution shows the login prompt
      and goes straight on to the connection; a rejection only records the
      message. */
  function OnAcceptDone(p: Page, o: PublicAcceptOutcome): (r: Transition)
    ensures !r.page.acceptPending && r.session == map[]
    ensures o.AcceptResolved? ==> r.page.showLoginPrompt && r.page.error == p.error
    ensures o.AcceptResolved? && Truthy(p.token) ==> r.page.isConnecting && r.effects == [GetOAuthUrlPublic(Provider)]
    ensures o.AcceptRejected? ==>
      r.page == p.(acceptPending := false, error := Some(OrElse(o.detail, AcceptFailedText))) && r.effects == []
  {
    match o
    case AcceptResolved(_) => StartConnect(p.(acceptPending := false, showLoginPrompt := true))
    case AcceptRejected(detail) =>
      Transition(p.(acceptPending := false, error := Some(OrElse(detail, AcceptFailedText))), map[], [])
  }

  /** The end of `handleConnectEmailAccount`: with a non-empty `auth_url` the
      route token is parked under the pending-invite key and the browser
      leaves; otherwise the failure is shown. `isConnecting` is cleared in
      both cases (`finally`). */
  function OnOAuthUrl(p: Page, session: Store, o: OAuthUrlOutcome): (r: Transition)
    requires Truthy(p.token)
    ensures !r.page.isConnecting
    ensures o.UrlAnswered? && Truthy(o.authUrl) ==>
      r.session == Put(session, PendingInviteKey, p.token.value)
      && r.effects == [Redirect(o.authUrl.value)]
      && r.page == p.(isConnecting := false)
    ensures !(o.UrlAnswered? && Truthy(o.authUrl)) ==>
      r.session == session && r.effects == []
      && r.page == p.(isConnecting := false, error := Some(ConnectFailedText))
  {
    match o
    case UrlAnswered(url) =>
      if Truthy(url) then
        Transition(p.(isConnecting := false), Put(session, PendingInviteKey, p.token.value), [Redirect(url.value)])
      else Transition(p.(isConnecting := false, error := Some(ConnectFailedText)), session, [])
    case UrlThrew => Transition(p.(isConnecting := false, error := Some(ConnectFailedText)), session, [])
  }

  /** One event at time `now`. Clicks count only on a control the current
      view renders enabled; answers only when something awaits them. */
  function Step(p: Page, session: Store, e: Event, now: int): (r: Transition)
    ensures e.AcceptClicked? && !AcceptEnabled(p, now) ==> r == Transition(p, session, [])
    ensures e.ValidationDone? && p.query != Fetching ==> r == Transition(p, session, [])
    ensures e.AcceptDone? && !p.acceptPending ==> r == Transition(p, session, [])
    ensures e.OAuthUrlDone? && !p.isConnecting ==> r == Transition(p, session, [])
    ensures e.ValidationDone? && p.query == Fetching ==>
      r.session == session && r.effects == []
      && r.page == p.(query := if e.validation.Validated? then Loaded(e.validation.response) else Failed)
    ensures e.AcceptClicked? && AcceptEnabled(p, now) ==>
      r == Transition(OnAcceptClicked(p).page, session, OnAcceptClicked(p).effects)
    ensures e.AcceptDone? && p.acceptPending ==>
      r == Transition(OnAcceptDone(p, e.acceptance).page, session, OnAcceptDone(p, e.acceptance).effects)
    ensures e.OAuthUrlDone? && p.isConnecting && Truthy(p.token) ==> r == OnOAuthUrl(p, session, e.url)
    ensures e.LoginClicked? ==>
      r.page == p && r.session == session
      && (r.effects == [Navigate("/login", 0)] <==> Render(p, now).Details? && p.showLoginPrompt)
      && (r.effects == [] <==> !(Render(p, now).Details? && p.showLoginPrompt))
    ensures e.GoHomeClicked? ==>
      r.page == p && r.session == session
      && (r.effects == [Navigate("/", 0)] <==> Render(p, now).InvalidInvitation? || Render(p, now) == ExpiredInvitation)
      && (r.effects == [] <==> !(Render(p, now).InvalidInvitation? || Render(p, now) == ExpiredInvitation))
  {
    match e
    case ValidationDone(o) =>
      if p.query != Fetching then Transition(p, session, [])
      else (match o
        case Validated(resp) => Transition(p.(query := Loaded(resp)), session, [])
        case ValidateThrew(_) => Transition(p.(query := Failed), session, []))
    case AcceptClicked =>
      if AcceptEnabled(p, now) then
        var t := OnAcceptClicked(p);
        Transition(t.page, session, t.effects)
      else Transition(p, session, [])
    case AcceptDone(o) =>
      if !p.acceptPending then Transition(p, session, [])
      else
        var t := OnAcceptDone(p, o);
        Transition(t.page, session, t.effects)
    case OAuthUrlDone(o) =>
      if p.isConnecting && Truthy(p.token) then OnOAuthUrl(p, session, o) else Transition(p, session, [])
    case LoginClicked =>
      if Render(p, now).Details? && p.showLoginPrompt then Transition(p, session, [Navigate("/login", 0)])
      else Transition(p, session, [])
    case GoHomeClicked =>
      var v := Render(p, now);
      if v.InvalidInvitation? || v.ExpiredInvitation? then Transition(p, session, [Navigate("/", 0)])
      else Transition(p, session, [])
  }

  /** Events with their clock readings, in order. */
  function Run(p: Page, session: Store, es: seq<(Event, int)>): (r: Transition)
    decreases |es|
  {
    if es == [] then Transition(p, session, [])
    else
      var t := Step(p, session, es[0].0, es[0].1);
      var rest := Run(t.page, t.session, es[1..]);
      Transition(rest.page, rest.session, t.effects + rest.effects)
  }

  /** What every reachable page satisfies: the query was issued exactly when
      there is a token; accepting and connecting never overlap, need a token,
      and connecting comes only after an acceptance; the pending-invite key,
      when set, holds the route token. */
  predicate Inv(p: Page, session: Store) {
    && (p.query == NotRequested <==> !Truthy(p.token))
    && (p.acceptPending || p.isConnecting ==> Truthy(p.token))
    && !(p.acceptPending && p.isConnecting)
    && (p.isConnecting ==> p.showLoginPrompt)
    && (PendingInviteKey in session ==> p.token == Some(session[PendingInviteKey]))
  }

  lemma OpenSatisfiesInv(token: Option<string>)
    ensures Inv(Open(token).page, Open(token).session)
  {
  }

  lemma StepKeepsInv(p: Page, session: Store, e: Event, now: int)
    requires Inv(p, session)
    ensures var t := Step(p, session, e, now); Inv(t.page, t.session)
  {
  }

  lemma {:induction false} RunKeepsInv(p: Page, session: Store, es: seq<(Event, int)>)
    requires Inv(p, session)
    ensures var t := Run(p, session, es); Inv(t.page, t.session)
    decreases |es|
  {
    if es != [] {
      StepKeepsInv(p, session, es[0].0, es[0].1);
      var t := Step(p, session, es[0].0, es[0].1);
      RunKeepsInv(t.page, t.session, es[1..]);
    }
  }

  /** The OAuth URL is requested only as the continuation of a resolved
      acceptance. */
  lemma ConnectOnlyAfterAccept(p: Page, session: Store, e: Event, now: int)
    requires GetOAuthUrlPublic(Provider) in Step(p, session, e, now).effects
    ensures p.acceptPending && e.AcceptDone? && e.acceptance.AcceptResolved?
  {
  }

  /** The correlation token stored for the callback is the route token,
      character for character, and is stored only together with the
      redirect to the provider. */
  lemma PendingTokenIsRouteToken(p: Page, session: Store, e: Event, now: int)
    requires Get(Step(p, session, e, now).session, PendingInviteKey) != Get(session, PendingInviteKey)
    ensures Truthy(p.token)
    ensures Get(Step(p, session, e, now).session, PendingInviteKey) == p.token
    ensures exists url :: Step(p, session, e, now).effects == [Redirect(url)]
  {
    var t := Step(p, session, e, now);
    assert e.OAuthUrlDone? && e.url.UrlAnswered? && Truthy(e.url.authUrl);
    assert t.effects == [Redirect(e.url.authUrl.value)];
  }

  /** The validation query is never retried: no event issues a second one. */
  lemma NoRevalidation(p: Page, session: Store, e: Event, now: int, t: string)
    ensures ValidateInvite(t) !in Step(p, session, e, now).effects
  {
  }

  /** As written, a 2xx answer with `success: false` still counts as an
      acceptance and starts the connection. */
  lemma UnsuccessfulAnswerStillConnects(p: Page, message: Option<string>)
    requires Truthy(p.token)
    ensures var t := OnAcceptDone(p, AcceptResolved(AcceptResponse(false, message)));
      t.page.showLoginPrompt && t.effects == [GetOAuthUrlPublic(Provider)]
  {
  }

  /** Without a token nothing is fetched and the invalid view shows at once. */
  lemma NoTokenIsInvalid(now: int)
    ensures Open(None).effects == [] && Open(Some("")).effects == []
    ensures Render(Open(None).page, now) == InvalidInvitation(DefaultInvalidText)
  {
  }

  /** An invite whose expiry cannot be read is never shown as expired. */
  lemma UnreadableExpiryNeverExpires(p: Page, now: int)
    requires p.query.Loaded? && p.query.response.valid && p.query.response.expiresAt.None?
    ensures Render(p, now) != ExpiredInvitation
  {
  }
}

=== FILE: email_accounts.dfy ===
/** `EmailAccounts`: linking a Gmail account, the per-account scan range and
    the inbox scan. */
module EmailAccounts {
  import opened Js
  import opened Effects
  import Api

  /** The page state: whether a link is being started, the account whose
      inbox scan is being started, and the chosen scan ranges (months) by
      account id. */
  datatype Page = Page(isLinking: bool, syncingInboxId: Option<string>, ranges: map<string, nat>)

  const Initial := Page(false, None, map[])

  const DefaultRange := 3

  /** The ranges offered for each account. */
  const RangeOptions: seq<nat> := [1, 2, 3]

  /** `getDateRange`: `scanDateRange[id] || 3`. */
  function DateRange(p: Page, id: string): (m: nat)
    ensures m != 0
    ensures id in p.ranges && p.ranges[id] != 0 ==> m == p.ranges[id]
    ensures id !in p.ranges || p.ranges[id] == 0 ==> m == DefaultRange
  {
    if id in p.ranges && p.ranges[id] != 0 then p.ranges[id] else DefaultRange
  }

  /** `setDateRangeForAccount` */
  function SetDateRange(p: Page, id: string, months: nat): (r: Page)
    ensures id in r.ranges && r.ranges[id] == months
    ensures forall k :: k != id ==> (k in r.ranges <==> k in p.ranges)
    ensures forall k :: k != id && k in p.ranges ==> r.ranges[k] == p.ranges[k]
    ensures r.isLinking == p.isLinking && r.syncingInboxId == p.syncingInboxId
  {
    p.(ranges := p.ranges[id := months])
  }

  /** Choosing an offered range for one account shows that range for it and
      leaves every other account's range as it was. */
  lemma ChosenRangeIsShown(p: Page, id: string, i: nat, other: string)
    requires i < |RangeOptions| && other != id
    ensures DateRange(SetDateRange(p, id, RangeOptions[i]), id) == RangeOptions[i]
    ensures DateRange(SetDateRange(p, id, RangeOptions[i]), other) == DateRange(p, other)
  {
  }

  /** Every account starts on three months, one of the offered ranges. */
  lemma DefaultIsOffered(id: string)
    ensures DateRange(Initial, id) == DefaultRange && DefaultRange in RangeOptions
  {
  }

  // ---------------------------------------------------------------------
  // Linking

  const LinkFailedText := "Failed to start account linking process"

  /** `handleLinkAccount` until the URL request is awaited. */
  function StartLink(p: Page, provider: string): (r: (Page, seq<Effect>))
    ensures r.0 == p.(isLinking := true) && r.1 == [GetOAuthUrl(provider)]
  {
    (p.(isLinking := true), [GetOAuthUrl(provider)])
  }

  /** The answer to the URL request: a URL, or a thrown call. */
  datatype LinkOutcome = UrlAnswered(authUrl: Option<string>) | LinkThrew

  /** `handleLinkAccount` after the answer: redirect only to a non-empty
      URL, an alert on a thrown call, and `isLinking` cleared in every case. */
  function FinishLink(p: Page, o: LinkOutcome): (r: (Page, seq<Effect>))
    ensures !r.0.isLinking && r.0.ranges == p.ranges && r.0.syncingInboxId == p.syncingInboxId
    ensures (exists u :: Redirect(u) in r.1) <==> o.UrlAnswered? && Truthy(o.authUrl)
    ensures o.UrlAnswered? && Truthy(o.authUrl) ==> r.1 == [Redirect(o.authUrl.value)]
    ensures o.UrlAnswered? && !Truthy(o.authUrl) ==> r.1 == []
    ensures o.LinkThrew? ==> r.1 == [Alert(LinkFailedText)]
  {
    var q := p.(isLinking := false);
    match o
    case UrlAnswered(url) =>
      if Truthy(url) then (q, [Redirect(url.value)])
      else (q, [])
    case LinkThrew => (q, [Alert(LinkFailedText)])
  }

  /** Starting and finishing a link leaves the page as it was apart from a
      cleared `isLinking`, and the whole round sends exactly one request. */
  lemma LinkRoundTrip(p: Page, provider: string, o: LinkOutcome)
    ensures FinishLink(StartLink(p, provider).0, o).0 == p.(isLinking := false)
    ensures !p.isLinking ==> FinishLink(StartLink(p, provider).0, o).0 == p
    ensures RequestCount(StartLink(p, provider).1 + FinishLink(StartLink(p, provider).0, o).1) == 1
  {
    var a := StartLink(p, provider).1;
    var b := FinishLink(StartLink(p, provider).0, o).1;
    RequestCountAppend(a, b);
    assert RequestCount(a) == 1 by {
      assert a[1..] == [];
    }
  }

  // ---------------------------------------------------------------------
  // Inbox scan

  /** The range phrase of the confirmation: singular only for one month. */
  function RangeText(months: nat): (t: string)
    ensures months == 1 <==> t == "1 month"
    ensures months != 1 ==> t == NatToString(months) + " months"
  {
    if months == 1 then "1 month" else NatToString(months) + " months"
  }

  /** The phrase starts with the decimal text of the number of months,
      which reads back as that number, followed by the unit, singular only
      for one. */
  lemma {:induction false} RangeTextNamesMonths(months: nat)
    ensures var t, d := RangeText(months), NatToString(months);
      IsPrefix(d, t) && ParseDigits(d) == months
      && (t[|d|..] == " month" <==> months == 1)
  {
    ParseNatToString(months);
    var t, d := RangeText(months), NatToString(months);
    if months == 1 {
      assert d == "1";
    } else {
      assert t[|d|..] == " months";
    }
  }

  /** `handleSyncInbox` until the scan request is awaited: the account is
      marked and the range it shows is posted as `months`. */
  function StartSync(p: Page, id: string): (r: (Page, int))
    ensures r.0.syncingInboxId == Some(id)
    ensures r.0.ranges == p.ranges && r.0.isLinking == p.isLinking
    ensures r.1 == DateRange(p, id)
  {
    (p.(syncingInboxId := Some(id)), Api.SyncInboxMonths(Some(DateRange(p, id))))
  }

  /** The answer to the scan request. */
  datatype SyncOutcome = SyncStarted(estimatedTime: Option<string>) | SyncThrew

  const SyncFailedText := "\U{274C} Failed to start inbox scan. Please try again."

  const StartedHeadText := "\U{2705} Inbox scan started successfully!\n\nScanning emails from the last "

  /** The confirmation shown when the scan has started: it names the range
      the scan covers. */
  function StartedText(months: nat, estimatedTime: Option<string>): (r: string)
    ensures IsPrefix(StartedHeadText + RangeText(months), r)
  {
    var head := StartedHeadText + RangeText(months);
    if Truthy(estimatedTime) then
      head + "\nEstimated completion time: " + estimatedTime.value
      + "\n\nThe scan is running in the background. You can continue using the app."
    else head + ".\nProcessing in the background..."
  }

  /** `handleSyncInbox` after the answer: the mark is cleared in every case. */
  function FinishSync(p: Page, months: nat, o: SyncOutcome): (r: (Page, seq<Effect>))
    ensures r.0.syncingInboxId == None && r.0.ranges == p.ranges && r.0.isLinking == p.isLinking
    ensures o.SyncStarted? ==> r.1 == [Alert(StartedText(months, o.estimatedTime))]
    ensures o.SyncThrew? ==> r.1 == [Alert(SyncFailedText)]
  {
    var q := p.(syncingInboxId := None);
    match o
    case SyncStarted(t) => (q, [Alert(StartedText(months, t))])
    case SyncThrew => (q, [Alert(SyncFailedText)])
  }

  /** A scan marks exactly its account while awaited and leaves no mark once
      answered, whatever the answer. */
  lemma SyncMarksOnlyWhileAwaited(p: Page, id: string, o: SyncOutcome)
    ensures StartSync(p, id).0.syncingInboxId == Some(id)
    ensures FinishSync(StartSync(p, id).0, StartSync(p, id).1, o).0.syncingInboxId == None
    ensures FinishSync(StartSync(p, id).0, StartSync(p, id).1, o).0 == p.(syncingInboxId := None)
  {
  }
}

=== FILE: google_callback.dfy ===
/** `GoogleCallback`: the landing page of every Google redirect. The `state`
    query parameter picks one of three code exchanges; a ref guards against
    the effect running twice. */
module GoogleCallback {
  import opened Js
  import opened Storage
  import opened Effects
  import opened Http
  import UriEncoding
  import Auth

  /** The three exchanges the `state` parameter selects. */
  datatype Flow = EmailAccountFlow | PublicEmailAccountFlow | MainLoginFlow

  const EmailAccountState := "email_account_oauth"
  const PublicEmailAccountState := "email_account_oauth_public"

  const ProviderFailedText := "Google authentication failed"
  const NoCodeText := "No authorization code received"
  const NotSignedInText := "User not authenticated. Please log in first."
  const AccountConnectedText := "Email account connected successfully!"
  const PublicConnectedText := "Email account connected successfully! You can now close this window."

  /** Reading the discriminator: exactly the two known values select the
      email-account exchanges; anything else, absence included, is a
      sign-in. */
  function FlowOf(state: Option<string>): (f: Flow)
    ensures f == EmailAccountFlow <==> state == Some(EmailAccountState)
    ensures f == PublicEmailAccountFlow <==> state == Some(PublicEmailAccountState)
  {
    if state == Some(EmailAccountState) then EmailAccountFlow
    else if state == Some(PublicEmailAccountState) then PublicEmailAccountFlow
    else MainLoginFlow
  }

  /** The `state` value that starts each flow (a sign-in sends none). */
  function StateOf(f: Flow): (r: Option<string>)
    ensures r.Some? <==> f != MainLoginFlow
  {
    match f
    case EmailAccountFlow => Some(EmailAccountState)
    case PublicEmailAccountFlow => Some(PublicEmailAccountState)
    case MainLoginFlow => None
  }

  /** Every flow is recovered from the `state` it sends. */
  lemma FlowOfStateOf(f: Flow)
    ensures FlowOf(StateOf(f)) == f
  {
  }

  /** The exchange request of each flow for authorization code `code`. */
  function ExchangeRequest(f: Flow, code: string, bearer: string): (r: Request)
    ensures f == PublicEmailAccountFlow <==> r.verb == GET
    ensures f == EmailAccountFlow <==> r.bearer.Some?
    ensures f == EmailAccountFlow ==> r.bearer == Some(bearer)
    ensures f != PublicEmailAccountFlow ==> r.body == JsonBody(map["code" := code])
    ensures f == EmailAccountFlow ==> r.path == "/api/email-accounts/oauth/gmail/callback"
    ensures f == MainLoginFlow ==> r.path == "/auth/google/exchange"
    ensures f == PublicEmailAccountFlow ==>
      r.body == NoBody
      && IsPrefix("/api/email-accounts/oauth/gmail/callback-public?code=", r.path)
      && r.path[|"/api/email-accounts/oauth/gmail/callback-public?code="|..] == UriEncoding.EncodeUriComponent(code)
  {
    match f
    case EmailAccountFlow =>
      Request(POST, "/api/email-accounts/oauth/gmail/callback", Some(bearer), JsonBody(map["code" := code]))
    case PublicEmailAccountFlow =>
      Request(GET, "/api/email-accounts/oauth/gmail/callback-public?code=" + UriEncoding.EncodeUriComponent(code),
              None, NoBody)
    case MainLoginFlow =>
      Request(POST, "/auth/google/exchange", None, JsonBody(map["code" := code]))
  }

  /** The result of one run of the effect: the guard after it, the exchange
      now awaited (if any), and what was emitted. */
  datatype Started = Started(processed: bool, awaiting: Option<Flow>, effects: seq<Effect>)

  /** `alert('Authentication failed: …')` then back to the landing page. */
  function Fail(message: string): (r: seq<Effect>)
    ensures |r| == 2 && RequestCount(r) == 0
    ensures r[0].Alert? && IsPrefix("Authentication failed: ", r[0].text)
    ensures r[1] == Navigate("/", 0)
  {
    [Alert("Authentication failed: " + message), Navigate("/", 0)]
  }

  /** `handleCallback` up to the exchange request. The guard is raised before
      any check, so whatever the query, a second run does nothing. */
  function Handle(processed: bool, q: CallbackQuery, local: Store): (r: Started)
    ensures r.processed
    ensures processed ==> r == Started(true, None, [])
    ensures !processed && Truthy(q.error) ==> r.effects == [Alert(ProviderFailedText), Navigate("/", 0)]
    ensures !processed && !Truthy(q.error) && !Truthy(q.code) ==> r.effects == [Alert(NoCodeText), Navigate("/", 0)]
    ensures r.awaiting.Some? <==>
      !processed && !Truthy(q.error) && Truthy(q.code)
      && (FlowOf(q.state) == EmailAccountFlow ==> Truthy(Get(local, AccessTokenKey)))
    ensures r.awaiting.Some? ==>
      r.awaiting.value == FlowOf(q.state)
      && r.effects == [Fetch(ExchangeRequest(FlowOf(q.state), q.code.value, OrElse(Get(local, AccessTokenKey), "")))]
    ensures r.awaiting.None? ==> RequestCount(r.effects) == 0
    ensures (!processed && !Truthy(q.error) && Truthy(q.code)
             && FlowOf(q.state) == EmailAccountFlow && !Truthy(Get(local, AccessTokenKey))) ==>
      r.effects == Fail(NotSignedInText)
  {
    if processed then Started(true, None, [])
    else if Truthy(q.error) then Started(true, None, [Alert(ProviderFailedText), Navigate("/", 0)])
    else if !Truthy(q.code) then Started(true, None, [Alert(NoCodeText), Navigate("/", 0)])
    else
      var flow := FlowOf(q.state);
      var token := Get(local, AccessTokenKey);
      if flow == EmailAccountFlow && !Truthy(token) then Started(true, None, Fail(NotSignedInText))
      else Started(true, Some(flow), [Fetch(ExchangeRequest(flow, q.code.value, OrElse(token, "")))])
  }

  /** Every run of the effect against the same ref, in order. */
  function HandleAll(processed: bool, runs: seq<(CallbackQuery, Store)>): (r: Started)
    ensures processed || runs != [] ==> r.processed
    ensures !processed && runs == [] ==> !r.processed
    decreases |runs|
  {
    if runs == [] then Started(processed, None, [])
    else
      var first := Handle(processed, runs[0].0, runs[0].1);
      var rest := HandleAll(first.processed, runs[1..]);
      Started(rest.processed, if first.awaiting.Some? then first.awaiting else rest.awaiting,
              first.effects + rest.effects)
  }

  lemma {:induction false} HandleAllProcessed(runs: seq<(CallbackQuery, Store)>)
    ensures HandleAll(true, runs) == Started(true, None, [])
    decreases |runs|
  {
    if runs != [] {
      HandleAllProcessed(runs[1..]);
    }
  }

  /** However many times the effect runs, at most one exchange is sent. */
  lemma {:induction false} AtMostOneExchange(runs: seq<(CallbackQuery, Store)>)
    ensures RequestCount(HandleAll(false, runs).effects) <= 1
  {
    if runs != [] {
      var first := Handle(false, runs[0].0, runs[0].1);
      HandleAllProcessed(runs[1..]);
      assert HandleAll(false, runs).effects == first.effects + [];
      assert first.effects + [] == first.effects;
    }
  }

  // ---------------------------------------------------------------------
  // The text of a failed exchange

  /** As written: the `throw` inside the inner `try` is caught by its own
      bare `catch`, so whatever the body holds the message is the status
      followed by the raw body text. */
  function NonOkMessageAsWritten(status: nat, bodyText: string, error: ErrorBody): (r: string)
    ensures IsPrefix(StatusText(status) + " - ", r)
    ensures r[|StatusText(status) + " - "|..] == bodyText
  {
    StatusWithBody(status, bodyText)
  }

  /** The input that shows it: a JSON error body with a `detail` never
      yields that `detail` as the message. */
  lemma AsWrittenNeverShowsDetail(status: nat, bodyText: string, detail: string)
    requires detail != "" && !IsPrefix("HTTP error! status: ", detail)
    ensures NonOkMessageAsWritten(status, bodyText, ErrorJson(Some(detail))) != detail
    ensures NonOkMessage(status, bodyText, ErrorJson(Some(detail))) == detail
  {
    var r := NonOkMessageAsWritten(status, bodyText, ErrorJson(Some(detail)));
    assert r[..|"HTTP error! status: "|] == "HTTP error! status: ";
  }

  /** A concrete instance: a 400 whose body is `{"detail":"invalid_grant"}`. */
  lemma AsWrittenCounterexample()
    ensures NonOkMessageAsWritten(400, "{\"detail\":\"invalid_grant\"}", ErrorJson(Some("invalid_grant")))
      != "invalid_grant"
    ensures NonOkMessage(400, "{\"detail\":\"invalid_grant\"}", ErrorJson(Some("invalid_grant")))
      == "invalid_grant"
  {
    AsWrittenNeverShowsDetail(400, "{\"detail\":\"invalid_grant\"}", "invalid_grant");
  }

  /** As intended: the backend's `detail` when the body is JSON with one, the
      status otherwise, the status and raw text when the body is not JSON. */
  function NonOkMessage(status: nat, bodyText: string, error: ErrorBody): (r: string)
    ensures error.ErrorJson? && Truthy(error.detail) ==> r == error.detail.value
    ensures !(error.ErrorJson? && Truthy(error.detail)) ==> IsPrefix(StatusText(status), r)
  {
    DetailOrStatus(status, bodyText, error)
  }

  /** The message of any failed exchange, as the page surfaces it: a
      non-2xx answer always yields the status and the raw body text. */
  function FailureMessage<T>(o: Outcome<T>): (r: string)
    requires !o.Ok?
    ensures o.NotOk? ==> r == NonOkMessageAsWritten(o.status, o.bodyText, o.error)
    ensures o.NotOk? ==> IsPrefix(StatusText(o.status) + " - ", r)
    ensures o.Unreadable? ==> r == o.syntaxError
    ensures o.NetworkError? ==> r == o.message
  {
    match o
    case NotOk(status, text, error) => NonOkMessageAsWritten(status, text, error)
    case Unreadable(m) => m
    case NetworkError(m) => m
  }

  /** The message the failure path evidently means to surface: the backend's
      `detail` when the body carries one. */
  function FailureMessageIntended<T>(o: Outcome<T>): (r: string)
    requires !o.Ok?
    ensures o.NotOk? ==> r == NonOkMessage(o.status, o.bodyText, o.error)
    ensures o.Unreadable? ==> r == o.syntaxError
    ensures o.NetworkError? ==> r == o.message
  {
    match o
    case NotOk(status, text, error) => NonOkMessage(status, text, error)
    case Unreadable(m) => m
    case NetworkError(m) => m
  }

  /** Where the two messages part: they agree on bodies that are not JSON
      and on unreadable or unreachable answers; a JSON body without `detail`
      always changes the message, and so does one whose `detail` is not
      itself an `HTTP error!` text. */
  lemma FailureMessagesCompared<T>(o: Outcome<T>)
    requires !o.Ok?
    ensures !(o.NotOk? && o.error.ErrorJson?) ==> FailureMessage(o) == FailureMessageIntended(o)
    ensures o.NotOk? && o.error.ErrorJson? && !Truthy(o.error.detail) ==>
      FailureMessage(o) != FailureMessageIntended(o)
    ensures o.NotOk? && o.error.ErrorJson? && Truthy(o.error.detail) && !IsPrefix("HTTP error! status: ", o.error.detail.value) ==>
      FailureMessage(o) != FailureMessageIntended(o)
  {
    if o.NotOk? && o.error.ErrorJson? {
      var a := FailureMessage(o);
      if !Truthy(o.error.detail) {
        assert |a| > |StatusText(o.status)|;
      } else if !IsPrefix("HTTP error! status: ", o.error.detail.value) {
        AsWrittenNeverShowsDetail(o.status, o.bodyText, o.error.detail.value);
      }
    }
  }

  // ---------------------------------------------------------------------
  // The answers

  /** The fields of a public connection the page forwards. */
  datatype PublicBody = PublicBody(email: Option<string>, inviterUserId: Option<string>)

  /** The sign-in answer: the user profile and the access token. */
  datatype LoginBody = LoginBody(user: Auth.User, accessToken: string)

  function ResolveEmailAccount(o: Outcome<()>): (es: seq<Effect>)
    ensures o.Ok? ==> es == [Alert(AccountConnectedText), Navigate("/email-accounts", 0)]
    ensures !o.Ok? ==> es == Fail(FailureMessage(o))
    ensures RequestCount(es) == 0
  {
    if o.Ok? then [Alert(AccountConnectedText), Navigate("/email-accounts", 0)] else Fail(FailureMessage(o))
  }

  /** A 400 whose body is `{"detail":"invalid_grant"}` alerts the status line
      and the raw body, not `invalid_grant`. */
  lemma ResolveEmailAccountInvalidGrant()
    ensures var body := "{\"detail\":\"invalid_grant\"}";
      ResolveEmailAccount(NotOk(400, body, ErrorJson(Some("invalid_grant"))))
        == [Alert("Authentication failed: " + StatusText(400) + " - " + body), Navigate("/", 0)]
  {
    var body := "{\"detail\":\"invalid_grant\"}";
    var o: Outcome<()> := NotOk(400, body, ErrorJson(Some("invalid_grant")));
    var m := FailureMessage(o);
    var prefix := StatusText(400) + " - ";
    assert m == m[..|prefix|] + m[|prefix|..];
    assert m == prefix + body;
    assert "Authentication failed: " + m == "Authentication failed: " + StatusText(400) + " - " + body;
  }

  /** The invite-success page receives the connected address and the
      inviter from the answer. */
  function ResolvePublic(o: Outcome<PublicBody>): (es: seq<Effect>)
    ensures o.Ok? ==> es == [Alert(PublicConnectedText),
                             NavigateWithInvite("/invite-success", AccountConnectedText, o.body.email, o.body.inviterUserId)]
    ensures !o.Ok? ==> es == Fail(FailureMessage(o))
    ensures RequestCount(es) == 0
  {
    match o
    case Ok(b) => [Alert(PublicConnectedText),
                   NavigateWithInvite("/invite-success", AccountConnectedText, b.email, b.inviterUserId)]
    case _ => Fail(FailureMessage(o))
  }

  /** A successful sign-in stores the session through `setUserData` and goes
      to the dashboard; a failure leaves the session untouched. */
  function ResolveMainLogin(s: Auth.Session, o: Outcome<LoginBody>, stringify: Auth.User -> string): (r: (Auth.Session, seq<Effect>))
    ensures o.Ok? ==> r.0 == Auth.SetUserData(s, o.body.user, o.body.accessToken, stringify)
    ensures o.Ok? ==> r.1 == [Navigate("/dashboard", 0)]
    ensures o.Ok? ==> Auth.IsAuthenticated(r.0.state) && Get(r.0.local, AccessTokenKey) == Some(o.body.accessToken)
    ensures !o.Ok? ==> r.0 == s && r.1 == Fail(FailureMessage(o))
    ensures RequestCount(r.1) == 0
  {
    match o
    case Ok(b) => (Auth.SetUserData(s, b.user, b.accessToken, stringify), [Navigate("/dashboard", 0)])
    case _ => (s, Fail(FailureMessage(o)))
  }

  /** The session a successful sign-in stores is the one the next start-up
      restores, given a non-empty token and a profile that survives
      `JSON.parse(JSON.stringify(...))`; a failed sign-in restores whatever
      was there before. */
  lemma MainLoginRestores(s: Auth.Session, o: Outcome<LoginBody>,
                          stringify: Auth.User -> string, parse: string -> Option<Auth.User>)
    requires o.Ok? ==> o.body.accessToken != "" && stringify(o.body.user) != ""
    requires o.Ok? ==> parse(stringify(o.body.user)) == Some(o.body.user)
    ensures o.Ok? ==>
      Auth.Restore(ResolveMainLogin(s, o, stringify).0.local, parse).state == Auth.AuthState(Some(o.body.user), false)
    ensures !o.Ok? ==> Auth.Restore(ResolveMainLogin(s, o, stringify).0.local, parse) == Auth.Restore(s.local, parse)
  {
    if o.Ok? {
      Auth.RestoreAfterSetUserData(s, o.body.user, o.body.accessToken, stringify, parse);
    }
  }

  /** A whole visit to the callback, every run of the effect followed by the
      handling of the answer, sends at most one request, whichever flow it
      is. */
  lemma {:induction false} CallbackSendsAtMostOneRequest(runs: seq<(CallbackQuery, Store)>,
                                                         account: Outcome<()>, public: Outcome<PublicBody>,
                                                         s: Auth.Session, login: Outcome<LoginBody>,
                                                         stringify: Auth.User -> string)
    ensures var h := HandleAll(false, runs).effects;
      && RequestCount(h + ResolveEmailAccount(account)) <= 1
      && RequestCount(h + ResolvePublic(public)) <= 1
      && RequestCount(h + ResolveMainLogin(s, login, stringify).1) <= 1
  {
    var h := HandleAll(false, runs).effects;
    AtMostOneExchange(runs);
    RequestCountAppend(h, ResolveEmailAccount(account));
    RequestCountAppend(h, ResolvePublic(public));
    RequestCountAppend(h, ResolveMainLogin(s, login, stringify).1);
  }

  /** The public exchange sends the code so that the server decodes exactly
      it back from the query string. */
  lemma PublicCodeRoundTrip(code: string, bearer: string)
    ensures var r := ExchangeRequest(PublicEmailAccountFlow, code, bearer);
      UriEncoding.DecodeUriComponent(r.path[|"/api/email-accounts/oauth/gmail/callback-public?code="|..]) == Some(code)
  {
    UriEncoding.DecodeEncode(code);
  }
}

=== FILE: group_selector.dfy ===
/** `GroupSelector`: the Google Groups of one email account, the selection
    the parent keeps, and the scan of the selected groups. */
module GroupSelector {
  import opened Js
  import opened Selection

  /** A group as fetched; `groupId` may be missing. */
  datatype Group = Group(groupId: Option<string>, name: string)

  predicate HasId(g: Group) {
    Truthy(g.groupId)
  }

  /** `(groupsData || []).filter(group => group.group_id)`: the groups with
      an id, in the order received. */
  function ValidGroups(data: Option<seq<Group>>): (r: seq<Group>)
    ensures data.None? ==> r == []
    ensures data.Some? ==> |r| <= |data.value|
    ensures forall i :: 0 <= i < |r| ==> HasId(r[i]) && data.Some? && r[i] in data.value
    ensures data.Some? ==> forall i :: 0 <= i < |data.value| && HasId(data.value[i]) ==> data.value[i] in r
  {
    match data
    case None => []
    case Some(gs) => WithIds(gs)
  }

  function WithIds(gs: seq<Group>): (r: seq<Group>)
    ensures |r| <= |gs|
    ensures forall i :: 0 <= i < |r| ==> HasId(r[i]) && r[i] in gs
    ensures forall i :: 0 <= i < |gs| && HasId(gs[i]) ==> gs[i] in r
    decreases |gs|
  {
    if gs == [] then []
    else
      var rest := WithIds(gs[1..]);
      assert forall i :: 1 <= i < |gs| ==> gs[i] == gs[1..][i - 1];
      if HasId(gs[0]) then [gs[0]] + rest else rest
  }

  /** `.filter` keeps the order received: filtering a concatenation is
      concatenating the filtered parts. */
  lemma {:induction false} WithIdsAppend(a: seq<Group>, b: seq<Group>)
    ensures WithIds(a + b) == WithIds(a) + WithIds(b)
    decreases |a|
  {
    if a == [] {
      assert a + b == b;
    } else {
      assert (a + b)[1..] == a[1..] + b;
      WithIdsAppend(a[1..], b);
    }
  }

  /** A single group is kept once or dropped; with `WithIdsAppend` this fixes
      the order and the multiplicity of the result. */
  lemma WithIdsSingleton(g: Group)
    ensures WithIds([g]) == if HasId(g) then [g] else []
  {
  }

  /** Filtering the filtered list again changes nothing. */
  lemma {:induction false} WithIdsIdempotent(gs: seq<Group>)
    ensures WithIds(WithIds(gs)) == WithIds(gs)
    decreases |gs|
  {
    if gs != [] {
      var rest := WithIds(gs[1..]);
      WithIdsIdempotent(gs[1..]);
      if HasId(gs[0]) {
        assert WithIds(gs) == [gs[0]] + rest;
        assert ([gs[0]] + rest)[1..] == rest;
      }
    }
  }

  /** The component's own state. */
  datatype State = State(groups: seq<Group>, loading: bool, syncing: bool, error: Option<string>)

  const PermissionText := "Google Groups access requires additional permissions. Please reconnect your account with the required permissions."
  const FetchFailedText := "Failed to fetch Google Groups."
  const SyncFailedText := "Failed to sync groups."
  const SyncErrorText := "Error syncing Google Groups."

  /** The answer to the groups request: the body, or the HTTP status of the
      failure (absent for a network error). */
  datatype FetchOutcome = Fetched(data: Option<seq<Group>>) | FetchFailed(status: Option<int>)

  /** `fetchGroups` once the request settles. */
  function FetchGroups(s: State, o: FetchOutcome): (r: State)
    ensures !r.loading && r.syncing == s.syncing
    ensures o.Fetched? ==> r.groups == ValidGroups(o.data) && r.error == None
    ensures o.FetchFailed? ==> r.groups == s.groups
    ensures o.FetchFailed? && o.status == Some(403) ==> r.error == Some(PermissionText)
    ensures o.FetchFailed? && o.status != Some(403) ==> r.error == Some(FetchFailedText)
  {
    match o
    case Fetched(data) => s.(groups := ValidGroups(data), loading := false, error := None)
    case FetchFailed(status) =>
      s.(loading := false, error := Some(if status == Some(403) then PermissionText else FetchFailedText))
  }

  /** The answer to the sync request. */
  datatype SyncOutcome = SyncAnswered(success: bool, message: Option<string>) | SyncThrew

  /** `syncGroups` once the request settles: whether the list is fetched
      again, and the state. */
  function SyncGroups(s: State, o: SyncOutcome): (r: (State, bool))
    ensures r.1 <==> o.SyncAnswered? && o.success
    ensures !r.0.syncing && r.0.groups == s.groups
    ensures r.1 ==> r.0.error == None
    ensures o.SyncAnswered? && !o.success ==> r.0.error == Some(OrElse(o.message, SyncFailedText))
    ensures o.SyncThrew? ==> r.0.error == Some(SyncErrorText)
  {
    match o
    case SyncAnswered(success, message) =>
      if success then (s.(syncing := false, error := None), true)
      else (s.(syncing := false, error := Some(OrElse(message, SyncFailedText))), false)
    case SyncThrew => (s.(syncing := false, error := Some(SyncErrorText)), false)
  }

  /** A successful sync fetches the list again before `finally` clears
      `syncing`. The model clears it first; the settled state is the same
      as fetching with `syncing` still raised and clearing it afterwards. */
  lemma SyncThenFetch(s: State, o: SyncOutcome, f: FetchOutcome)
    requires SyncGroups(s, o).1
    ensures FetchGroups(SyncGroups(s, o).0, f) == FetchGroups(s.(error := None), f).(syncing := false)
    ensures var r := FetchGroups(SyncGroups(s, o).0, f);
      !r.syncing && !r.loading && (f.Fetched? ==> r.groups == ValidGroups(f.data) && r.error == None)
  {
  }

  /** `handleGroupToggle`: the selection handed to `onGroupsChange`, or
      nothing when the id is empty. */
  function ToggleGroup(selected: seq<string>, id: string): (r: Option<seq<string>>)
    ensures r.None? <==> id == ""
    ensures r.Some? ==> (id in r.value <==> id !in selected)
    ensures r.Some? ==> forall x :: x != id ==> (x in r.value <==> x in selected)
    ensures r.Some? && id !in selected ==> r.value == selected + [id]
  {
    if id == "" then None else Some(Toggle(selected, id))
  }

  /** `handleScanSelected`: `onScanGroups` is called with the selection only
      when it is not empty. */
  function ScanSelected(selected: seq<string>): (r: Option<seq<string>>)
    ensures r.Some? <==> selected != []
    ensures r.Some? ==> r.value == selected
  {
    if |selected| > 0 then Some(selected) else None
  }

  /** `selectedGroupsData`: the groups whose id is selected, in group order. */
  function SelectedGroupsData(groups: seq<Group>, selected: seq<string>): (r: seq<Group>)
    ensures |r| <= |groups|
    ensures forall i :: 0 <= i < |r| ==> r[i] in groups && r[i].groupId.Some? && r[i].groupId.value in selected
    ensures forall i :: 0 <= i < |groups| && groups[i].groupId.Some? && groups[i].groupId.value in selected ==>
      groups[i] in r
    decreases |groups|
  {
    if groups == [] then []
    else
      var rest := SelectedGroupsData(groups[1..], selected);
      assert forall i :: 1 <= i < |groups| ==> groups[i] == groups[1..][i - 1];
      var g := groups[0];
      if g.groupId.Some? && g.groupId.value in selected then [g] + rest else rest
  }

  /** `selectedGroupsData` keeps the group order: selecting from a
      concatenation is concatenating the selections. */
  lemma {:induction false} SelectedGroupsDataAppend(a: seq<Group>, b: seq<Group>, selected: seq<string>)
    ensures SelectedGroupsData(a + b, selected) == SelectedGroupsData(a, selected) + SelectedGroupsData(b, selected)
    decreases |a|
  {
    if a == [] {
      assert a + b == b;
    } else {
      assert (a + b)[1..] == a[1..] + b;
      SelectedGroupsDataAppend(a[1..], b, selected);
    }
  }

  /** A single group is kept once iff its id is selected. */
  lemma SelectedGroupsDataSingleton(g: Group, selected: seq<string>)
    ensures SelectedGroupsData([g], selected) == if g.groupId.Some? && g.groupId.value in selected then [g] else []
  {
  }

  /** Selecting a listed group's id makes that group show as selected, and
      selecting it again hides it. */
  lemma ToggleShowsGroup(groups: seq<Group>, selected: seq<string>, i: nat)
    requires i < |groups| && HasId(groups[i])
    requires groups[i].groupId.value !in selected
    ensures var after := ToggleGroup(selected, groups[i].groupId.value).value;
      groups[i] in SelectedGroupsData(groups, after)
      && ToggleGroup(after, groups[i].groupId.value) == Some(selected)
  {
    ToggleTwiceRestores(selected, groups[i].groupId.value);
  }

  /** The list the selector shows holds only groups that can be selected. */
  lemma FetchedGroupsHaveIds(s: State, data: Option<seq<Group>>, i: nat)
    requires i < |FetchGroups(s, Fetched(data)).groups|
    ensures ToggleGroup([], FetchGroups(s, Fetched(data)).groups[i].groupId.value).Some?
  {
  }
}

=== FILE: http.dfy ===
/** The outcome of a `fetch` issued by an OAuth callback page, and the error
    texts the pages build from a failed response. */
module Http {
  import opened Js

  /** The query string the provider redirects back with (`code`, `error`,
      `state`), each `null` when absent. */
  datatype CallbackQuery = CallbackQuery(code: Option<string>, error: Option<string>, state: Option<string>)

  /** What `JSON.parse` (or `response.json()`) made of an error body. */
  datatype ErrorBody =
    | ErrorJson(detail: Option<string>)   // an object; `detail` is its `detail` field
    | NotJson(syntaxError: string)        // parsing threw a `SyntaxError` with this message

  /** The result of one `fetch`, from the point of view of the page that
      awaited it. `T` is the body of a 2xx response as the page reads it. */
  datatype Outcome<T> =
    | Ok(body: T)                                            // 2xx, body parsed
    | NotOk(status: nat, bodyText: string, error: ErrorBody) // non-2xx response
    | Unreadable(syntaxError: string)                        // 2xx, `response.json()` threw
    | NetworkError(message: string)                          // `fetch` itself rejected

  /** `HTTP error! status: N` */
  function StatusText(status: nat): (r: string)
    ensures IsPrefix("HTTP error! status: ", r)
    ensures r[|"HTTP error! status: "|..] == NatToString(status)
  {
    "HTTP error! status: " + NatToString(status)
  }

  /** `HTTP error! status: N - <body>` */
  function StatusWithBody(status: nat, bodyText: string): (r: string)
    ensures IsPrefix(StatusText(status), r)
    ensures r[|StatusText(status)|..] == " - " + bodyText
  {
    StatusText(status) + " - " + bodyText
  }

  /** The message `EmailAccountCallback` derives from a non-2xx response:
      the backend's `detail` when the body is JSON and carries one, the bare
      status when it is JSON without one, the status and the raw text when
      the body is not JSON. */
  function DetailOrStatus(status: nat, bodyText: string, error: ErrorBody): (r: string)
    ensures error.ErrorJson? && Truthy(error.detail) ==> r == error.detail.value
    ensures error.ErrorJson? && !Truthy(error.detail) ==> r == StatusText(status)
    ensures error.NotJson? ==> r == StatusWithBody(status, bodyText)
    ensures r != ""
  {
    match error
    case ErrorJson(detail) => OrElse(detail, StatusText(status))
    case NotJson(_) => StatusWithBody(status, bodyText)
  }

  /** The status line of an error message can be read back: two different
      statuses never produce the same `HTTP error!` text. */
  lemma {:induction false} StatusTextInjective(m: nat, n: nat)
    requires StatusText(m) == StatusText(n)
    ensures m == n
  {
    var p := "HTTP error! status: ";
    assert StatusText(m)[|p|..] == NatToString(m);
    assert StatusText(n)[|p|..] == NatToString(n);
    NatToStringInjective(m, n);
  }
}

=== FILE: invite_accept.dfy ===
/** The `InviteAccept` page: validate a shared-access invite, accept it as
    the signed-in user, then move on to the email-accounts page. */
module InviteAccept {
  import opened Js
  import opened Effects
  import opened Invites

  datatype Status = Loading | Valid | Invalid | Expired | Accepting | Success | Error

  /** `inviteData` holds `response.invite`; `error` starts as the empty string. */
  datatype Page = Page(token: Option<string>, status: Status, inviteData: Option<InviteLink>, error: string)

  datatype Transition = Transition(page: Page, effects: seq<Effect>)

  datatype Control = AcceptButton | GoHomeButton

  datatype Event =
    | ValidationDone(validation: ValidateOutcome)
    | Clicked(control: Control, authenticated: bool)
    | AcceptDone(acceptance: AcceptOutcome)

  /** What the page shows. `invalid` and `error` share one view. */
  datatype View = Spinner | InviteDetails | AcceptingView | Welcome | ExpiredNotice | InvalidNotice(text: string)

  const DefaultInvalidText := "This invite link is invalid or has already been used."
  const SuccessPath := "/email-accounts"
  const SuccessDelayMs := 3000

  function Render(p: Page): (v: View)
    ensures p.status == Invalid || p.status == Error <==> v.InvalidNotice?
    ensures v.InvalidNotice? ==> v.text == OrElse(Some(p.error), DefaultInvalidText)
    ensures p.status == Loading <==> v == Spinner
    ensures p.status == Valid <==> v == InviteDetails
    ensures p.status == Accepting <==> v == AcceptingView
    ensures p.status == Success <==> v == Welcome
    ensures p.status == Expired <==> v == ExpiredNotice
  {
    match p.status
    case Loading => Spinner
    case Valid => InviteDetails
    case Accepting => AcceptingView
    case Success => Welcome
    case Expired => ExpiredNotice
    case Invalid => InvalidNotice(OrElse(Some(p.error), DefaultInvalidText))
    case Error => InvalidNotice(OrElse(Some(p.error), DefaultInvalidText))
  }

  function Controls(s: Status): (r: set<Control>)
    ensures AcceptButton in r <==> s == Valid
    ensures GoHomeButton in r <==> s == Expired || s == Invalid || s == Error
  {
    match s
    case Valid => {AcceptButton}
    case Expired => {GoHomeButton}
    case Invalid => {GoHomeButton}
    case Error => {GoHomeButton}
    case _ => {}
  }

  function Open(token: Option<string>): (r: Transition)
    ensures r.page.status == Loading && r.page.token == token && r.page.error == ""
    ensures Truthy(token) ==> r.effects == [ValidateInvite(token.value)]
    ensures !Truthy(token) ==> r.effects == []
  {
    Transition(Page(token, Loading, None, ""), if Truthy(token) then [ValidateInvite(token.value)] else [])
  }

  /** `validateInvite`'s handling of the answer. Unlike the email-account
      invite page, any valid invite is accepted here, and a refusal leaves
      `error` as it was. */
  function OnValidated(p: Page, o: ValidateOutcome): (r: Page)
    ensures r.token == p.token
    ensures r.status == Valid <==> o.Validated? && o.response.valid
    ensures r.status == Expired <==> o.Validated? && !o.response.valid && o.response.reason == Some(ExpiredReason)
    ensures r.status == Valid || r.status == Expired || r.status == Invalid
    ensures r.status == Valid ==> r.inviteData == o.response.invite
    ensures o.Validated? ==> r.error == p.error
    ensures o.ValidateThrew? ==> r.error == OrElse(o.detail, InvalidLinkText) && r.inviteData == p.inviteData
  {
    match o
    case Validated(resp) =>
      if resp.valid then p.(status := Valid, inviteData := resp.invite)
      else p.(status := if resp.reason == Some(ExpiredReason) then Expired else Invalid)
    case ValidateThrew(detail) => p.(status := Invalid, error := OrElse(detail, InvalidLinkText))
  }

  function OnAccept(p: Page, authenticated: bool): (r: Transition)
    requires p.token.Some?
    ensures !authenticated ==> r == Transition(p, [CallLogin])
    ensures authenticated ==> r.page == p.(status := Accepting) && r.effects == [AcceptInvite(p.token.value)]
  {
    if !authenticated then Transition(p, [CallLogin])
    else Transition(p.(status := Accepting), [AcceptInvite(p.token.value)])
  }

  /** Success schedules the move to the email-accounts page after three
      seconds; a failure shows a message. */
  function OnAccepted(p: Page, o: AcceptOutcome): (r: Transition)
    ensures r.page.status == Success <==> o.Accepted? && o.response.success
    ensures r.page.status == Success ==> r.effects == [Navigate(SuccessPath, SuccessDelayMs)]
    ensures r.page.status == Error ==> r.effects == [] && r.page.error != ""
    ensures r.page.status == Success || r.page.status == Error
    ensures o.Accepted? && !o.response.success ==> r.page.error == OrElse(o.response.message, AcceptFailedText)
    ensures o.AcceptThrew? ==> r.page.error == OrElse(o.detail, AcceptFailedText)
    ensures r.page.token == p.token && r.page.inviteData == p.inviteData
  {
    match o
    case Accepted(resp) =>
      if resp.success then Transition(p.(status := Success), [Navigate(SuccessPath, SuccessDelayMs)])
      else Transition(p.(status := Error, error := OrElse(resp.message, AcceptFailedText)), [])
    case AcceptThrew(detail) => Transition(p.(status := Error, error := OrElse(detail, AcceptFailedText)), [])
  }

  function Step(p: Page, e: Event): (r: Transition)
    ensures e.Clicked? && e.control !in Controls(p.status) ==> r == Transition(p, [])
    ensures p.status != Loading && e.ValidationDone? ==> r == Transition(p, [])
    ensures p.status != Accepting && e.AcceptDone? ==> r == Transition(p, [])
    ensures p.status == Loading && Truthy(p.token) && e.ValidationDone? ==>
      r == Transition(OnValidated(p, e.validation), [])
    ensures p.status == Accepting && e.AcceptDone? ==> r == OnAccepted(p, e.acceptance)
    ensures p.status == Valid && p.token.Some? && e.Clicked? && e.control == AcceptButton ==>
      r == OnAccept(p, e.authenticated)
    ensures p.status in {Expired, Invalid, Error} && e.Clicked? && e.control == GoHomeButton ==>
      r == Transition(p, [Navigate("/", 0)])
  {
    match e
    case ValidationDone(o) =>
      if p.status == Loading && Truthy(p.token) then Transition(OnValidated(p, o), []) else Transition(p, [])
    case AcceptDone(o) =>
      if p.status == Accepting then OnAccepted(p, o) else Transition(p, [])
    case Clicked(c, authenticated) =>
      if c !in Controls(p.status) then Transition(p, [])
      else match c
        case AcceptButton => if p.token.Some? then OnAccept(p, authenticated) else Transition(p, [])
        case GoHomeButton => Transition(p, [Navigate("/", 0)])
  }

  function Run(p: Page, es: seq<Event>): (r: Transition)
    decreases |es|
  {
    if es == [] then Transition(p, [])
    else
      var t := Step(p, es[0]);
      var rest := Run(t.page, es[1..]);
      Transition(rest.page, t.effects + rest.effects)
  }

  /** Past the spinner there is a token, and the `error` status always
      carries a message. */
  predicate Inv(p: Page) {
    && (p.status != Loading ==> Truthy(p.token))
    && (p.status == Error ==> p.error != "")
  }

  lemma StepKeepsInv(p: Page, e: Event)
    requires Inv(p)
    ensures Inv(Step(p, e).page)
  {
  }

  lemma {:induction false} RunKeepsInv(p: Page, es: seq<Event>)
    requires Inv(p)
    ensures Inv(Run(p, es).page)
    decreases |es|
  {
    if es != [] {
      StepKeepsInv(p, es[0]);
      RunKeepsInv(Step(p, es[0]).page, es[1..]);
    }
  }

  /** Once accepted or failed, the status never changes again. */
  lemma {:induction false} SettledStaysSettled(p: Page, es: seq<Event>)
    requires p.status == Success || p.status == Error
    ensures Run(p, es).page.status == p.status
    decreases |es|
  {
    if es != [] {
      SettledStaysSettled(Step(p, es[0]).page, es[1..]);
    }
  }

  /** A refused invite that is not expired shows the default text, because
      this page leaves `error` empty on a refusal. */
  lemma RefusalShowsDefaultText(token: string, resp: ValidateResponse)
    requires token != "" && !resp.valid && resp.reason != Some(ExpiredReason)
    ensures Render(Step(Open(Some(token)).page, ValidationDone(Validated(resp))).page)
      == InvalidNotice(DefaultInvalidText)
  {
  }

  /** The redirect to the email-accounts page is scheduled only by a
      successful acceptance. */
  lemma NavigatesOnlyOnSuccess(p: Page, e: Event)
    requires Navigate(SuccessPath, SuccessDelayMs) in Step(p, e).effects
    ensures p.status == Accepting && Step(p, e).page.status == Success
  {
  }
}

=== FILE: invite_button.dfy ===
/** `EmailAccountInviteButton`: the modal that creates an invite link for
    someone to connect their email account. */
module InviteButton {
  import opened Js

  // ---------------------------------------------------------------------
  // The address check `/^[^\s@]+@[^\s@]+\.[^\s@]+$/`

  /** A character the pattern's `[^\s@]` class accepts. */
  predicate Plain(c: char) {
    !IsWhitespace(c) && c != '@'
  }

  predicate AllPlain(s: string) {
    forall k :: 0 <= k < |s| ==> Plain(s[k])
  }

  /** The pattern read literally: a non-empty run of plain characters, `@`,
      a non-empty run, `.`, and a non-empty run. The middle and last runs may
      themselves contain dots. */
  predicate EmailPattern(s: string) {
    exists at, dot :: 0 < at && at + 1 < dot && dot + 1 < |s|
      && s[at] == '@' && s[dot] == '.'
      && AllPlain(s[..at]) && AllPlain(s[at + 1..dot]) && AllPlain(s[dot + 1..])
  }

  /** The index of the first `@`. */
  function FirstAt(s: string): (r: Option<nat>)
    ensures r.Some? ==> r.value < |s| && s[r.value] == '@' && forall k :: 0 <= k < r.value ==> s[k] != '@'
    ensures r.None? ==> forall k :: 0 <= k < |s| ==> s[k] != '@'
    decreases |s|
  {
    if s == [] then None
    else if s[0] == '@' then Some(0)
    else match FirstAt(s[1..])
      case None => None
      case Some(i) => Some(i + 1)
  }

  /** A `.` that is neither the first nor the last character. */
  predicate HasInnerDot(d: string) {
    exists k :: 0 < k < |d| - 1 && d[k] == '.'
  }

  /** `validateEmail`, as a decision: one `@` after a non-empty run without
      whitespace, then a domain without whitespace or `@` holding an inner
      dot. */
  predicate ValidEmail(s: string) {
    match FirstAt(s)
    case None => false
    case Some(at) => at > 0 && AllPlain(s[..at]) && AllPlain(s[at + 1..]) && HasInnerDot(s[at + 1..])
  }

  /** The decision accepts exactly the strings the pattern matches. */
  lemma ValidEmailMatchesPattern(s: string)
    ensures ValidEmail(s) <==> EmailPattern(s)
  {
    if ValidEmail(s) {
      ValidEmailIsMatch(s);
    }
    if EmailPattern(s) {
      MatchIsValidEmail(s);
    }
  }

  lemma ValidEmailIsMatch(s: string)
    requires ValidEmail(s)
    ensures EmailPattern(s)
  {
    var at := FirstAt(s).value;
    var domain := s[at + 1..];
    var k :| 0 < k < |domain| - 1 && domain[k] == '.';
    var dot := at + 1 + k;
    assert s[at + 1..dot] == domain[..k];
    assert s[dot + 1..] == domain[k + 1..];
    assert AllPlain(domain[..k]) && AllPlain(domain[k + 1..]);
  }

  lemma MatchIsValidEmail(s: string)
    requires EmailPattern(s)
    ensures ValidEmail(s)
  {
    var at, dot :| 0 < at && at + 1 < dot && dot + 1 < |s|
      && s[at] == '@' && s[dot] == '.'
      && AllPlain(s[..at]) && AllPlain(s[at + 1..dot]) && AllPlain(s[dot + 1..]);
    SplitIsValidEmail(s, at, dot);
  }

  lemma SplitIsValidEmail(s: string, at: nat, dot: nat)
    requires 0 < at && at + 1 < dot && dot + 1 < |s|
    requires s[at] == '@' && s[dot] == '.'
    requires AllPlain(s[..at]) && AllPlain(s[at + 1..dot]) && AllPlain(s[dot + 1..])
    ensures ValidEmail(s)
  {
    FirstAtAfterPlain(s, at);
    var domain := s[at + 1..];
    var mid, tail := s[at + 1..dot], s[dot + 1..];
    assert domain == mid + ['.'] + tail;
    AllPlainAround(mid, '.', tail);
    var k := |mid|;
    assert 0 < k < |domain| - 1 && domain[k] == '.';
    assert HasInnerDot(domain);
  }

  /** An `@` preceded only by plain characters is the first one. */
  lemma FirstAtAfterPlain(s: string, at: nat)
    requires at < |s| && s[at] == '@' && AllPlain(s[..at])
    ensures FirstAt(s) == Some(at)
  {
    assert forall k :: 0 <= k < at ==> s[k] == s[..at][k];
  }

  lemma AllPlainAround(a: string, c: char, b: string)
    requires AllPlain(a) && AllPlain(b) && Plain(c)
    ensures AllPlain(a + [c] + b)
  {
    var s := a + [c] + b;
    forall j | 0 <= j < |s|
      ensures Plain(s[j])
    {
      if j < |a| {
        assert s[j] == a[j];
      } else if j > |a| {
        assert s[j] == b[j - |a| - 1];
      }
    }
  }

  /** Two sample addresses: a plain one passes, one with a space fails. */
  lemma Samples()
    ensures ValidEmail("a@b.co")
    ensures !ValidEmail("a b@c.d")
  {
    ValidEmailMatchesPattern("a@b.co");
    assert FirstAt("a@b.co") == Some(1);
    assert "a@b.co"[2..][1] == '.';
    assert FirstAt("a b@c.d") == Some(3);
    assert "a b@c.d"[..3][1] == ' ';
  }

  // ---------------------------------------------------------------------
  // The modal

  /** The hours offered; one day is the default. */
  const HoursOptions: seq<nat> := [1, 24, 72, 168]
  const DefaultHours: nat := 24

  datatype Form = Form(invitedEmail: string, expiresInHours: nat)

  datatype Modal = Modal(isOpen: bool, loading: bool, inviteUrl: string, copied: bool, error: Option<string>, form: Form)

  const Closed := Modal(false, false, "", false, None, Form("", DefaultHours))

  const EmailMissingText := "Please enter an email address"
  const CreateFailedText := "Failed to create invite link"

  /** The create button is disabled while loading, with no address, or with
      an address the pattern refuses. */
  predicate CreateDisabled(m: Modal) {
    m.loading || m.form.invitedEmail == "" || !ValidEmail(m.form.invitedEmail)
  }

  /** The invite request: address and lifetime. */
  datatype CreateRequest = CreateRequest(invitedEmail: string, expiresInHours: nat)

  /** The answer to the invite request. */
  datatype CreateOutcome = Created(inviteUrl: string) | CreateFailed(detail: Option<string>)

  /** `createEmailAccountInvite`: an empty address shows a message and sends
      nothing; otherwise the form is sent and the answer shows the link or the
      backend's reason. Loading is off once settled. */
  function Create(m: Modal, o: CreateOutcome): (r: (Modal, seq<CreateRequest>))
    ensures m.form.invitedEmail == "" ==> r == (m.(error := Some(EmailMissingText)), [])
    ensures m.form.invitedEmail != "" ==>
      r.1 == [CreateRequest(m.form.invitedEmail, m.form.expiresInHours)] && !r.0.loading && r.0.form == m.form
    ensures m.form.invitedEmail != "" && o.Created? ==> r.0.inviteUrl == o.inviteUrl && r.0.error == None
    ensures m.form.invitedEmail != "" && o.CreateFailed? ==>
      r.0.inviteUrl == m.inviteUrl && r.0.error == Some(OrElse(o.detail, CreateFailedText))
  {
    if m.form.invitedEmail == "" then (m.(error := Some(EmailMissingText)), [])
    else
      var sent := [CreateRequest(m.form.invitedEmail, m.form.expiresInHours)];
      match o
      case Created(url) => (m.(loading := false, error := None, inviteUrl := url), sent)
      case CreateFailed(detail) => (m.(loading := false, error := Some(OrElse(detail, CreateFailedText))), sent)
  }

  /** Whenever the button can be pressed, pressing it sends a request for an
      address the pattern accepts. */
  lemma EnabledButtonSends(m: Modal, o: CreateOutcome)
    requires !CreateDisabled(m)
    ensures |Create(m, o).1| == 1 && EmailPattern(Create(m, o).1[0].invitedEmail)
  {
    ValidEmailMatchesPattern(m.form.invitedEmail);
  }

  /** `closeModal`: back to the initial state, whatever was shown. */
  function CloseModal(m: Modal): (r: Modal)
    ensures !r.isOpen && !r.copied && r.inviteUrl == "" && r.error == None
    ensures r.form == Form("", DefaultHours)
    ensures CreateDisabled(r) && r.form.expiresInHours in HoursOptions
  {
    m.(isOpen := false, inviteUrl := "", error := None, copied := false, form := Form("", DefaultHours))
  }

  /** Closing keeps only the loading flag, so closing a modal that is not
      loading yields exactly the initial one. */
  lemma CloseRestoresInitial(m: Modal)
    requires !m.loading
    ensures CloseModal(m) == Closed
  {
  }

  /** Choosing an option stores `parseInt` of its text, which is the option
      itself. */
  function ChooseHours(m: Modal, optionText: string): (r: Modal)
    requires forall k :: 0 <= k < |optionText| ==> IsDigit(optionText[k])
    ensures r.form.invitedEmail == m.form.invitedEmail && r.form.expiresInHours == ParseDigits(optionText)
  {
    m.(form := m.form.(expiresInHours := ParseDigits(optionText)))
  }

  lemma ChosenOptionIsStored(m: Modal, i: nat)
    requires i < |HoursOptions|
    ensures ChooseHours(m, NatToString(HoursOptions[i])).form.expiresInHours == HoursOptions[i]
  {
    ParseNatToString(HoursOptions[i]);
  }

  /** The unit of the expiry note: singular only for one hour. */
  function HourUnit(hours: nat): (u: string)
    ensures u == "hour" <==> hours == 1
    ensures u == "hour" || u == "hours"
  {
    "hour" + (if hours != 1 then "s" else "")
  }
}

=== FILE: invites.dfy ===
/** The invite records of `services/inviteService.ts` and the backend
    responses the invite pages react to. */
module Invites {
  import opened Js

  datatype InviteType = ShareAccess | AddEmailAccount
  datatype LinkStatus = Active | Used | ExpiredLink

  /** An invite link as the backend describes it (timestamps in milliseconds). */
  datatype InviteLink = InviteLink(
    inviteType: InviteType,
    status: LinkStatus,
    invitedEmail: Option<string>,
    emailAccountId: Option<string>,
    expiresAt: Option<int>)

  /** The wire name of an invite type. */
  function TypeName(t: InviteType): (r: string)
    ensures t == ShareAccess <==> r == "share_access"
    ensures t == AddEmailAccount <==> r == "add_email_account"
  {
    match t
    case ShareAccess => "share_access"
    case AddEmailAccount => "add_email_account"
  }

  /** Reading a wire name back: only the two names of the union are types. */
  function ParseTypeName(s: string): (r: Option<InviteType>)
    ensures r.Some? <==> s == "share_access" || s == "add_email_account"
  {
    if s == "share_access" then Some(ShareAccess)
    else if s == "add_email_account" then Some(AddEmailAccount)
    else None
  }

  /** Every type reads back from its wire name, and every name that reads
      back is the name of the type it reads as. */
  lemma TypeNameRoundTrip(t: InviteType, s: string)
    ensures ParseTypeName(TypeName(t)) == Some(t)
    ensures ParseTypeName(s).Some? ==> TypeName(ParseTypeName(s).value) == s
  {
  }

  /** The body of `GET /api/invites/validate/{token}`. `inviteType` and
      `reason` are the raw strings the backend sent; `expiresAt` is `None`
      when absent or not a date. */
  datatype ValidateResponse = ValidateResponse(
    valid: bool,
    inviteType: Option<string>,
    reason: Option<string>,
    message: Option<string>,
    invitedEmail: Option<string>,
    expiresAt: Option<int>,
    invite: Option<InviteLink>)

  /** A validation either answers or throws; `detail` is
      `err.response?.data?.detail`. */
  datatype ValidateOutcome = Validated(response: ValidateResponse) | ValidateThrew(detail: Option<string>)

  /** The body of `POST /api/invites/accept` and `/accept-public`. */
  datatype AcceptResponse = AcceptResponse(success: bool, message: Option<string>)

  datatype AcceptOutcome = Accepted(response: AcceptResponse) | AcceptThrew(detail: Option<string>)

  /** The status a validation response names as the reason of refusal. */
  const ExpiredReason := "expired"

  const InvalidLinkText := "Invalid invite link"
  const AcceptFailedText := "Failed to accept invite"
}

=== FILE: invoice_hierarchy.dfy ===
/** `InvoiceHierarchy`: invoices grouped by email account and month, with a
    breadcrumb trail and expandable groups. */
module InvoiceHierarchy {
  import opened Js
  import opened Selection

  datatype ViewLevel = Root | Emails | Months | Invoices

  /** A breadcrumb: the level it returns to, its text, and the email and
      month it restores (both optional). */
  datatype Crumb = Crumb(level: ViewLevel, text: string, email: Option<string>, month: Option<string>)

  datatype State = State(
    view: ViewLevel,
    selectedEmail: string,
    selectedMonth: string,
    crumbs: seq<Crumb>,
    expandedEmails: set<string>,
    expandedMonths: set<string>)

  const Initial := State(Root, "", "", [], {}, {})

  const RootLabel := "Invoice Manager"
  const EmailsLabel := "Invoices"

  /** `handleInvoiceClick`: the invoices view with a five-crumb trail. The
      crumbs carry labels only, no email or month. */
  function InvoiceClick(s: State, vendorName: string): (r: State)
    ensures r.view == Invoices
    ensures |r.crumbs| == 5
    ensures r.crumbs[0].level == Root && r.crumbs[1].level == Emails && r.crumbs[2].level == Months
    ensures r.crumbs[3].level == Invoices && r.crumbs[4].level == Invoices
    ensures r.crumbs[2].text == s.selectedEmail && r.crumbs[3].text == s.selectedMonth
    ensures r.crumbs[4].text == vendorName
    ensures forall i :: 0 <= i < 5 ==> r.crumbs[i].email.None? && r.crumbs[i].month.None?
    ensures r.selectedEmail == s.selectedEmail && r.selectedMonth == s.selectedMonth
    ensures r.expandedEmails == s.expandedEmails && r.expandedMonths == s.expandedMonths
  {
    s.(view := Invoices,
       crumbs := [Crumb(Root, RootLabel, None, None),
                  Crumb(Emails, EmailsLabel, None, None),
                  Crumb(Months, s.selectedEmail, None, None),
                  Crumb(Invoices, s.selectedMonth, None, None),
                  Crumb(Invoices, vendorName, None, None)])
  }

  /** `handleBreadcrumbClick(i)`: the trail is cut after crumb `i`, and the
      crumb's level decides the view and which selections survive. `i`
      is always the index of a rendered crumb. */
  function BreadcrumbClick(s: State, i: nat): (r: State)
    requires i < |s.crumbs|
    ensures r.crumbs == s.crumbs[..i + 1]
    ensures r.view == s.crumbs[i].level
    ensures r.view == Root || r.view == Emails ==> r.selectedEmail == "" && r.selectedMonth == ""
    ensures r.view == Months ==> r.selectedEmail == OrElse(s.crumbs[i].email, "") && r.selectedMonth == ""
    ensures r.view == Invoices ==>
      r.selectedEmail == OrElse(s.crumbs[i].email, "") && r.selectedMonth == OrElse(s.crumbs[i].month, "")
    ensures r.expandedEmails == s.expandedEmails && r.expandedMonths == s.expandedMonths
  {
    var target := s.crumbs[i];
    var t := s.(crumbs := s.crumbs[..i + 1], view := target.level);
    match target.level
    case Root => t.(selectedEmail := "", selectedMonth := "")
    case Emails => t.(selectedEmail := "", selectedMonth := "")
    case Months => t.(selectedEmail := OrElse(target.email, ""), selectedMonth := "")
    case Invoices => t.(selectedEmail := OrElse(target.email, ""), selectedMonth := OrElse(target.month, ""))
  }

  /** The "Invoices" card of the root view: the view becomes the email list
      and nothing else changes; in particular the trail is not extended. */
  function OpenEmails(s: State): (r: State)
    ensures r.view == Emails && RendersBody(r.view)
    ensures r.crumbs == s.crumbs
    ensures r.selectedEmail == s.selectedEmail && r.selectedMonth == s.selectedMonth
    ensures r.expandedEmails == s.expandedEmails && r.expandedMonths == s.expandedMonths
  {
    s.(view := Emails)
  }

  /** The "Invoices" crumb of an invoice trail leads to the view the card
      opens, with both selections cleared and the trail cut to two crumbs. */
  lemma EmailsCrumbMatchesOpenEmails(s: State, vendorName: string)
    ensures var t := InvoiceClick(s, vendorName);
      BreadcrumbClick(t, 1) == OpenEmails(s).(selectedEmail := "", selectedMonth := "", crumbs := t.crumbs[..2])
  {
  }

  /** Opened from the first render, the email list has an empty trail, so
      the breadcrumb bar is not drawn and no crumb leads back to the root;
      when the trail does start at the root, its first crumb still does. */
  lemma OpenEmailsKeepsWayBack(s: State)
    ensures OpenEmails(Initial).crumbs == []
    ensures |s.crumbs| > 0 && s.crumbs[0].level == Root ==>
      BreadcrumbClick(OpenEmails(s), 0).view == Root && BreadcrumbClick(OpenEmails(s), 0).crumbs == s.crumbs[..1]
  {
  }

  /** The last crumb of the cut trail is the one clicked, and clicking it
      again changes nothing more. */
  lemma BreadcrumbClickIdempotent(s: State, i: nat)
    requires i < |s.crumbs|
    ensures var r := BreadcrumbClick(s, i);
      r.crumbs[i] == s.crumbs[i] && BreadcrumbClick(r, i) == r
  {
  }

  /** After an invoice click, the account crumb does not lead back to the
      account: it restores no email, so the selected email is lost. */
  lemma AccountCrumbForgetsEmail(s: State, vendorName: string)
    ensures BreadcrumbClick(InvoiceClick(s, vendorName), 2).view == Months
    ensures BreadcrumbClick(InvoiceClick(s, vendorName), 2).selectedEmail == ""
    ensures |BreadcrumbClick(InvoiceClick(s, vendorName), 2).crumbs| == 3
  {
  }

  /** `toggleEmailExpansion`: exactly one email changes. */
  function ToggleEmail(s: State, email: string): (r: State)
    ensures email in r.expandedEmails <==> email !in s.expandedEmails
    ensures forall e :: e != email ==> (e in r.expandedEmails <==> e in s.expandedEmails)
    ensures r.expandedMonths == s.expandedMonths && r.view == s.view && r.crumbs == s.crumbs
  {
    s.(expandedEmails := Flip(s.expandedEmails, email))
  }

  /** `toggleMonthExpansion`: exactly one month changes. */
  function ToggleMonth(s: State, month: string): (r: State)
    ensures month in r.expandedMonths <==> month !in s.expandedMonths
    ensures forall m :: m != month ==> (m in r.expandedMonths <==> m in s.expandedMonths)
    ensures r.expandedEmails == s.expandedEmails && r.view == s.view && r.crumbs == s.crumbs
  {
    s.(expandedMonths := Flip(s.expandedMonths, month))
  }

  /** Toggling the same group twice restores the state. */
  lemma ToggleTwice(s: State, email: string, month: string)
    ensures ToggleEmail(ToggleEmail(s, email), email) == s
    ensures ToggleMonth(ToggleMonth(s, month), month) == s
  {
    FlipTwice(s.expandedEmails, email);
    FlipTwice(s.expandedMonths, month);
  }

  /** Only the root and emails views have a body; the months and invoices
      views render an empty panel. */
  predicate RendersBody(v: ViewLevel) {
    v == Root || v == Emails
  }

  /** An invoice click always leads to an empty panel. */
  lemma InvoiceClickShowsNothing(s: State, vendorName: string)
    ensures !RendersBody(InvoiceClick(s, vendorName).view)
  {
  }

  // ---------------------------------------------------------------------
  // Per-email totals

  /** One month group of an email account: the month key and the ids of its
      invoices. */
  datatype Month = Month(key: string, invoices: seq<string>)

  /** All invoices of the months, month after month. */
  function AllInvoices(months: seq<Month>): seq<string>
    decreases |months|
  {
    if months == [] then [] else months[0].invoices + AllInvoices(months[1..])
  }

  /** The count shown on an email row: the months' invoice counts summed
      (`reduce((sum, m) => sum + m.invoices.length, 0)`). */
  function EmailInvoiceCount(months: seq<Month>): (n: nat)
    ensures n == |AllInvoices(months)|
    ensures n == 0 <==> forall i :: 0 <= i < |months| ==> months[i].invoices == []
    decreases |months|
  {
    if months == [] then 0
    else
      var rest := EmailInvoiceCount(months[1..]);
      assert forall i :: 1 <= i < |months| ==> months[1..][i - 1] == months[i];
      |months[0].invoices| + rest
  }

  /** Splitting an account's months in two splits its count in two. */
  lemma {:induction false} EmailInvoiceCountAppend(a: seq<Month>, b: seq<Month>)
    ensures EmailInvoiceCount(a + b) == EmailInvoiceCount(a) + EmailInvoiceCount(b)
    decreases |a|
  {
    if a == [] {
      assert a + b == b;
    } else {
      assert (a + b)[1..] == a[1..] + b;
      EmailInvoiceCountAppend(a[1..], b);
    }
  }
}

=== FILE: invoice_review.dfy ===
/** `InvoiceReview`: the queue of extracted invoices awaiting a human
    decision. */
module InvoiceReview {
  import opened Js

  // ---------------------------------------------------------------------
  // Confidence badge

  datatype Color = Gray | Green | Orange | Red

  /** `getConfidenceColor`: no score, or a zero score, is gray; otherwise the
      score is compared with 0.8 and 0.5. */
  function ConfidenceColor(score: Option<real>): (c: Color)
    ensures c == Gray <==> score.None? || score.value == 0.0
    ensures c == Green <==> score.Some? && score.value >= 0.8
    ensures c == Orange <==> score.Some? && 0.5 <= score.value < 0.8
    ensures c == Red <==> score.Some? && score.value != 0.0 && score.value < 0.5
  {
    match score
    case None => Gray
    case Some(s) =>
      if s == 0.0 then Gray
      else if s >= 0.8 then Green
      else if s >= 0.5 then Orange
      else Red
  }

  /** The badge's rank: red, orange, green. */
  function Rank(c: Color): nat {
    match c
    case Gray => 0
    case Red => 1
    case Orange => 2
    case Green => 3
  }

  /** A higher positive score never gets a worse badge. */
  lemma ColorMonotone(a: real, b: real)
    requires 0.0 < a <= b
    ensures Rank(ConfidenceColor(Some(a))) <= Rank(ConfidenceColor(Some(b)))
  {
  }

  // ---------------------------------------------------------------------
  // Pager (twenty invoices a page)

  const PageSize := 20

  /** The pager appears only when there is more than one page of invoices. */
  predicate PagerShown(total: int) {
    total > PageSize
  }

  predicate PrevDisabled(page: int) {
    page == 1
  }

  predicate NextDisabled(page: int, total: int) {
    page * PageSize >= total
  }

  /** `Math.ceil(total / 20)` for a non-negative total. */
  function PageCount(total: nat): (n: nat)
    ensures (n - 1) * PageSize < total <= n * PageSize || (total == 0 && n == 0)
  {
    (total + PageSize - 1) / PageSize
  }

  /** On a page from the first on, Next is enabled exactly before the last
      page the counter shows, and Previous exactly after the first. */
  lemma ArrowsMatchCounter(page: int, total: nat)
    requires page >= 1
    ensures !NextDisabled(page, total) <==> page < PageCount(total)
    ensures !PrevDisabled(page) <==> page > 1
  {
  }

  /** Clicking only enabled arrows from page 1 never leaves `1 .. PageCount`. */
  lemma {:induction false} EnabledClicksStayInRange(total: nat, clicks: seq<bool>)
    requires total > 0
    ensures 1 <= Follow(1, total, clicks) <= PageCount(total)
    decreases |clicks|
  {
    FollowStaysInRange(1, total, clicks);
  }

  /** The page reached by a run of clicks (`true` for Next, `false` for
      Previous); a click on a disabled arrow does nothing. */
  function Follow(page: int, total: nat, clicks: seq<bool>): int
    decreases |clicks|
  {
    if clicks == [] then page
    else if clicks[0] then
      Follow(if NextDisabled(page, total) then page else page + 1, total, clicks[1..])
    else
      Follow(if PrevDisabled(page) then page else page - 1, total, clicks[1..])
  }

  lemma {:induction false} FollowStaysInRange(page: int, total: nat, clicks: seq<bool>)
    requires total > 0 && 1 <= page <= PageCount(total)
    ensures 1 <= Follow(page, total, clicks) <= PageCount(total)
    decreases |clicks|
  {
    if clicks != [] {
      ArrowsMatchCounter(page, total);
      var next := if clicks[0] then (if NextDisabled(page, total) then page else page + 1)
                  else (if PrevDisabled(page) then page else page - 1);
      FollowStaysInRange(next, total, clicks[1..]);
    }
  }

  // ---------------------------------------------------------------------
  // Decisions

  /** The body of a review decision. */
  datatype ReviewBody = Verdict(isValid: bool, reason: Option<string>) | Edits(fields: EditData)

  /** The fields of an invoice the edit form copies. */
  datatype EditData = EditData(vendorName: string, totalAmount: real, invoiceDate: string)

  datatype Invoice = Invoice(id: string, vendorName: string, invoiceNumber: Option<string>, invoiceDate: string,
                             totalAmount: real, currency: string, status: string, confidence: Option<real>)

  const RejectReasonText := "Not a valid invoice"

  /** `handleApprove` */
  function Approve(): (b: ReviewBody)
    ensures b.Verdict? && b.isValid && b.reason.None?
  {
    Verdict(true, None)
  }

  /** `handleReject`: invalid, with the reason given or the default one. */
  function Reject(reason: Option<string>): (b: ReviewBody)
    ensures b.Verdict? && !b.isValid
    ensures b.reason.Some? && b.reason.value != ""
    ensures Truthy(reason) ==> b.reason == reason
  {
    Verdict(false, Some(OrElse(reason, RejectReasonText)))
  }

  /** The review editor: which invoice is edited and the buffer. */
  datatype Editor = Editor(editingId: Option<string>, data: Option<EditData>)

  /** `handleEdit`: the buffer holds exactly the vendor, amount and date of
      the invoice. */
  function Edit(inv: Invoice): (e: Editor)
    ensures e.editingId == Some(inv.id)
    ensures e.data == Some(EditData(inv.vendorName, inv.totalAmount, inv.invoiceDate))
  {
    Editor(Some(inv.id), Some(EditData(inv.vendorName, inv.totalAmount, inv.invoiceDate)))
  }

  /** `handleSaveEdit`: the buffer is sent; a successful save closes the
      editor, a failed one keeps it open. */
  function SaveEdit(e: Editor, saved: bool): (r: (Editor, seq<ReviewBody>))
    requires e.data.Some?
    ensures r.1 == [Edits(e.data.value)]
    ensures saved ==> r.0.editingId == None
    ensures !saved ==> r.0 == e
  {
    (if saved then e.(editingId := None) else e, [Edits(e.data.value)])
  }

  /** The editor's Cancel button: only `editingId` is cleared; the buffer
      stays until the next edit overwrites it. */
  function CancelEdit(e: Editor): (r: Editor)
    ensures r.editingId == None && r.data == e.data
  {
    e.(editingId := None)
  }

  /** Cancelling leaves the editor as a successful save does, without the
      request; cancelling a fresh edit keeps the buffer copied from the
      invoice. */
  lemma CancelMatchesSave(e: Editor, inv: Invoice)
    requires e.data.Some?
    ensures CancelEdit(e) == SaveEdit(e, true).0
    ensures CancelEdit(Edit(inv)).data == Edit(inv).data
  {
  }

  /** Saving an unchanged edit sends back the invoice's own three fields. */
  lemma EditRoundTrip(inv: Invoice)
    ensures SaveEdit(Edit(inv), true).1 == [Edits(EditData(inv.vendorName, inv.totalAmount, inv.invoiceDate))]
  {
  }
}

=== FILE: invoices.dfy ===
/** `Invoices`: the flat invoice list. Filters, sorting, selection, bulk
    delete, the pager and the two counts shown above the list. */
module Invoices {
  import opened Js
  import opened Selection
  import Api

  // ---------------------------------------------------------------------
  // Filters and sorting

  /** The nine filter fields, all initially empty. */
  const FilterKeys: set<string> := {"vendor_name", "category", "status", "date_from", "date_to",
                                    "amount_min", "amount_max", "source_type", "source_group_email"}

  type Filters = map<string, string>

  const EmptyFilters: Filters := map k | k in FilterKeys :: ""

  datatype SortOrder = Asc | Desc

  function OrderName(o: SortOrder): string {
    match o
    case Asc => "asc"
    case Desc => "desc"
  }

  const PageSize := 20

  /** The list's state: filters, current page, sort field and order, and the
      selected invoice ids. */
  datatype ListState = ListState(filters: Filters, page: int, sortBy: string, sortOrder: SortOrder, selected: seq<string>)

  const Initial := ListState(EmptyFilters, 1, "invoice_date", Desc, [])

  /** `Object.values(filters).some(value => value !== '')` */
  predicate HasActiveFilters(f: Filters) {
    exists k :: k in f && f[k] != ""
  }

  /** `handleFilterChange`: one key gets the value and the page returns to 1. */
  function ChangeFilter(s: ListState, key: string, value: string): (r: ListState)
    ensures key in r.filters && r.filters[key] == value
    ensures forall k :: k != key ==> (k in r.filters <==> k in s.filters)
    ensures forall k :: k != key && k in s.filters ==> r.filters[k] == s.filters[k]
    ensures r.page == 1
    ensures r.sortBy == s.sortBy && r.sortOrder == s.sortOrder && r.selected == s.selected
  {
    s.(filters := s.filters[key := value], page := 1)
  }

  /** `clearFilters`: every filter empty, page 1. */
  function ClearFilters(s: ListState): (r: ListState)
    ensures r.filters.Keys == FilterKeys
    ensures !HasActiveFilters(r.filters)
    ensures r.page == 1
    ensures r.sortBy == s.sortBy && r.sortOrder == s.sortOrder && r.selected == s.selected
  {
    s.(filters := EmptyFilters, page := 1)
  }

  /** A non-empty filter value always makes the filters active, and clearing
      undoes it. */
  lemma ChangeThenClear(s: ListState, key: string, value: string)
    requires value != ""
    ensures HasActiveFilters(ChangeFilter(s, key, value).filters)
    ensures ClearFilters(ChangeFilter(s, key, value)) == ClearFilters(s)
  {
  }

  /** `handleSort`: the same field flips the order, another field starts
      descending. */
  function Sort(s: ListState, field: string): (r: ListState)
    ensures r.sortBy == field
    ensures field == s.sortBy ==> r.sortOrder != s.sortOrder
    ensures field != s.sortBy ==> r.sortOrder == Desc
    ensures r.filters == s.filters && r.page == s.page && r.selected == s.selected
  {
    if s.sortBy == field then s.(sortOrder := if s.sortOrder == Asc then Desc else Asc)
    else s.(sortBy := field, sortOrder := Desc)
  }

  /** Clicking the same header twice restores the order; a new field clicked
      twice ends ascending. */
  lemma SortTwice(s: ListState, field: string)
    ensures field == s.sortBy ==> Sort(Sort(s, field), field) == s
    ensures field != s.sortBy ==> Sort(Sort(s, field), field).sortOrder == Asc
  {
  }

  /** The parameters the list query sends: page, page size, sort field and
      order, then the filters spread over them. */
  function QueryParams(s: ListState): (r: map<string, Api.ParamValue>)
    ensures forall k :: k in s.filters ==> k in r && r[k] == Api.Str(s.filters[k])
    ensures "page" !in s.filters ==> "page" in r && r["page"] == Api.Num(s.page)
    ensures "page_size" !in s.filters ==> "page_size" in r && r["page_size"] == Api.Num(PageSize)
    ensures "sort_by" !in s.filters ==> "sort_by" in r && r["sort_by"] == Api.Str(s.sortBy)
    ensures "sort_order" !in s.filters ==> "sort_order" in r && r["sort_order"] == Api.Str(OrderName(s.sortOrder))
    ensures r.Keys == BaseParamKeys + s.filters.Keys
  {
    map["page" := Api.Num(s.page), "page_size" := Api.Num(PageSize),
        "sort_by" := Api.Str(s.sortBy), "sort_order" := Api.Str(OrderName(s.sortOrder))]
    + map k | k in s.filters :: Api.Str(s.filters[k])
  }

  const BaseParamKeys: set<string> := {"page", "page_size", "sort_by", "sort_order"}

  lemma BaseKeysAreNotFilters()
    ensures BaseParamKeys !! FilterKeys
  {
  }

  /** After `clearFilters` the request carries no filter at all: the cleaning
      in `getAll` leaves only the page, the page size and the sort. */
  lemma ClearedQuerySendsNoFilter(s: ListState)
    requires s.sortBy != ""
    ensures Api.CleanParams(Some(QueryParams(ClearFilters(s)))).Keys == BaseParamKeys
  {
    var f := ClearFilters(s).filters;
    var q := QueryParams(ClearFilters(s));
    var c := Api.CleanParams(Some(q));
    BaseKeysAreNotFilters();
    assert forall k :: k in c ==> k !in f;
    assert forall k :: k in BaseParamKeys ==> k !in f && k in c;
  }

  // ---------------------------------------------------------------------
  // Selection

  /** `handleSelectInvoice` */
  function SelectInvoice(s: ListState, id: string): (r: ListState)
    ensures id in r.selected <==> id !in s.selected
    ensures forall x :: x != id ==> (x in r.selected <==> x in s.selected)
    ensures id !in s.selected ==> r.selected == s.selected + [id]
    ensures r.filters == s.filters && r.page == s.page && r.sortBy == s.sortBy && r.sortOrder == s.sortOrder
  {
    s.(selected := Toggle(s.selected, id))
  }

  /** `handleSelectAll`. `pageIds` is the ids of the invoices on the page,
      absent before the list has loaded. Only the lengths are compared: a
      selection as long as the page is cleared, whatever it holds. */
  function SelectAll(s: ListState, pageIds: Option<seq<string>>): (r: ListState)
    ensures pageIds.Some? && |s.selected| == |pageIds.value| ==> r.selected == []
    ensures pageIds.Some? && |s.selected| != |pageIds.value| ==> r.selected == pageIds.value
    ensures pageIds.None? ==> r.selected == []
    ensures r.filters == s.filters && r.page == s.page && r.sortBy == s.sortBy && r.sortOrder == s.sortOrder
  {
    match pageIds
    case Some(ids) => if |s.selected| == |ids| then s.(selected := []) else s.(selected := ids)
    case None => s.(selected := [])
  }

  /** From an empty selection, select-all then select-all again returns to
      the empty selection; the first click selects every invoice on the page. */
  lemma SelectAllTwice(s: ListState, ids: seq<string>)
    requires s.selected == []
    ensures forall x :: x in ids ==> x in SelectAll(s, Some(ids)).selected
    ensures SelectAll(SelectAll(s, Some(ids)), Some(ids)).selected == []
  {
  }

  /** `handleBulkDelete`: the delete requests issued and the state after.
      `confirmed` is the user's answer to the confirmation dialog, asked only
      when something is selected. */
  function BulkDelete(s: ListState, confirmed: bool): (r: (ListState, seq<string>))
    ensures s.selected == [] || !confirmed ==> r == (s, [])
    ensures s.selected != [] && confirmed ==> r.0 == s.(selected := []) && r.1 == s.selected
  {
    if s.selected == [] then (s, [])
    else if confirmed then (s.(selected := []), s.selected)
    else (s, [])
  }

  /** Every selected invoice is deleted exactly once when the selection has
      no duplicates, which toggling guarantees. */
  lemma {:induction false} SelectionStaysDistinct(s: ListState, ids: seq<string>)
    requires Distinct(s.selected)
    ensures Distinct(SelectMany(s, ids).selected)
    decreases |ids|
  {
    if ids != [] {
      ToggleDistinct(s.selected, ids[0]);
      SelectionStaysDistinct(SelectInvoice(s, ids[0]), ids[1..]);
    }
  }

  /** Clicking ids that are distinct and not yet selected appends them to
      the selection in click order. */
  lemma {:induction false} SelectManyAppends(s: ListState, ids: seq<string>)
    requires Distinct(ids)
    requires forall x :: x in ids ==> x !in s.selected
    ensures SelectMany(s, ids).selected == s.selected + ids
    decreases |ids|
  {
    if ids != [] {
      var t := SelectInvoice(s, ids[0]);
      assert t.selected == s.selected + [ids[0]];
      forall x | x in ids[1..]
        ensures x !in t.selected
      {
        var k :| 1 <= k < |ids| && ids[k] == x;
        assert ids[0] != ids[k];
      }
      assert Distinct(ids[1..]) by {
        forall i, j | 0 <= i < j < |ids[1..]|
          ensures ids[1..][i] != ids[1..][j]
        {
          assert ids[1..][i] == ids[i + 1] && ids[1..][j] == ids[j + 1];
        }
      }
      SelectManyAppends(t, ids[1..]);
      assert t.selected + ids[1..] == s.selected + ids;
    }
  }

  /** From an empty selection, a confirmed bulk delete deletes exactly the
      invoices clicked, in click order and each once, and empties the
      selection, so the next select-all selects the whole page; a declined
      one changes nothing. */
  lemma BulkDeleteDeletesClicked(s: ListState, ids: seq<string>, pageIds: seq<string>)
    requires s.selected == [] && ids != [] && Distinct(ids)
    ensures BulkDelete(SelectMany(s, ids), true).1 == ids
    ensures BulkDelete(SelectMany(s, ids), true).0.selected == []
    ensures pageIds != [] ==> SelectAll(BulkDelete(SelectMany(s, ids), true).0, Some(pageIds)).selected == pageIds
    ensures BulkDelete(SelectMany(s, ids), false) == (SelectMany(s, ids), [])
  {
    SelectManyAppends(s, ids);
    assert [] + ids == ids;
  }

  /** A run of checkbox clicks. */
  function SelectMany(s: ListState, ids: seq<string>): ListState
    decreases |ids|
  {
    if ids == [] then s else SelectMany(SelectInvoice(s, ids[0]), ids[1..])
  }

  // ---------------------------------------------------------------------
  // Pager (shown only when there is more than one page)

  predicate PagerShown(totalPages: int) {
    totalPages > 1
  }

  /** The previous-page arrow: `Math.max(1, p - 1)`. */
  function PrevPage(p: int): (r: int)
    ensures r >= 1
    ensures p > 1 ==> r == p - 1
    ensures p <= 1 ==> r == 1
  {
    if p - 1 > 1 then p - 1 else 1
  }

  /** The next-page arrow: `Math.min(totalPages, p + 1)`. */
  function NextPage(p: int, totalPages: int): (r: int)
    ensures r <= totalPages
    ensures p < totalPages ==> r == p + 1
    ensures p >= totalPages ==> r == totalPages
  {
    if totalPages < p + 1 then totalPages else p + 1
  }

  predicate PrevDisabled(p: int) {
    p == 1
  }

  predicate NextDisabled(p: int, totalPages: int) {
    p == totalPages
  }

  /** On a valid page the arrows never leave the page range, and an arrow is
      disabled exactly when clicking it would not move. */
  lemma ArrowsStayInRange(p: int, totalPages: int)
    requires 1 <= p <= totalPages
    ensures 1 <= PrevPage(p) <= totalPages && 1 <= NextPage(p, totalPages) <= totalPages
    ensures PrevDisabled(p) <==> PrevPage(p) == p
    ensures NextDisabled(p, totalPages) <==> NextPage(p, totalPages) == p
    ensures p > 1 ==> NextPage(PrevPage(p), totalPages) == p
    ensures p < totalPages ==> PrevPage(NextPage(p, totalPages)) == p
  {
  }

  /** The numbered buttons: pages `1 .. min(5, totalPages)`. */
  function PageButtons(totalPages: int): (r: seq<int>)
    ensures |r| == if totalPages < 0 then 0 else if totalPages < 5 then totalPages else 5
    ensures forall i :: 0 <= i < |r| ==> r[i] == i + 1
    ensures forall i :: 0 <= i < |r| ==> 1 <= r[i] <= totalPages && r[i] <= 5
  {
    var n := if totalPages < 0 then 0 else if totalPages < 5 then totalPages else 5;
    seq(n, i => i + 1)
  }

  /** The "Showing a to b of total" line. */
  function ShowingRange(p: int, total: int): (r: (int, int))
    ensures r.0 == (p - 1) * PageSize + 1
    ensures r.1 <= p * PageSize && r.1 <= total
    ensures r.1 == p * PageSize || r.1 == total
  {
    ((p - 1) * PageSize + 1, if p * PageSize < total then p * PageSize else total)
  }

  /** With `totalPages = ceil(total / 20)`, every page shows between 1 and
      20 invoices, and only the last one shows fewer than 20. */
  lemma ShowingRangeIsPage(p: int, total: int, totalPages: int)
    requires total > 0 && totalPages == (total + PageSize - 1) / PageSize
    requires 1 <= p <= totalPages
    ensures var (a, b) := ShowingRange(p, total); 1 <= b - a + 1 <= PageSize
    ensures p < totalPages ==> ShowingRange(p, total).1 - ShowingRange(p, total).0 + 1 == PageSize
  {
  }

  // ---------------------------------------------------------------------
  // Counts above the list

  /** The fields of a listed invoice the counts read. `vendorName` is absent
      when the invoice has none. */
  datatype Invoice = Invoice(id: string, status: string, vendorName: Option<string>)

  /** `invoices?.invoices?.filter(inv => inv.status === 'pending').length || 0` */
  function PendingCount(invoices: Option<seq<Invoice>>): (n: nat)
    ensures invoices.None? ==> n == 0
    ensures invoices.Some? ==> n == |PendingOf(invoices.value)|
  {
    match invoices
    case None => 0
    case Some(xs) => |PendingOf(xs)|
  }

  /** The pending invoices, in list order. */
  function PendingOf(xs: seq<Invoice>): (r: seq<Invoice>)
    ensures |r| <= |xs|
    ensures forall i :: 0 <= i < |r| ==> r[i].status == "pending" && r[i] in xs
    ensures forall i :: 0 <= i < |xs| && xs[i].status == "pending" ==> xs[i] in r
    decreases |xs|
  {
    if xs == [] then []
    else if xs[0].status == "pending" then [xs[0]] + PendingOf(xs[1..])
    else PendingOf(xs[1..])
  }

  /** The pending count of two pages is the sum of their counts. */
  lemma {:induction false} PendingOfAppend(a: seq<Invoice>, b: seq<Invoice>)
    ensures |PendingOf(a + b)| == |PendingOf(a)| + |PendingOf(b)|
    decreases |a|
  {
    if a == [] {
      assert a + b == b;
    } else {
      assert (a + b)[1..] == a[1..] + b;
      PendingOfAppend(a[1..], b);
    }
  }

  /** The vendor names on the page (`new Set(invoices.map(inv => inv.vendor_name))`). */
  function VendorSet(xs: seq<Invoice>): (r: set<Option<string>>)
    ensures forall v :: v in r <==> exists i :: 0 <= i < |xs| && xs[i].vendorName == v
    ensures |r| <= |xs|
    decreases |xs|
  {
    if xs == [] then {}
    else
      var rest := VendorSet(xs[..|xs| - 1]);
      assert forall i :: 0 <= i < |xs| - 1 ==> xs[..|xs| - 1][i] == xs[i];
      rest + {xs[|xs| - 1].vendorName}
  }

  /** The distinct-vendor count: `0` before the list loads. */
  function UniqueVendors(invoices: Option<seq<Invoice>>): (n: nat)
    ensures invoices.None? ==> n == 0
    ensures invoices.Some? ==> n <= |invoices.value|
    ensures invoices.Some? ==> (n == 0 <==> invoices.value == [])
    ensures invoices.Some? ==> n == |VendorSet(invoices.value)|
  {
    match invoices
    case None => 0
    case Some(xs) =>
      if xs != [] then assert xs[0].vendorName in VendorSet(xs); |VendorSet(xs)|
      else |VendorSet(xs)|
  }

  /** The count is the number of distinct names: adding an invoice whose
      vendor is already listed does not change it. */
  lemma UniqueVendorsIgnoresRepeats(xs: seq<Invoice>, x: Invoice)
    requires exists i :: 0 <= i < |xs| && xs[i].vendorName == x.vendorName
    ensures UniqueVendors(Some(xs + [x])) == UniqueVendors(Some(xs))
  {
    var ys := xs + [x];
    assert VendorSet(ys) == VendorSet(xs) by {
      forall v
        ensures v in VendorSet(ys) <==> v in VendorSet(xs)
      {
        if v in VendorSet(ys) {
          var i :| 0 <= i < |ys| && ys[i].vendorName == v;
          if i < |xs| {
            assert xs[i].vendorName == v;
          }
        }
        if v in VendorSet(xs) {
          var i :| 0 <= i < |xs| && xs[i].vendorName == v;
          assert ys[i].vendorName == v;
        }
      }
    }
  }

  /** An invoice from a vendor not yet listed raises the count by one. */
  lemma UniqueVendorsCountsNew(xs: seq<Invoice>, x: Invoice)
    requires forall i :: 0 <= i < |xs| ==> xs[i].vendorName != x.vendorName
    ensures UniqueVendors(Some(xs + [x])) == UniqueVendors(Some(xs)) + 1
  {
    var ys := xs + [x];
    assert ys[..|ys| - 1] == xs;
    assert x.vendorName !in VendorSet(xs);
  }
}

=== FILE: js.dfy ===
/** Values and string operations of the JavaScript runtime that the front end
    relies on: optional values, truthiness of strings, the `a || b` default,
    `String.prototype.trim`, ASCII `toLowerCase`, `includes`, and the decimal
    text of a number (template literals and `parseInt`). */
module Js {

  /** `undefined` / `null` versus a present value. */
  datatype Option<+T> = None | Some(value: T)

  /** A string is truthy in JavaScript iff it is present and non-empty. */
  predicate Truthy(o: Option<string>) {
    o.Some? && o.value != ""
  }

  /** `o || fallback` for an optional string. */
  function OrElse(o: Option<string>, fallback: string): string {
    if Truthy(o) then o.value else fallback
  }

  /** ECMAScript WhiteSpace and LineTerminator code points: the set `\s`
      matches in a regular expression and the set `trim()` strips. */
  predicate IsWhitespace(c: char) {
    || c == '\t' || c == '\n' || c == '\U{000B}' || c == '\U{000C}' || c == '\r'
    || c == ' ' || c == '\U{00A0}' || c == '\U{1680}'
    || ('\U{2000}' <= c <= '\U{200A}')
    || c == '\U{2028}' || c == '\U{2029}' || c == '\U{202F}' || c == '\U{205F}'
    || c == '\U{3000}' || c == '\U{FEFF}'
  }

  /** Every character is whitespace (the empty string included). */
  predicate IsBlank(s: string) {
    forall i :: 0 <= i < |s| ==> IsWhitespace(s[i])
  }

  /** `s.trimStart()` */
  function TrimStart(s: string): (r: string)
    ensures |r| <= |s| && r == s[|s| - |r|..]
    ensures r == "" || !IsWhitespace(r[0])
    ensures IsBlank(s[..|s| - |r|])
  {
    if s == [] then s
    else if IsWhitespace(s[0]) then
      var r := TrimStart(s[1..]);
      assert s[1..][..|s[1..]| - |r|] == s[1..|s| - |r|];
      r
    else s
  }

  /** `s.trimEnd()` */
  function TrimEnd(s: string): (r: string)
    ensures |r| <= |s| && r == s[..|r|]
    ensures r == "" || !IsWhitespace(r[|r| - 1])
    ensures IsBlank(s[|r|..])
  {
    if s == [] then s
    else if IsWhitespace(s[|s| - 1]) then
      var r := TrimEnd(s[..|s| - 1]);
      assert s[..|s| - 1][..|r|] == s[..|r|];
      r
    else s
  }

  /** `s.trim()` */
  function Trim(s: string): string {
    TrimEnd(TrimStart(s))
  }

  /** `!s.trim()` holds exactly for the strings made only of whitespace. */
  lemma {:induction false} TrimEmptyIffBlank(s: string)
    ensures Trim(s) == "" <==> IsBlank(s)
  {
    var t := TrimStart(s);
    if Trim(s) == "" {
      assert t[|TrimEnd(t)|..] == t;
      assert t == [];
      assert s[..|s|] == s;
    }
    if IsBlank(s) {
      assert t == [];
    }
  }

  /** ASCII `toLowerCase` of one character. */
  function LowerChar(c: char): char {
    if 'A' <= c <= 'Z' then (c as int + 32) as char else c
  }

  /** `s.toLowerCase()` restricted to the ASCII letters. */
  function Lower(s: string): (r: string)
    ensures |r| == |s|
    ensures forall i :: 0 <= i < |s| ==> r[i] == LowerChar(s[i])
  {
    seq(|s|, i requires 0 <= i < |s| => LowerChar(s[i]))
  }

  /** `hay.includes(needle)`: the needle occurs at some offset. */
  predicate Includes(hay: string, needle: string) {
    exists i :: 0 <= i && i + |needle| <= |hay| && IsPrefix(needle, hay[i..])
  }

  /** `needle` is a prefix of `s`. */
  predicate IsPrefix(needle: string, s: string) {
    |needle| <= |s| && s[..|needle|] == needle
  }

  /** The digit character of a value below ten. */
  function DigitChar(d: nat): char
    requires d < 10
  {
    ('0' as int + d) as char
  }

  predicate IsDigit(c: char) {
    '0' <= c <= '9'
  }

  function DigitValue(c: char): (d: nat)
    requires IsDigit(c)
    ensures d < 10 && DigitChar(d) == c
  {
    c as int - '0' as int
  }

  /** `String(n)` / `${n}` for a non-negative integer. */
  function NatToString(n: nat): (s: string)
    ensures |s| > 0
    ensures forall i :: 0 <= i < |s| ==> IsDigit(s[i])
    ensures n >= 10 ==> s[0] != '0'
    decreases n
  {
    if n < 10 then [DigitChar(n)] else NatToString(n / 10) + [DigitChar(n % 10)]
  }

  /** The value of a string of decimal digits (`parseInt(s)` on such a string). */
  function ParseDigits(s: string): nat
    requires forall i :: 0 <= i < |s| ==> IsDigit(s[i])
  {
    if s == [] then 0
    else ParseDigits(s[..|s| - 1]) * 10 + DigitValue(s[|s| - 1])
  }

  /** `parseInt(String(n)) == n` for every non-negative integer. */
  lemma {:induction false} ParseNatToString(n: nat)
    ensures ParseDigits(NatToString(n)) == n
  {
    if n >= 10 {
      var s := NatToString(n);
      assert s[..|s| - 1] == NatToString(n / 10);
      ParseNatToString(n / 10);
    }
  }

  /** Different numbers print differently. */
  lemma NatToStringInjective(m: nat, n: nat)
    requires NatToString(m) == NatToString(n)
    ensures m == n
  {
    ParseNatToString(m);
    ParseNatToString(n);
  }
}

=== FILE: selection.dfy ===
/** Membership toggles of string ids shared by the list pages: the array
    toggle (`includes` ? `filter(x => x !== id)` : `[...prev, id]`) and the
    `Set` toggle. */
module Selection {

  /** `s.filter(x => x !== id)` */
  function RemoveAll(s: seq<string>, id: string): (r: seq<string>)
    ensures |r| <= |s|
    ensures id !in r
    ensures forall x :: x != id ==> (x in r <==> x in s)
    ensures id !in s ==> r == s
    decreases |s|
  {
    if s == [] then []
    else if s[0] == id then RemoveAll(s[1..], id)
    else [s[0]] + RemoveAll(s[1..], id)
  }

  /** No element occurs twice. */
  predicate Distinct(s: seq<string>) {
    forall i, j :: 0 <= i < j < |s| ==> s[i] != s[j]
  }

  /** Toggling `id` in a list: a present id is removed (every occurrence), an
      absent one is appended at the end; nothing else changes. */
  function Toggle(s: seq<string>, id: string): (r: seq<string>)
    ensures id in r <==> id !in s
    ensures forall x :: x != id ==> (x in r <==> x in s)
    ensures id !in s ==> r == s + [id]
    ensures id in s ==> |r| < |s|
  {
    if id in s then
      RemoveAllShrinks(s, id);
      RemoveAll(s, id)
    else s + [id]
  }

  lemma {:induction false} RemoveAllShrinks(s: seq<string>, id: string)
    requires id in s
    ensures |RemoveAll(s, id)| < |s|
    decreases |s|
  {
    if s[0] != id {
      assert id in s[1..];
      RemoveAllShrinks(s[1..], id);
    }
  }

  /** `filter` keeps the order and only drops `id`: removing from `a + b` is
      removing from each part. */
  lemma {:induction false} RemoveAllAppend(a: seq<string>, b: seq<string>, id: string)
    ensures RemoveAll(a + b, id) == RemoveAll(a, id) + RemoveAll(b, id)
    decreases |a|
  {
    if a == [] {
      assert a + b == b;
    } else {
      assert (a + b)[1..] == a[1..] + b;
      RemoveAllAppend(a[1..], b, id);
    }
  }

  /** Toggling an absent id twice restores the list exactly. */
  lemma ToggleTwiceRestores(s: seq<string>, id: string)
    requires id !in s
    ensures Toggle(Toggle(s, id), id) == s
  {
    RemoveAllAppend(s, [id], id);
    assert RemoveAll([id], id) == [];
  }

  /** A list without duplicates stays without duplicates. */
  lemma {:induction false} RemoveAllDistinct(s: seq<string>, id: string)
    requires Distinct(s)
    ensures Distinct(RemoveAll(s, id))
    decreases |s|
  {
    if s != [] {
      assert Distinct(s[1..]);
      RemoveAllDistinct(s[1..], id);
      if s[0] != id {
        var rest := RemoveAll(s[1..], id);
        assert s[0] !in s[1..];
        assert s[0] !in rest;
        var r := [s[0]] + rest;
        forall i, j | 0 <= i < j < |r|
          ensures r[i] != r[j]
        {
          if i == 0 {
            assert r[j] == rest[j - 1];
            assert r[j] in rest;
          } else {
            assert r[i] == rest[i - 1] && r[j] == rest[j - 1];
          }
        }
      }
    }
  }

  lemma ToggleDistinct(s: seq<string>, id: string)
    requires Distinct(s)
    ensures Distinct(Toggle(s, id))
  {
    if id in s {
      RemoveAllDistinct(s, id);
    } else {
      var r := s + [id];
      forall i, j | 0 <= i < j < |r|
        ensures r[i] != r[j]
      {
        if j == |s| {
          assert r[i] == s[i];
        }
      }
    }
  }

  /** The `Set` toggle: exactly `id` changes membership. */
  function Flip(s: set<string>, id: string): (r: set<string>)
    ensures id in r <==> id !in s
    ensures forall x :: x != id ==> (x in r <==> x in s)
    ensures |r| == if id in s then |s| - 1 else |s| + 1
  {
    if id in s then s - {id} else s + {id}
  }

  /** Flipping the same id twice is the identity. */
  lemma FlipTwice(s: set<string>, id: string)
    ensures Flip(Flip(s, id), id) == s
  {
  }
}

=== FILE: storage.dfy ===
/** Client-local storage (`localStorage`, `sessionStorage`) as an immutable
    string-to-string map, and the fixed keys the application uses. */
module Storage {
  import opened Js

  type Store = map<string, string>

  /** Durable session identity, in `localStorage`. */
  const AccessTokenKey := "access_token"
  const UserKey := "user"

  /** The invite correlation token carried across the OAuth redirect, in
      `sessionStorage`. */
  const PendingInviteKey := "pending_email_invite_token"

  /** `getItem`: `null` when the key is absent. */
  function Get(s: Store, key: string): Option<string> {
    if key in s then Some(s[key]) else None
  }

  /** `setItem` */
  function Put(s: Store, key: string, value: string): (r: Store)
    ensures Get(r, key) == Some(value)
    ensures forall k :: k != key ==> Get(r, k) == Get(s, k)
  {
    s[key := value]
  }

  /** `removeItem` */
  function Remove(s: Store, key: string): (r: Store)
    ensures Get(r, key) == None
    ensures forall k :: k != key ==> Get(r, k) == Get(s, k)
  {
    s - {key}
  }
}

=== FILE: sync_indicator.dfy ===
/** `BackgroundSyncIndicator`: the floating card listing background inbox
    and groups syncs. */
module SyncIndicator {
  import opened Js

  datatype OpKind = InboxSync | GroupsSync
  datatype OpStatus = Running | Completed | Failed

  datatype Operation = Operation(id: string, kind: OpKind, accountEmail: string, status: OpStatus, message: Option<string>)

  /** `operations.filter(op => op.status === 'running')` */
  function RunningOps(ops: seq<Operation>): (r: seq<Operation>)
    ensures forall i :: 0 <= i < |r| ==> r[i].status == Running
    decreases |ops|
  {
    if ops == [] then []
    else if ops[0].status == Running then [ops[0]] + RunningOps(ops[1..])
    else RunningOps(ops[1..])
  }

  /** `operations.filter(op => op.status !== 'running')` */
  function FinishedOps(ops: seq<Operation>): (r: seq<Operation>)
    ensures forall i :: 0 <= i < |r| ==> r[i].status != Running
    decreases |ops|
  {
    if ops == [] then []
    else if ops[0].status != Running then [ops[0]] + FinishedOps(ops[1..])
    else FinishedOps(ops[1..])
  }

  /** The two lists partition the operations: together they hold every
      operation exactly as often as the list does, and no operation is in
      both. */
  lemma {:induction false} RunningFinishedPartition(ops: seq<Operation>)
    ensures multiset(RunningOps(ops)) + multiset(FinishedOps(ops)) == multiset(ops)
    ensures forall x :: x in RunningOps(ops) ==> x !in FinishedOps(ops)
    ensures |RunningOps(ops)| + |FinishedOps(ops)| == |ops|
    decreases |ops|
  {
    if ops != [] {
      RunningFinishedPartition(ops[1..]);
      assert ops == [ops[0]] + ops[1..];
    }
  }

  /** The summary line; nothing at all renders without operations. */
  function Summary(ops: seq<Operation>): (r: Option<string>)
    ensures r.None? <==> ops == []
    ensures ops != [] && |RunningOps(ops)| == 0 ==> r == Some("Sync completed")
    ensures |RunningOps(ops)| > 0 ==>
      r == Some("Syncing " + NatToString(|RunningOps(ops)|) + AccountWord(|RunningOps(ops)|) + "...")
  {
    if |ops| == 0 then None
    else
      var n := |RunningOps(ops)|;
      if n > 0 then Some("Syncing " + NatToString(n) + AccountWord(n) + "...")
      else Some("Sync completed")
  }

  /** `account${n > 1 ? 's' : ''}` with its leading space. */
  function AccountWord(n: nat): (w: string)
    ensures w == " account" <==> n <= 1
    ensures w == " account" || w == " accounts"
  {
    if n > 1 then " accounts" else " account"
  }

  /** The header's close button: when nothing is running it dismisses every
      finished operation, otherwise nothing. */
  function HeaderDismiss(ops: seq<Operation>): (ids: seq<string>)
    ensures |RunningOps(ops)| > 0 ==> ids == []
    ensures |RunningOps(ops)| == 0 ==> |ids| == |FinishedOps(ops)|
    ensures |RunningOps(ops)| == 0 ==> forall i :: 0 <= i < |ids| ==> ids[i] == FinishedOps(ops)[i].id
  {
    if |RunningOps(ops)| == 0 then
      var f := FinishedOps(ops);
      seq(|f|, i requires 0 <= i < |f| => f[i].id)
    else []
  }

  /** With nothing running, the header button dismisses every operation
      shown, in order. */
  lemma HeaderDismissesAll(ops: seq<Operation>)
    requires |RunningOps(ops)| == 0
    ensures |HeaderDismiss(ops)| == |ops|
    ensures forall i :: 0 <= i < |ops| ==> HeaderDismiss(ops)[i] == ops[i].id
  {
    NoneRunningAllFinished(ops);
  }

  lemma {:induction false} NoneRunningAllFinished(ops: seq<Operation>)
    requires |RunningOps(ops)| == 0
    ensures FinishedOps(ops) == ops
    decreases |ops|
  {
    if ops != [] {
      NoneRunningAllFinished(ops[1..]);
    }
  }

  /** A per-operation close button is offered only for finished operations. */
  predicate DismissOffered(op: Operation) {
    op.status != Running
  }

  /** Whatever the header or a row dismisses is finished. */
  lemma DismissedAreFinished(ops: seq<Operation>, i: nat)
    requires i < |HeaderDismiss(ops)|
    ensures DismissOffered(FinishedOps(ops)[i]) && FinishedOps(ops)[i].id == HeaderDismiss(ops)[i]
  {
  }
}

=== FILE: uri_encoding.dfy ===
/** `encodeURIComponent`, which the OAuth callback pages apply to the
    authorization code before putting it in a query string or a form body,
    together with the percent-decoding a server applies to read it back. */
module UriEncoding {
  import opened Js

  type Byte = b: nat | b < 256

  /** The characters `encodeURIComponent` leaves unescaped. */
  predicate IsUnreserved(c: char) {
    || ('A' <= c <= 'Z') || ('a' <= c <= 'z') || ('0' <= c <= '9')
    || c == '-' || c == '_' || c == '.' || c == '!' || c == '~'
    || c == '*' || c == '\'' || c == '(' || c == ')'
  }

  /** The UTF-8 encoding of one Unicode scalar value. */
  function Utf8(c: char): (bs: seq<Byte>)
    ensures 1 <= |bs| <= 4
  {
    var cp := c as int;
    if cp < 0x80 then [cp]
    else if cp < 0x800 then [0xC0 + cp / 64, 0x80 + cp % 64]
    else if cp < 0x10000 then [0xE0 + cp / 4096, 0x80 + (cp / 64) % 64, 0x80 + cp % 64]
    else [0xF0 + cp / 262144, 0x80 + (cp / 4096) % 64, 0x80 + (cp / 64) % 64, 0x80 + cp % 64]
  }

  /** Upper-case hexadecimal digit, as `encodeURIComponent` writes them. */
  function HexDigit(d: nat): char
    requires d < 16
  {
    if d < 10 then ('0' as int + d) as char else ('A' as int + d - 10) as char
  }

  function PercentByte(b: Byte): string {
    ['%', HexDigit(b / 16), HexDigit(b % 16)]
  }

  function PercentBytes(bs: seq<Byte>): (s: string)
    ensures |s| == 3 * |bs|
  {
    if bs == [] then [] else PercentByte(bs[0]) + PercentBytes(bs[1..])
  }

  function EncodeChar(c: char): string {
    if IsUnreserved(c) then [c] else PercentBytes(Utf8(c))
  }

  /** `encodeURIComponent(s)`. Its output contains only unreserved characters
      and `%`, so in particular no `&`, `=`, `+`, `#` or space: it can stand as
      one value of a query string or of a form body. */
  function EncodeUriComponent(s: string): (r: string)
    ensures forall i :: 0 <= i < |r| ==> IsUnreserved(r[i]) || r[i] == '%'
  {
    if s == [] then []
    else
      var head := EncodeChar(s[0]);
      var tail := EncodeUriComponent(s[1..]);
      assert forall i :: 0 <= i < |head| ==> IsUnreserved(head[i]) || head[i] == '%' by {
        if !IsUnreserved(s[0]) {
          PercentBytesAlphabet(Utf8(s[0]));
        }
      }
      head + tail
  }

  lemma {:induction false} PercentBytesAlphabet(bs: seq<Byte>)
    ensures forall i :: 0 <= i < |PercentBytes(bs)| ==>
      IsUnreserved(PercentBytes(bs)[i]) || PercentBytes(bs)[i] == '%'
  {
    if bs != [] {
      PercentBytesAlphabet(bs[1..]);
    }
  }

  // ---------------------------------------------------------------------
  // Percent-decoding with UTF-8 validation (the server side of the exchange)

  predicate IsHexDigit(c: char) {
    ('0' <= c <= '9') || ('A' <= c <= 'F') || ('a' <= c <= 'f')
  }

  function HexValue(c: char): (d: nat)
    requires IsHexDigit(c)
    ensures d < 16
  {
    if '0' <= c <= '9' then c as int - '0' as int
    else if 'A' <= c <= 'F' then c as int - 'A' as int + 10
    else c as int - 'a' as int + 10
  }

  /** Reads `n` consecutive `%XX` escapes from the front of `s`. */
  function ReadBytes(s: string, n: nat): (r: Option<seq<Byte>>)
    ensures r.Some? ==> |r.value| == n && 3 * n <= |s|
  {
    if n == 0 then Some([])
    else if 3 <= |s| && s[0] == '%' && IsHexDigit(s[1]) && IsHexDigit(s[2]) then
      match ReadBytes(s[3..], n - 1)
      case None => None
      case Some(rest) => Some([HexValue(s[1]) * 16 + HexValue(s[2])] + rest)
    else None
  }

  /** The length of the UTF-8 sequence a lead byte announces; 0 if invalid. */
  function SequenceLength(lead: Byte): nat {
    if lead < 0x80 then 1
    else if 0xC0 <= lead < 0xE0 then 2
    else if 0xE0 <= lead < 0xF0 then 3
    else if 0xF0 <= lead < 0xF8 then 4
    else 0
  }

  predicate IsContinuation(b: Byte) {
    0x80 <= b < 0xC0
  }

  predicate IsScalar(cp: int) {
    (0 <= cp < 0xD800) || (0xE000 <= cp < 0x110000)
  }

  /** Decodes one complete UTF-8 sequence, refusing overlong forms and
      surrogates. */
  function DecodeSequence(bs: seq<Byte>): Option<char> {
    if bs == [] || SequenceLength(bs[0]) != |bs| then None
    else if |bs| == 1 then Some(bs[0] as char)
    else if |bs| == 2 then
      var cp := (bs[0] as int - 0xC0) * 64 + (bs[1] as int - 0x80);
      if IsContinuation(bs[1]) && 0x80 <= cp && IsScalar(cp) then Some(cp as char) else None
    else if |bs| == 3 then
      var cp := (bs[0] as int - 0xE0) * 4096 + (bs[1] as int - 0x80) * 64 + (bs[2] as int - 0x80);
      if IsContinuation(bs[1]) && IsContinuation(bs[2]) && 0x800 <= cp && IsScalar(cp)
      then Some(cp as char) else None
    else
      var cp := (bs[0] as int - 0xF0) * 262144 + (bs[1] as int - 0x80) * 4096
        + (bs[2] as int - 0x80) * 64 + (bs[3] as int - 0x80);
      if IsContinuation(bs[1]) && IsContinuation(bs[2]) && IsContinuation(bs[3])
         && 0x10000 <= cp && IsScalar(cp)
      then Some(cp as char) else None
  }

  /** `decodeURIComponent(s)`, or `None` where it would throw `URIError`. */
  function DecodeUriComponent(s: string): (r: Option<string>)
    ensures r.Some? ==> |r.value| <= |s|
    decreases |s|
  {
    if s == [] then Some([])
    else if s[0] != '%' then
      match DecodeUriComponent(s[1..])
      case None => None
      case Some(rest) => Some([s[0]] + rest)
    else
      match ReadBytes(s, 1)
      case None => None
      case Some(lead) =>
        var n := SequenceLength(lead[0]);
        if n == 0 then None
        else
          match ReadBytes(s, n)
          case None => None
          case Some(bs) =>
            match DecodeSequence(bs)
            case None => None
            case Some(c) =>
              match DecodeUriComponent(s[3 * n..])
              case None => None
              case Some(rest) => Some([c] + rest)
  }

  // ---------------------------------------------------------------------
  // Round trip

  lemma HexDigitRoundTrip(d: nat)
    requires d < 16
    ensures IsHexDigit(HexDigit(d)) && HexValue(HexDigit(d)) == d
  {
  }

  /** One `%XX` escape reads back as its byte. */
  lemma PercentByteValue(b: Byte)
    ensures IsHexDigit(PercentByte(b)[1]) && IsHexDigit(PercentByte(b)[2])
    ensures HexValue(PercentByte(b)[1]) * 16 + HexValue(PercentByte(b)[2]) == b
  {
    HexDigitRoundTrip(b / 16);
    HexDigitRoundTrip(b % 16);
  }

  lemma {:induction false} ReadPercentBytes(bs: seq<Byte>, rest: string)
    ensures ReadBytes(PercentBytes(bs) + rest, |bs|) == Some(bs)
  {
    if bs != [] {
      var tail := PercentBytes(bs[1..]) + rest;
      var s := PercentBytes(bs) + rest;
      assert s == PercentByte(bs[0]) + tail;
      PercentByteValue(bs[0]);
      assert s[0] == '%' && s[1] == PercentByte(bs[0])[1] && s[2] == PercentByte(bs[0])[2];
      assert s[3..] == tail;
      ReadPercentBytes(bs[1..], rest);
      assert [bs[0]] + bs[1..] == bs;
    }
  }

  lemma Utf8Decodes(c: char)
    ensures SequenceLength(Utf8(c)[0]) == |Utf8(c)|
    ensures DecodeSequence(Utf8(c)) == Some(c)
  {
    var cp := c as int;
    var bs := Utf8(c);
    if cp < 0x80 {
    } else if cp < 0x800 {
      assert (bs[0] as int - 0xC0) * 64 + (bs[1] as int - 0x80) == cp;
    } else if cp < 0x10000 {
      var hi, lo := cp / 64, cp % 64;
      assert cp == hi * 64 + lo;
      assert hi == (cp / 4096) * 64 + hi % 64;
      assert (bs[0] as int - 0xE0) * 4096 + (bs[1] as int - 0x80) * 64 + (bs[2] as int - 0x80) == cp;
    } else {
      var q1, r1 := cp / 64, cp % 64;
      var q2, r2 := q1 / 64, q1 % 64;
      var q3, r3 := q2 / 64, q2 % 64;
      assert cp == q1 * 64 + r1;
      assert q1 == q2 * 64 + r2;
      assert q2 == q3 * 64 + r3;
      assert q2 == cp / 4096;
      assert q3 == cp / 262144;
      assert (bs[0] as int - 0xF0) * 262144 + (bs[1] as int - 0x80) * 4096
        + (bs[2] as int - 0x80) * 64 + (bs[3] as int - 0x80) == cp;
    }
  }

  /** One step of the decoder on a `%` escape whose bytes form a character. */
  lemma DecodeEscapedStep(s: string, bs: seq<Byte>, c: char, rest: string, t: string)
    requires |bs| >= 1 && s != [] && s[0] == '%'
    requires ReadBytes(s, 1) == Some([bs[0]]) && SequenceLength(bs[0]) == |bs|
    requires ReadBytes(s, |bs|) == Some(bs) && DecodeSequence(bs) == Some(c)
    requires s[3 * |bs|..] == rest && DecodeUriComponent(rest) == Some(t)
    ensures DecodeUriComponent(s) == Some([c] + t)
  {
  }

  /** The escapes of a byte sequence start with the escape of its first byte. */
  lemma ReadLeadByte(bs: seq<Byte>, rest: string)
    requires bs != []
    ensures ReadBytes(PercentBytes(bs) + rest, 1) == Some([bs[0]])
  {
    ReadPercentBytes([bs[0]], PercentBytes(bs[1..]) + rest);
    assert PercentBytes([bs[0]]) == PercentByte(bs[0]);
    assert PercentBytes(bs) + rest == PercentBytes([bs[0]]) + (PercentBytes(bs[1..]) + rest);
  }

  /** Decoding the escape of one character yields that character and leaves
      the rest of the string to decode. */
  lemma DecodeEncodeChar(c: char, rest: string, t: string)
    requires DecodeUriComponent(rest) == Some(t)
    ensures DecodeUriComponent(EncodeChar(c) + rest) == Some([c] + t)
  {
    var s := EncodeChar(c) + rest;
    if IsUnreserved(c) {
      assert s[1..] == rest;
    } else {
      var bs := Utf8(c);
      assert s == PercentBytes(bs) + rest;
      Utf8Decodes(c);
      ReadPercentBytes(bs, rest);
      ReadLeadByte(bs, rest);
      assert s[0] == '%';
      assert s[3 * |bs|..] == rest;
      DecodeEscapedStep(s, bs, c, rest, t);
    }
  }

  /** The server recovers exactly the code the page sent. */
  lemma {:induction false} DecodeEncode(s: string)
    ensures DecodeUriComponent(EncodeUriComponent(s)) == Some(s)
  {
    if s != [] {
      DecodeEncode(s[1..]);
      DecodeEncodeChar(s[0], EncodeUriComponent(s[1..]), s[1..]);
      assert [s[0]] + s[1..] == s;
    }
  }

  /** Different codes are sent as different strings. */
  lemma EncodeInjective(s: string, t: string)
    requires EncodeUriComponent(s) == EncodeUriComponent(t)
    ensures s == t
  {
    DecodeEncode(s);
    DecodeEncode(t);
  }
}

=== FILE: vendor_selection.dfy ===
/** `VendorSelection`: choosing the vendors whose invoices are scanned, the
    search over the catalogue, and the custom-vendor form. */
module VendorSelection {
  import opened Js
  import opened Selection

  // ---------------------------------------------------------------------
  // Selection and saving

  /** `handleVendorToggle` over the `Set` of selected ids. */
  function ToggleVendor(selected: set<string>, id: string): (r: set<string>)
    ensures id in r <==> id !in selected
    ensures forall x :: x != id ==> (x in r <==> x in selected)
  {
    Flip(selected, id)
  }

  /** The save button is disabled while saving or with nothing selected. */
  predicate SaveDisabled(isSaving: bool, selected: set<string>) {
    isSaving || |selected| == 0
  }

  /** Toggling one vendor on an empty selection enables saving, and toggling
      it again disables it. */
  lemma ToggleEnablesSave(id: string)
    ensures !SaveDisabled(false, ToggleVendor({}, id))
    ensures SaveDisabled(false, ToggleVendor(ToggleVendor({}, id), id))
  {
    FlipTwice({}, id);
  }

  // ---------------------------------------------------------------------
  // Search

  /** The catalogue fields the search reads; each may be missing. */
  datatype Vendor = Vendor(
    id: string,
    name: Option<string>,
    displayName: Option<string>,
    category: Option<string>,
    domains: Option<seq<string>>)

  /** `(vendor.display_name || vendor.name || '')` */
  function ShownName(v: Vendor): string {
    OrElse(v.displayName, OrElse(v.name, ""))
  }

  /** The vendor matches the lower-cased term in its shown name, its category
      or one of its typical domains. */
  predicate Matches(v: Vendor, term: string) {
    var t := Lower(term);
    || Includes(Lower(ShownName(v)), t)
    || Includes(Lower(OrElse(v.category, "")), t)
    || (v.domains.Some? && exists i :: 0 <= i < |v.domains.value| && Includes(Lower(v.domains.value[i]), t))
  }

  /** `filteredVendors`: every vendor for an empty term, otherwise exactly
      the matching ones, in catalogue order. */
  function Filtered(vendors: seq<Vendor>, term: string): (r: seq<Vendor>)
    ensures |r| <= |vendors|
    ensures term == "" ==> r == vendors
    ensures forall i :: 0 <= i < |r| ==> r[i] in vendors && (term == "" || Matches(r[i], term))
    ensures forall i :: 0 <= i < |vendors| && (term == "" || Matches(vendors[i], term)) ==> vendors[i] in r
    decreases |vendors|
  {
    if vendors == [] then []
    else
      var rest := Filtered(vendors[1..], term);
      assert forall i :: 1 <= i < |vendors| ==> vendors[i] == vendors[1..][i - 1];
      if term == "" || Matches(vendors[0], term) then [vendors[0]] + rest else rest
  }

  /** The filter keeps the catalogue order: filtering a concatenation is
      concatenating the filtered parts. */
  lemma {:induction false} FilteredAppend(a: seq<Vendor>, b: seq<Vendor>, term: string)
    ensures Filtered(a + b, term) == Filtered(a, term) + Filtered(b, term)
    decreases |a|
  {
    if a == [] {
      assert a + b == b;
    } else {
      assert (a + b)[1..] == a[1..] + b;
      FilteredAppend(a[1..], b, term);
    }
  }

  /** Searching the search results again changes nothing. */
  lemma {:induction false} FilteredIdempotent(vendors: seq<Vendor>, term: string)
    ensures Filtered(Filtered(vendors, term), term) == Filtered(vendors, term)
    decreases |vendors|
  {
    if vendors != [] {
      var rest := Filtered(vendors[1..], term);
      FilteredIdempotent(vendors[1..], term);
      if term == "" || Matches(vendors[0], term) {
        assert Filtered(vendors, term) == [vendors[0]] + rest;
        assert ([vendors[0]] + rest)[1..] == rest;
      }
    }
  }

  // ---------------------------------------------------------------------
  // The custom-vendor form

  datatype VendorForm = VendorForm(name: string, domains: seq<string>, category: string)

  const EmptyForm := VendorForm("", [""], "software")

  const NameRequiredText := "Vendor name is required"
  const DomainRequiredText := "At least one email domain is required"
  const AddFailedText := "Failed to add custom vendor"

  /** Some character is not whitespace. */
  predicate Filled(d: string) {
    !IsBlank(d)
  }

  /** `domain.trim()` is truthy exactly for the filled strings. */
  lemma TrimmedIffFilled(d: string)
    ensures Trim(d) != "" <==> Filled(d)
  {
    TrimEmptyIffBlank(d);
  }

  /** `email_domains.filter(domain => domain.trim())` */
  function ValidDomains(ds: seq<string>): (r: seq<string>)
    ensures |r| <= |ds|
    ensures forall i :: 0 <= i < |r| ==> Filled(r[i])
    decreases |ds|
  {
    if ds == [] then []
    else if Filled(ds[0]) then [ds[0]] + ValidDomains(ds[1..])
    else ValidDomains(ds[1..])
  }

  /** The domains submitted are exactly the filled ones, untrimmed. */
  lemma {:induction false} ValidDomainsAreFilled(ds: seq<string>)
    ensures forall i :: 0 <= i < |ValidDomains(ds)| ==> Filled(ValidDomains(ds)[i]) && ValidDomains(ds)[i] in ds
    ensures forall i :: 0 <= i < |ds| && Filled(ds[i]) ==> ds[i] in ValidDomains(ds)
    decreases |ds|
  {
    if ds != [] {
      ValidDomainsAreFilled(ds[1..]);
      var rest := ValidDomains(ds[1..]);
      assert forall i :: 1 <= i < |ds| ==> ds[i] == ds[1..][i - 1];
      if Filled(ds[0]) {
        var r := [ds[0]] + rest;
        assert forall i :: 1 <= i < |r| ==> r[i] == rest[i - 1];
      }
    }
  }

  /** The check of `handleAddCustomVendor`: the request it sends, or the
      message it shows instead. */
  datatype Submission = Invalid(message: string) | Submit(name: string, domains: seq<string>, category: string)

  function Validate(f: VendorForm): (r: Submission)
    ensures r.Invalid? <==> IsBlank(f.name) || forall i :: 0 <= i < |f.domains| ==> IsBlank(f.domains[i])
    ensures IsBlank(f.name) ==> r == Invalid(NameRequiredText)
    ensures r.Invalid? && !IsBlank(f.name) ==> r == Invalid(DomainRequiredText)
    ensures r.Submit? ==> r.name == f.name && r.category == f.category && r.domains == ValidDomains(f.domains)
    ensures r.Submit? ==> r.domains != []
  {
    TrimEmptyIffBlank(f.name);
    if Trim(f.name) == "" then Invalid(NameRequiredText)
    else
      var valid := ValidDomains(f.domains);
      BlankDomains(f.domains);
      if |valid| == 0 then Invalid(DomainRequiredText)
      else Submit(f.name, valid, f.category)
  }

  /** No domain survives the filter exactly when every domain is blank. */
  lemma BlankDomains(ds: seq<string>)
    ensures ValidDomains(ds) == [] <==> forall i :: 0 <= i < |ds| ==> IsBlank(ds[i])
  {
    ValidDomainsAreFilled(ds);
    if ValidDomains(ds) != [] {
      assert ValidDomains(ds)[0] in ds;
    }
  }

  /** The form's page state: the form, whether it is open, and the error. */
  datatype FormState = FormState(form: VendorForm, open: bool, error: Option<string>)

  /** What the backend did with the custom vendor. */
  datatype AddOutcome = Added | AddFailed(detail: Option<string>)

  /** `handleAddCustomVendor`: an invalid form shows its message and sends
      nothing; a valid one sends the request, then resets and closes the form
      on success or shows the backend's reason on failure. */
  function AddCustomVendor(s: FormState, outcome: AddOutcome): (r: (FormState, seq<Submission>))
    ensures Validate(s.form).Invalid? ==> r == (s.(error := Some(Validate(s.form).message)), [])
    ensures Validate(s.form).Submit? ==> r.1 == [Validate(s.form)]
    ensures Validate(s.form).Submit? && outcome.Added? ==> r.0 == FormState(EmptyForm, false, None)
    ensures Validate(s.form).Submit? && outcome.AddFailed? ==>
      r.0 == s.(error := Some(OrElse(outcome.detail, AddFailedText)))
  {
    var v := Validate(s.form);
    if v.Invalid? then (s.(error := Some(v.message)), [])
    else
      match outcome
      case Added => (FormState(EmptyForm, false, None), [v])
      case AddFailed(detail) => (s.(error := Some(OrElse(detail, AddFailedText))), [v])
  }

  /** A reset form is refused as it stands: its name is empty. */
  lemma ResetFormIsIncomplete()
    ensures Validate(EmptyForm) == Invalid(NameRequiredText)
  {
    assert IsBlank("");
  }

  // ---------------------------------------------------------------------
  // The domain fields

  /** `addEmailDomainField` */
  function AddDomainField(f: VendorForm): (r: VendorForm)
    ensures |r.domains| == |f.domains| + 1 && r.domains[|f.domains|] == ""
    ensures r.domains[..|f.domains|] == f.domains
    ensures r.name == f.name && r.category == f.category
  {
    f.(domains := f.domains + [""])
  }

  /** `updateEmailDomain(i, value)`: field `i` takes the value, the rest is
      untouched (an index outside the list changes nothing). */
  function UpdateDomain(f: VendorForm, i: int, value: string): (r: VendorForm)
    ensures |r.domains| == |f.domains|
    ensures forall j :: 0 <= j < |f.domains| ==> r.domains[j] == if j == i then value else f.domains[j]
    ensures r.name == f.name && r.category == f.category
  {
    f.(domains := seq(|f.domains|, j requires 0 <= j < |f.domains| => if j == i then value else f.domains[j]))
  }

  /** `removeEmailDomain(i)`: field `i` goes, the others keep their order. */
  function RemoveDomain(f: VendorForm, i: int): (r: VendorForm)
    ensures 0 <= i < |f.domains| ==> |r.domains| == |f.domains| - 1
    ensures 0 <= i < |f.domains| ==> forall j :: 0 <= j < i ==> r.domains[j] == f.domains[j]
    ensures 0 <= i < |f.domains| ==> forall j :: i <= j < |r.domains| ==> r.domains[j] == f.domains[j + 1]
    ensures !(0 <= i < |f.domains|) ==> r == f
    ensures r.name == f.name && r.category == f.category
  {
    if 0 <= i < |f.domains| then f.(domains := f.domains[..i] + f.domains[i + 1..]) else f
  }

  /** The remove button is shown next to each field only when there is more
      than one. */
  predicate RemoveOffered(f: VendorForm) {
    |f.domains| > 1
  }

  /** Removing through the offered button always leaves at least one field,
      and adding a field then removing it restores the form. */
  lemma DomainFieldsNeverRunOut(f: VendorForm, i: int)
    requires RemoveOffered(f) && 0 <= i < |f.domains|
    ensures |RemoveDomain(f, i).domains| >= 1
    ensures RemoveDomain(AddDomainField(f), |f.domains|) == f
  {
    var g := AddDomainField(f);
    assert g.domains[..|f.domains|] + g.domains[|f.domains| + 1..] == f.domains;
  }
}
